=== FILE: README.md ===
# folder-app core, modelled in Dafny

This project models Folder, a Finder-style file browser for macOS. It covers the logic behind the
browser window:

- listing a directory (hidden-file filter, entry construction, the folders-first,
  case-insensitive order);
- the explorer controller (navigation history, sorting, view mode, multi-selection, the arrow-key
  moves, folder creation, rename, trash);
- the clipboard (copy, cut, paste, conflict resolution, unique "copy N" names);
- the recursive name search with its depth limit and cancellation;
- the recursive folder size;
- the sidebar store (favourites, recent locations, colour tags);
- the hex colour parser;
- the hotkey key-code table and modifier translation;
- the mounted-volume filter.

Everything is stated with immutable datatypes and pure functions. The modules are:

| module | file | models |
|---|---|---|
| `Wrappers` | wrappers.dfy | `Option`, `Result` |
| `Text` | text.dfy | ASCII case folding, lexicographic order on code points, substring search, decimal rendering |
| `Sorting` | sorting.dfy | one stable insertion sort into a key order, and reversal |
| `Paths` | paths.dfy | file URLs as component sequences: last component, parent, appending, extension |
| `ViewModes` | viewmode.dfy | `ViewMode` and its enums |
| `Items` | items.dfy | `FileSystemItem`: classification, icon, ordering, hashing |
| `Listing` | listing.dfy | `FileSystemService`: directory listing, folder size, URL helpers |
| `Disk` | disk.dfy | the filesystem as a set of existing paths, with copy/move/trash/create |
| `Selections` | selection.dfy | the selection set with its anchor, range selection, arrow moves |
| `Explorer` | explorer.dfy | `FileExplorerViewModel` |
| `Clipboard` | clipboard.dfy | `ClipboardManager` |
| `SearchViewModel` | search.dfy | `SearchViewModel` and its recursive walk |
| `Sidebar` | sidebar.dfy | `SidebarManager` and `TagColor` |
| `ColorHex` | color.dfy | `Color(hex:)` and the folder accent colour |
| `Hotkeys` | hotkeys.dfy | `GlobalHotkeyManager` key codes and modifier bits |
| `Volumes` | volumes.dfy | `VolumeManager.loadMountedVolumes` |

How the environment is represented:

- **The directory tree** seen by a listing, a search or a folder-size walk is a `Node`. A node carries
  its name, whether the system reports it hidden, its resource values (`None` when reading them
  throws) and its contents (`Unlistable` when enumerating it throws).
- **The mutable filesystem** seen by the controllers is a `set<Path>` of existing paths. Copy, move
  and trash act on a path together with everything under it.
- **Failures** the model cannot predict (permissions, I/O errors) come from caller-supplied oracles:
  - a `fails` flag for one operation;
  - a `failAt` set of item positions for loops.
- **Cancellation** of a running search is an optional budget. The budget counts the cancellation
  checks that still see "not cancelled", so `None` means the search is never cancelled.
- **`Set.first`**, used by the arrow-key moves, is also an oracle: a parameter `first` that must be
  `None` exactly when the set is empty and a member otherwise.
- **Item identities** are the UUIDs drawn when an entry is built. They are passed in.
- **The clock** is a parameter `now`.

## Model

| member | source | states |
|---|---|---|
| Items.IconName | Sources/FolderApp/Models/FileSystemItem.swift:31-40 | each kind has its own SF Symbol name: folders "folder.fill", symlinks "link", files "doc.fill" |
| Items.FromUrl | Sources/FolderApp/Models/FileSystemItem.swift:43-79 | no entry when the resource values cannot be read; a symlink is classified before a directory; folders have size 0 and other entries the reported size or 0; the name is the last component and the parent the URL minus it |
| Items.LessIsFinderKeyOrder | Sources/FolderApp/Models/FileSystemItem.swift:118-128 | the item order is exactly the lexicographic order of the key (folder flag, lower-cased name), so the generic sort applies to it |
| Items.FoldersFirst | Sources/FolderApp/Models/FileSystemItem.swift:118-124 | a folder sorts before every non-folder and never after it |
| Items.LessIsStrictOrder | Sources/FolderApp/Models/FileSystemItem.swift:118-128 | `<` is irreflexive, asymmetric and transitive; within one folder/non-folder class it is case-insensitive name order |
| Items.HashConsistentWithEquality | Sources/FolderApp/Models/FileSystemItem.swift:110-113 | equal items hash alike under any hasher, as hashing must agree with the synthesised equality; items that share only their id also hash alike |
| ViewModes.Default | Sources/FolderApp/Models/ViewMode.swift:35-41 | the default view is an icon grid at size 64, sorted by date modified, descending |
| ViewModes.FlipOrderInvolution | Sources/FolderApp/Models/ViewMode.swift:29-32 | flipping the sort order twice gives the original order |
| Paths.AppendingThenDeleting | Sources/FolderApp/Models/FileSystemItem.swift:45-47 | removing the last component undoes appending one, and the appended name becomes the last component |
| Paths.DeletingShortens | Sources/FolderApp/Services/FileSystemService.swift:64-67 | removing the last component changes a path exactly when it is not the root; parent plus last component rebuilds the path |
| Paths.ExtensionRoundTrip | Sources/FolderApp/ViewModels/ClipboardManager.swift:158-160 | a name is its stem, a dot and its extension whenever it has one; the extension contains no dot |
| Text.OccursIsSlice | Sources/FolderApp/ViewModels/SearchViewModel.swift:87 | the substring test holds exactly when the query occurs at some position of the name |
| Text.LowerIdempotent | Sources/FolderApp/Services/GlobalHotkeyManager.swift:91 | lower-casing twice equals lower-casing once |
| Text.ParseNatToString | Sources/FolderApp/ViewModels/ClipboardManager.swift:168-170 | the decimal rendering of the copy counter parses back to the counter |
| Text.NatToStringInjective | Sources/FolderApp/ViewModels/ClipboardManager.swift:168-170 | distinct counters render as distinct strings |
| Text.LexTrichotomy | Sources/FolderApp/Models/FileSystemItem.swift:127 | any two keys are equal or ordered one way or the other |
| Text.LexLessTransitive | Sources/FolderApp/Models/FileSystemItem.swift:127 | the key order is transitive |
| Sorting.SortBy | Sources/FolderApp/Services/FileSystemService.swift:53 | the result is a permutation of the input and is non-decreasing in the key |
| Sorting.ReverseOfSorted | Sources/FolderApp/ViewModels/FileExplorerViewModel.swift:289-293 | reversing an ascending sequence gives a descending one |
| Listing.ContentsOfDirectory | Sources/FolderApp/Services/FileSystemService.swift:22-54 | fails exactly when the directory cannot be enumerated; otherwise returns a permutation of the kept, readable children, sorted by the item order |
| Listing.ListedIffKept | Sources/FolderApp/Services/FileSystemService.swift:38-50 | a readable child is listed exactly when hidden files are shown or it is neither marked hidden nor dot-prefixed; an unreadable child is never listed |
| Listing.FolderSizeIsSumOfDescendants | Sources/FolderApp/Services/FileSystemService.swift:125-152 | the size succeeds exactly when every enumerated descendant is readable, and is then the sum of the non-directory descendants' sizes; hidden folders and symbolic links are not entered |
| Listing.ParentDirectory | Sources/FolderApp/Services/FileSystemService.swift:64-67 | a parent exists exactly when deleting the last component changes the path, which here is every path but the root; the parent is then one component shorter and appending the last component restores the path |
| Listing.CreateFolderTarget | Sources/FolderApp/Services/FileSystemService.swift:99-102 | the new folder is the given name directly inside the given directory |
| Listing.RenameTarget | Sources/FolderApp/Services/FileSystemService.swift:93-96 | the renamed item stays in its parent directory under the new name, so the item lies inside the target only when the target is the item itself |
| Listing.ExpandTilde | Sources/FolderApp/Services/FileSystemService.swift:107-120 | "~" alone and "~/…" are expanded against home; strings without a leading tilde are unchanged |
| Listing.ResolveUrl | Sources/FolderApp/Services/FileSystemService.swift:107-120 | returns the expanded path exactly when it exists, and nothing otherwise |
| Disk.CopyItem | Sources/FolderApp/Services/FileSystemService.swift:83-85 | succeeds exactly when no error occurs, the source exists and the destination does not; nothing is lost, the destination appears and holds a copy of everything inside the source, and nothing else is added |
| Disk.MoveItem | Sources/FolderApp/Services/FileSystemService.swift:88-90 | the success condition of a copy, and the destination must not lie inside the source; the destination appears holding everything that was inside the source; the source and everything inside it are gone; nothing outside the source's subtree is lost, and nothing but the moved paths is added |
| Disk.Trash | Sources/FolderApp/Services/FileSystemService.swift:77-80 | succeeds exactly when the item exists and no error occurs; afterwards the disk holds exactly the paths that lay outside the item |
| Disk.CreateDirectory | Sources/FolderApp/Services/FileSystemService.swift:99-102 | succeeds exactly when the parent exists and the target does not; adds exactly the target |
| Explorer.Init | Sources/FolderApp/ViewModels/FileExplorerViewModel.swift:41-56 | a new window starts at the given path with empty history, no selection and both history buttons disabled |
| Explorer.Navigate | Sources/FolderApp/ViewModels/FileExplorerViewModel.swift:137-162 | a missing target only sets the error; otherwise forward history is truncated, the path being left is pushed, forward is disabled and the selection is cleared |
| Explorer.NavigateToParent | Sources/FolderApp/ViewModels/FileExplorerViewModel.swift:164-169 | does nothing at the root; a missing parent only sets the error; otherwise the parent, one component shorter, is shown through `navigate(to:)`, so the child it came from is what the history appends |
| Explorer.BackAfterParent | Sources/FolderApp/ViewModels/FileExplorerViewModel.swift:164-183 | going up from a fresh window leaves back disabled; with history, back from the parent shows the entry before the child, not the child |
| Explorer.Back | Sources/FolderApp/ViewModels/FileExplorerViewModel.swift:171-183 | when back is possible, steps the index down, shows that history entry, clears the selection and enables forward; otherwise nothing changes |
| Explorer.Forward | Sources/FolderApp/ViewModels/FileExplorerViewModel.swift:185-197 | when forward is possible, steps the index up, shows that history entry, clears the selection and enables back; otherwise nothing changes |
| Explorer.BackThenForwardRestoresIndex | Sources/FolderApp/ViewModels/FileExplorerViewModel.swift:171-202 | back followed by forward returns to the same history position |
| Explorer.BackAfterNavigate | Sources/FolderApp/ViewModels/FileExplorerViewModel.swift:137-183 | back right after navigating shows the history entry that was current before, not the folder just left |
| Explorer.NavigationRoundTripFailsAsWritten | Sources/FolderApp/ViewModels/FileExplorerViewModel.swift:149 | after the first navigation from a fresh state back is still disabled; after navigating h→a→b→c, back twice shows h, not a, and forward twice then shows b, not c |
| Explorer.NavigateIntended | Sources/FolderApp/ViewModels/FileExplorerViewModel.swift:137-162 | corrected navigation: the new folder is the current history entry and the folder left is the one before it |
| Explorer.IntendedHistoryRoundTrips | Sources/FolderApp/ViewModels/FileExplorerViewModel.swift:137-202 | with the corrected navigation, back undoes a navigation and back/forward undo each other |
| Explorer.FieldKeyOrder | Sources/FolderApp/ViewModels/FileExplorerViewModel.swift:273-294 | the per-field comparison is exactly the lexicographic order of that field's key |
| Explorer.SortItems | Sources/FolderApp/ViewModels/FileExplorerViewModel.swift:273-294 | the items are permuted and put in the view mode's order: ascending by the chosen field, or descending |
| Explorer.DescendingReversesAscending | Sources/FolderApp/ViewModels/FileExplorerViewModel.swift:288-290 | the descending listing is exactly the ascending listing reversed, ties included |
| Explorer.Reload | Sources/FolderApp/ViewModels/FileExplorerViewModel.swift:80-115 | on failure the listing is emptied and the error set; on success the items are the listing permuted into the view mode's order, the error is cleared, the folder is watched, and the first item is added to the selection |
| Explorer.ReloadKeepsStaleIds | Sources/FolderApp/ViewModels/FileExplorerViewModel.swift:80-115 | a reload never removes ids from the selection |
| Explorer.SetSortOption | Sources/FolderApp/ViewModels/FileExplorerViewModel.swift:261-264 | only the sort field changes; the items are permuted into the new order |
| Explorer.ToggleSortOrderTwice | Sources/FolderApp/ViewModels/FileExplorerViewModel.swift:266-269 | toggling the sort order twice restores the view mode |
| Explorer.ToggleSortOrder | Sources/FolderApp/ViewModels/FileExplorerViewModel.swift:266-269 | the order flips and the sort field and display mode stay; the items are permuted into the flipped order |
| Explorer.ToggleViewMode | Sources/FolderApp/ViewModels/FileExplorerViewModel.swift:253-255 | only the display mode changes, to the other mode |
| Explorer.ToggleSelection | Sources/FolderApp/ViewModels/FileExplorerViewModel.swift:206-213 | flips membership of the item's id alone and makes it the anchor |
| Explorer.SelectAll | Sources/FolderApp/ViewModels/FileExplorerViewModel.swift:215-217 | the selection becomes exactly the ids of the listed items |
| Explorer.ClearSelection | Sources/FolderApp/ViewModels/FileExplorerViewModel.swift:219-221 | the selection becomes empty; nothing else changes |
| Explorer.SelectRangeIn | Sources/FolderApp/ViewModels/FileExplorerViewModel.swift:227-238 | adds the items between the two positions to the selection, removing nothing |
| Explorer.ArrowMoveSelectsOneListedEntry | Sources/FolderApp/ViewModels/FileExplorerViewModel.swift:306-360 | when the anchor item is listed, every arrow move leaves exactly one listed item selected |
| Explorer.SelectNext | Sources/FolderApp/ViewModels/FileExplorerViewModel.swift:306-318 | with items listed, something is selected afterwards |
| Explorer.SelectPrevious | Sources/FolderApp/ViewModels/FileExplorerViewModel.swift:320-332 | with items listed, something is selected afterwards |
| Explorer.SelectBelow | Sources/FolderApp/ViewModels/FileExplorerViewModel.swift:334-346 | with items listed, something is selected afterwards |
| Explorer.SelectAbove | Sources/FolderApp/ViewModels/FileExplorerViewModel.swift:348-360 | with items listed, something is selected afterwards |
| Explorer.OpenItem | Sources/FolderApp/ViewModels/FileExplorerViewModel.swift:242-249 | a non-folder leaves the browser unchanged; an existing folder is entered through `navigate(to:)`, which appends the folder being left; a missing one only sets the error |
| Explorer.BackAfterOpen | Sources/FolderApp/ViewModels/FileExplorerViewModel.swift:137-183 | back right after opening a folder shows the entry before the folder that was open, or stays put on a first navigation |
| Explorer.CreateNewFolder | Sources/FolderApp/ViewModels/FileExplorerViewModel.swift:387-394 | on success exactly the new folder is added; on failure only the error message is set |
| Explorer.RenameItem | Sources/FolderApp/ViewModels/FileExplorerViewModel.swift:396-405 | on success the new path exists holding the item's contents, the old path and everything inside it are gone, nothing else is lost and nothing but the moved paths is added; on failure the disk is unchanged and only the error message is set |
| Explorer.SelectedInOrder | Sources/FolderApp/ViewModels/FileExplorerViewModel.swift:408 | exactly the listed items whose ids are selected |
| Explorer.TrashAll | Sources/FolderApp/ViewModels/FileExplorerViewModel.swift:408-416 | every item whose trash does not fail is gone, and with it everything inside an item that was present; only the items and their contents can go, nothing is added, and any failure is reported |
| Explorer.TrashAllSucceeds | Sources/FolderApp/ViewModels/FileExplorerViewModel.swift:408-416 | with every item present, none inside another and no outside failure, no failure is reported |
| Explorer.DeleteSelectedItems | Sources/FolderApp/ViewModels/FileExplorerViewModel.swift:407-420 | trashes each selected item with its contents and nothing outside them, keeps going after a failure, reports an error if any failed and leaves the error alone when none can fail, then clears the selection |
| Selections.FirstIndexOf | Sources/FolderApp/ViewModels/FileExplorerViewModel.swift:228-229 | the first position holding the id, or none exactly when no item has it |
| Selections.ToggleTwiceRestoresSet | Sources/FolderApp/ViewModels/FileExplorerViewModel.swift:206-213 | toggling the same item twice restores the selected set |
| Selections.IsSelected | Sources/FolderApp/ViewModels/FileExplorerViewModel.swift:223-225 | true exactly when the item's id is in the selection; the search results use the same test (SearchViewModel.swift:149-151) |
| Selections.ToggleFlipsIsSelected | Sources/FolderApp/ViewModels/FileExplorerViewModel.swift:206-225 | toggling an item flips whether it is selected and leaves every other item's answer alone |
| Selections.SelectRange | Sources/FolderApp/ViewModels/FileExplorerViewModel.swift:227-238 | nothing changes unless both items are listed; otherwise exactly the items between them (either direction) are added and the end item becomes the anchor |
| Selections.MoveForward | Sources/FolderApp/ViewModels/FileExplorerViewModel.swift:306-318 | with no listed anchor, the first item is added; otherwise the selection becomes the single item `step` further on, clamped to the last |
| Selections.MoveBackward | Sources/FolderApp/ViewModels/FileExplorerViewModel.swift:320-332 | with no listed anchor, the first item is added; otherwise the selection becomes the single item `step` back, clamped to the first |
| Clipboard.CopyItems | Sources/FolderApp/ViewModels/ClipboardManager.swift:30-38 | remembers the items with the copy action and puts their paths on the pasteboard in order |
| Clipboard.CutItems | Sources/FolderApp/ViewModels/ClipboardManager.swift:42-50 | remembers the items with the cut action and puts their paths on the pasteboard in order |
| Clipboard.ClearedClipboardHasNoContent | Sources/FolderApp/ViewModels/ClipboardManager.swift:148-155 | after clearing, the clipboard reports no content and the pasteboard is empty |
| Clipboard.HasClipboardContent | Sources/FolderApp/ViewModels/ClipboardManager.swift:148-150 | true exactly when items are remembered |
| Clipboard.Transfer | Sources/FolderApp/ViewModels/ClipboardManager.swift:76-80 | a cut moves and a copy copies; either succeeds exactly when the source exists, the destination is free, no error occurs and, for a cut, the destination is not inside the source; the source's contents arrive at the destination and nothing else is added; a copy loses nothing, a cut removes the source with its contents and nothing outside it |
| Clipboard.CutIntoItselfFails | Sources/FolderApp/ViewModels/ClipboardManager.swift:54-95 | cutting a folder and pasting it into itself reports the folder as failed and leaves the disk and the clipboard unchanged |
| Clipboard.PasteStep | Sources/FolderApp/ViewModels/ClipboardManager.swift:65-87 | an item conflicts exactly when its destination exists; a conflict or failure leaves the disk unchanged; a success lands at destination/name |
| Clipboard.OutcomeAt | Sources/FolderApp/ViewModels/ClipboardManager.swift:65-87 | item i conflicts exactly when its destination exists at its turn, and otherwise succeeds or fails exactly as its transfer on that disk does |
| Clipboard.ConflictsListed | Sources/FolderApp/ViewModels/ClipboardManager.swift:65-75 | the conflicts of a batch are exactly the sources whose destination existed at their turn |
| Clipboard.FailuresListed | Sources/FolderApp/ViewModels/ClipboardManager.swift:76-86 | the failures of a batch are exactly the sources whose transfer failed at their turn |
| Clipboard.SuccessesListed | Sources/FolderApp/ViewModels/ClipboardManager.swift:76-86 | the successes of a batch are exactly the destinations of the items transferred at their turn |
| Clipboard.PasteAllStepwise | Sources/FolderApp/ViewModels/ClipboardManager.swift:65-87 | the outcome of item k is one paste step on the disk left by the items before it |
| Clipboard.EarlierItemCausesConflict | Sources/FolderApp/ViewModels/ClipboardManager.swift:65-87 | two pasted items with the same name: if the first succeeds, the second conflicts |
| Clipboard.SummarizeCounts | Sources/FolderApp/ViewModels/ClipboardManager.swift:182-194 | succeeded, failed, conflicts and skipped partition the outcomes; each list is empty exactly when no outcome of its kind occurred |
| Clipboard.Paste | Sources/FolderApp/ViewModels/ClipboardManager.swift:54-95 | an empty pasteboard is the "nothing to paste" error; otherwise the result summarises the item-by-item outcomes and the disk is the one they leave; every pasted path is counted exactly once; a copy loses nothing and its successes exist afterwards; the clipboard is cleared exactly after a cut whose every item succeeded |
| Clipboard.PasteReadsOnlyPasteboard | Sources/FolderApp/ViewModels/ClipboardManager.swift:54-64 | the paste result and the disk depend only on the pasteboard and the action, not on the remembered items |
| Clipboard.PasteLists | Sources/FolderApp/ViewModels/ClipboardManager.swift:54-95 | the three lists of a paste, item by item: conflicts where the destination existed at that item's turn, failures where the transfer failed there, successes where it was made |
| Clipboard.ResolutionReadsOnlyPasteboard | Sources/FolderApp/ViewModels/ClipboardManager.swift:99-103 | the paste with a conflict resolution also depends only on the pasteboard and the action, not on the remembered items |
| Clipboard.SucceededOf | Sources/FolderApp/ViewModels/ClipboardManager.swift:183-186 | a path is in the succeeded list exactly when some item was pasted to it |
| Clipboard.FailedOf | Sources/FolderApp/ViewModels/ClipboardManager.swift:183-186 | a path is in the failed list exactly when the paste of that source failed |
| Clipboard.ConflictsOf | Sources/FolderApp/ViewModels/ClipboardManager.swift:183-186 | a path is in the conflicts list exactly when that source met an existing destination |
| Clipboard.CandidateInjective | Sources/FolderApp/ViewModels/ClipboardManager.swift:166-172 | different counters give different candidate names |
| Clipboard.FirstFreeFrom | Sources/FolderApp/ViewModels/ClipboardManager.swift:165-174 | returns the first candidate from the given counter on that does not exist |
| Clipboard.GenerateUniqueUrl | Sources/FolderApp/ViewModels/ClipboardManager.swift:157-177 | a free URL is returned unchanged; otherwise the result is "stem copy N[.ext]" for the least N ≥ 1 that does not exist |
| Clipboard.UniqueNameExample | Sources/FolderApp/ViewModels/ClipboardManager.swift:157-177 | with "X", "X copy 1" and "X copy 2" taken, the unique name is "X copy 3" |
| Clipboard.ResolvedStep | Sources/FolderApp/ViewModels/ClipboardManager.swift:108-136 | no item conflicts; skip is chosen exactly for an existing destination under Skip; keep-both lands on a fresh unique name; replace lands on the original destination; without a conflict it is an ordinary paste step |
| Clipboard.ResolvedAllStepwise | Sources/FolderApp/ViewModels/ClipboardManager.swift:108-141 | the outcome of item k is one resolving step on the disk left by the items before it |
| Clipboard.SkipLeavesConflictUntouched | Sources/FolderApp/ViewModels/ClipboardManager.swift:112-114 | skipping a conflicting item changes nothing |
| Clipboard.PasteWithResolution | Sources/FolderApp/ViewModels/ClipboardManager.swift:99-144 | an empty pasteboard is the error; otherwise the result summarises the resolving loop's outcomes and the disk is the one it leaves; no conflicts remain; every item is counted unless skipped; the clipboard is cleared exactly after a cut with no failure |
| SearchViewModel.SearchIn | Sources/FolderApp/ViewModels/SearchViewModel.swift:66-99 | every found item's name contains the query, ignoring case |
| SearchViewModel.VisitedIn | Sources/FolderApp/ViewModels/SearchViewModel.swift:66-99 | every visited item lies under the start folder and at most depth+1 levels below it |
| SearchViewModel.UncancelledSearchIsFilter | Sources/FolderApp/ViewModels/SearchViewModel.swift:66-99 | an uncancelled search finds exactly the visited items whose names match, in visiting order |
| SearchViewModel.CancelledSearchIsPrefix | Sources/FolderApp/ViewModels/SearchViewModel.swift:66-99 | a cancelled search finds a prefix of what the full search finds, and all of it if cancellation never took effect |
| SearchViewModel.CancelledItemsFindNothing | Sources/FolderApp/ViewModels/SearchViewModel.swift:80-84 | once cancelled, the loop finds nothing more |
| SearchViewModel.UncancelledNeverCancels | Sources/FolderApp/ViewModels/SearchViewModel.swift:66-99 | a search that is never cancelled ends uncancelled |
| SearchViewModel.Search | Sources/FolderApp/ViewModels/SearchViewModel.swift:32-53 | an empty query clears the results and stops searching; otherwise a search of the folder to the given depth is scheduled |
| SearchViewModel.PerformSearch | Sources/FolderApp/ViewModels/SearchViewModel.swift:55-64 | a folder missing from the tree gives no results; otherwise the results are exactly the walk's findings, whatever the cancellation, sorted in item order, and all match the query |
| SearchViewModel.FiredResultsAreVisitedMatches | Sources/FolderApp/ViewModels/SearchViewModel.swift:55-99 | an uncancelled scheduled search publishes exactly the visited matches, reordered |
| SearchViewModel.ClearSearch | Sources/FolderApp/ViewModels/SearchViewModel.swift:101-110 | query, results, flags, selection and the pending search are all reset |
| SearchViewModel.SearchAfterClearIsIdle | Sources/FolderApp/ViewModels/SearchViewModel.swift:32-41 | searching after a clear schedules nothing and shows no results |
| SearchViewModel.ActivateSearch | Sources/FolderApp/ViewModels/SearchViewModel.swift:112-114 | only the active flag is raised |
| SearchViewModel.DeactivateSearch | Sources/FolderApp/ViewModels/SearchViewModel.swift:116-118 | deactivating is clearing |
| SearchViewModel.ToggleResultSelection | Sources/FolderApp/ViewModels/SearchViewModel.swift:122-129 | flips the item's id alone and makes it the anchor |
| SearchViewModel.ClearResultSelection | Sources/FolderApp/ViewModels/SearchViewModel.swift:131-134 | empties the selection and drops the anchor |
| SearchViewModel.SelectResultRange | Sources/FolderApp/ViewModels/SearchViewModel.swift:136-147 | range selection over the results, adding and never removing |
| Sidebar.HexCodeInjective | Sources/FolderApp/Models/Favorite.swift:30-53 | the nine tag colours have distinct "#rrggbb" codes |
| Sidebar.MoveElementUndone | Sources/FolderApp/Models/Favorite.swift:100-114 | moving an element and moving it back restores the list |
| Sidebar.AddFavorite | Sources/FolderApp/Models/Favorite.swift:83-93 | appends one favourite with the next order number, named as given or after the path's last component |
| Sidebar.RemoveFavorite | Sources/FolderApp/Models/Favorite.swift:95-98 | keeps exactly the favourites with a different id, in their original order |
| Sidebar.WithoutId | Sources/FolderApp/Models/Favorite.swift:95-98 | drops exactly the favourites with the id and keeps the rest as a subsequence, in order; with no such favourite the list is unchanged |
| Sidebar.RemoveUndoesAdd | Sources/FolderApp/Models/Favorite.swift:83-98 | removing a freshly added favourite by its new id restores the sidebar |
| Sidebar.ReorderFavorites | Sources/FolderApp/Models/Favorite.swift:100-114 | out-of-range indices change nothing; otherwise the moved favourite lands at the target and every order field equals its new position |
| Sidebar.ReorderPermutesIds | Sources/FolderApp/Models/Favorite.swift:100-114 | reordering permutes the favourites' ids |
| Sidebar.UpdateFavoriteIcon | Sources/FolderApp/Models/Favorite.swift:116-121 | only the first favourite with that id gets the icon; an unknown id changes nothing |
| Sidebar.IsFavorite | Sources/FolderApp/Models/Favorite.swift:123-125 | true exactly when some favourite has that path |
| Sidebar.AddedPathIsFavorite | Sources/FolderApp/Models/Favorite.swift:83-125 | an added path is a favourite |
| Sidebar.AddRecentLocation | Sources/FolderApp/Models/Favorite.swift:129-142 | the location goes to the front exactly once, the others keep their order, and the list is capped at ten |
| Sidebar.AddRecentLocationIdempotent | Sources/FolderApp/Models/Favorite.swift:129-142 | adding the same location twice equals adding it once |
| Sidebar.ReorderRecents | Sources/FolderApp/Models/Favorite.swift:144-153 | out-of-range indices change nothing; otherwise the entry moves to the target and the rest keep their order |
| Sidebar.GetAfterSet | Sources/FolderApp/Models/Favorite.swift:157-168 | reading a tag after setting it yields what was set, and other paths are unaffected |
| Sidebar.SetColorTag | Sources/FolderApp/Models/Favorite.swift:157-164 | sets or removes the tag of one path only |
| ColorHex.Trim | Sources/FolderApp/Extensions/Color+Theme.swift:32 | the trimmed string is a slice of the input beginning and ending with alphanumerics |
| ColorHex.TrimIgnoresHash | Sources/FolderApp/Extensions/Color+Theme.swift:32 | a leading "#" is dropped by the trim |
| ColorHex.ScanHex | Sources/FolderApp/Extensions/Color+Theme.swift:33-34 | on an all-hex string the scan yields its hexadecimal value |
| ColorHex.DecodeHex | Sources/FolderApp/Extensions/Color+Theme.swift:31-45 | components are always 0-255; lengths other than 3, 6 and 8 give opaque black; only 8 digits set alpha |
| ColorHex.ThreeDigitsExpand | Sources/FolderApp/Extensions/Color+Theme.swift:37-38 | each of three digits d becomes the component d·17 |
| ColorHex.RgbRoundTrip | Sources/FolderApp/Extensions/Color+Theme.swift:39-40 | decoding "#rrggbb" recovers the components, opaque |
| ColorHex.ArgbRoundTrip | Sources/FolderApp/Extensions/Color+Theme.swift:41-42 | decoding "#aarrggbb" recovers all four components |
| ColorHex.FolderAccentComponents | Sources/FolderApp/Extensions/Color+Theme.swift:12 | the accent colour #009880 is opaque (0, 152, 128) |
| Hotkeys.KeyCodeFromString | Sources/FolderApp/Services/GlobalHotkeyManager.swift:73-92 | a code exists exactly when the lower-cased key is in the table, and it is that key's code |
| Hotkeys.KeyCodeIgnoresCase | Sources/FolderApp/Services/GlobalHotkeyManager.swift:91 | keys that differ only in case map to the same code |
| Hotkeys.SpaceIsFortyNine | Sources/FolderApp/Services/GlobalHotkeyManager.swift:75 | "space" in any case is code 49 |
| Hotkeys.TableCoversLettersDigitsAndFunctionKeys | Sources/FolderApp/Services/GlobalHotkeyManager.swift:80-89 | every letter, digit and F1-F12 has a code |
| Hotkeys.CarbonModifiers | Sources/FolderApp/Services/GlobalHotkeyManager.swift:94-111 | each of command, option, control and shift sets its Carbon bit exactly when present, and no other bit is set |
| Hotkeys.CarbonModifiersRoundTrip | Sources/FolderApp/Services/GlobalHotkeyManager.swift:94-111 | the four translated flags can be read back from the mask; other flags are dropped |
| Hotkeys.CarbonModifiersMonotone | Sources/FolderApp/Services/GlobalHotkeyManager.swift:94-111 | more flags never clear a bit |
| Volumes.ShownRules | Sources/FolderApp/Services/VolumeManager.swift:82-87 | the root volume and non-local volumes are hidden; a local non-root volume is shown exactly when it is removable, ejectable or not internal |
| Volumes.DisplayName | Sources/FolderApp/Services/VolumeManager.swift:88 | the localized name, else the volume name, else the URL's last component |
| Volumes.LoadMountedVolumes | Sources/FolderApp/Services/VolumeManager.swift:39-103 | no mounted URLs give no volumes; otherwise exactly the shown volumes, sorted by name |
| Volumes.ListedIffShown | Sources/FolderApp/Services/VolumeManager.swift:56-102 | a mounted volume is listed exactly when its resource values were read and the filter shows it |

## Left out

- The filesystem watcher, timers and debouncing, `Task` scheduling, notifications, window and view
  code, Quick Look, icons and thumbnails, settings persistence, the default favourites, volume
  ejection, and the registration of hotkeys with the system. These are I/O or UI. Only the pure
  decisions they feed are modelled.
- The refresh that follows creating, renaming or deleting is not part of those members. It is the
  separate Explorer.Reload.
- `setViewMode`, `openSelectedItem`, `navigateIntoSelectedFolder` and the background merge of
  folder sizes (`calculateFolderSizes`) are not modelled. They only forward to modelled operations
  or run on tasks.
- Listing.ContentsOfDirectory, SearchViewModel.PerformSearch, Items.LessIsStrictOrder, Explorer.SortItems:
  locale-aware comparison (`localizedCaseInsensitiveCompare`) and `localizedCaseInsensitiveContains`
  are modelled as ASCII case folding and code-point order. Unicode folding, normalisation and
  numeric ordering are not modelled.
- Hotkeys.KeyCodeFromString: Swift's `lowercased()` is modelled as ASCII lowering. A key name with
  a non-ASCII character that lowercases to an ASCII letter (the Kelvin sign lowercases to "k") has
  a code in the source and none in the model.
- Listing.ParentDirectory: the root is taken as its own parent, so there is no parent at the root
  and going up from "/" does nothing. What `deletingLastPathComponent()` returns for "/" in
  Foundation (possibly "/..", which would make going up from the root navigate to "/..") is not
  modelled.
- Listing.ResolveUrl: "." and ".." components are looked up literally. The file system resolves
  them (following symbolic links on the way) when it checks existence; a set of paths cannot.
- ColorHex.Trim: "alphanumeric" means ASCII letters and digits, not the full Unicode category.
- ColorHex.ScanHex: the scanner's acceptance of a leading "0x" is not modelled. A string that is not
  all hex scans its longest hex prefix.
- Listing.ExpandTilde: only "~" and "~/…" are expanded; "~user" is left unchanged.
- Disk.CopyItem: copying a folder into its own subtree is not refused by the model; it copies the
  folder as it was before the copy began. What `FileManager` does then is left to the `fails`
  oracle.
- Listing.FolderSizeIsSumOfDescendants: the 64-bit byte counter is unbounded here. The cancellation
  check inside the folder-size walk is not modelled.
- Hotkeys.CarbonModifiers: the result is `UInt32` as in the source; AppKit's raw flag values are
  abstracted to a set of flags.
- Clipboard.Paste: `PasteResult.failed` keeps the failed source paths. The error values paired with
  them are not kept.
- SearchViewModel.Search: the search timer and task are modelled by a pending request that `Fire`
  runs later. Cancelling a superseded search is modelled by replacing the pending request. A
  cancellation taking effect mid-walk is the budget oracle.
- SearchViewModel.SearchIn: the path lookup of a subfolder is replaced by walking the child node
  with the same name.
- Explorer.Reload: the asynchronous listing is an argument (the listing result), and the loading
  flag is only modelled as cleared afterwards.
- Volumes.LoadMountedVolumes: `String <` is modelled as code-point order. The sort is modelled as
  stable.

Notable behaviours of the code that the model keeps:

- A reload keeps selected ids that are no longer listed (Explorer.ReloadKeepsStaleIds).
- Paste reads the system pasteboard, not the remembered items (Clipboard.PasteReadsOnlyPasteboard).
- A cancelled search still publishes its partial, sorted results (SearchViewModel.CancelledSearchIsPrefix).
- Cutting a folder and pasting it into that same folder fails: the destination would lie inside the
  source, which `moveItem` refuses (Clipboard.CutIntoItselfFails).
- Going to the parent and opening a folder use the same history update as any navigation, so they
  share the defect listed under Findings (Explorer.BackAfterParent, Explorer.BackAfterOpen).

## Findings

| source | as written | input that shows it | evidently intended | confidence | as-written member | corrected member |
|---|---|---|---|---|---|---|
| Sources/FolderApp/ViewModels/FileExplorerViewModel.swift:149 | `navigate(to:)` appends the folder being left (`currentPath`) to the history instead of the folder navigated to, so the history entry at `historyIndex` is not the current folder | start at h and navigate to a: back stays disabled (expected enabled); navigate on to b and c: back twice shows h (expected a), forward twice then shows b (expected c) | the history holds the visited folders with the current one at `historyIndex`, so back returns to the previous folder and back/forward undo each other | not executed | Explorer.NavigationRoundTripFailsAsWritten | Explorer.NavigateIntended |

=== FILE: clipboard.dfy ===
/** The clipboard (`ClipboardManager`): copy and cut record the entries and
    write their URLs to the system pasteboard; paste reads the pasteboard and
    moves or copies each URL into a destination folder in order, recording
    conflicts, successes and failures per item; paste-with-resolution settles
    conflicts by skipping, replacing or picking a fresh "copy n" name. */
module Clipboard {
  import opened Wrappers
  import opened Text
  import opened Paths
  import opened Items
  import opened Disk

  datatype Action = Copy | Cut

  /** `items` is `clipboardItems`, `pasteboard` the URLs on the system
      pasteboard; paste reads only the latter. */
  datatype Clipboard = Clipboard(items: seq<Entry>, action: Action, pasteboard: seq<Path>)

  datatype ClipboardError = NothingToPaste | OperationFailed(message: string)

  datatype ConflictResolution = Replace | KeepBoth | Skip

  /** `failed` keeps the source URLs only; the error values are not modelled. */
  datatype PasteResult = PasteResult(succeeded: seq<Path>, failed: seq<Path>, conflicts: seq<Path>)

  predicate HasConflicts(r: PasteResult)
  {
    |r.conflicts| > 0
  }

  predicate AllSucceeded(r: PasteResult)
  {
    |r.failed| == 0 && |r.conflicts| == 0
  }

  const Empty: Clipboard := Clipboard([], Copy, [])

  function PathsOf(items: seq<Entry>): (r: seq<Path>)
    ensures |r| == |items|
    ensures forall i :: 0 <= i < |items| ==> r[i] == items[i].path
  {
    if |items| == 0 then [] else [items[0].path] + PathsOf(items[1..])
  }

  /** `copy(items:)`. */
  function CopyItems(cb: Clipboard, items: seq<Entry>): (r: Clipboard)
    ensures r.items == items && r.action == Copy
    ensures |r.pasteboard| == |items| && forall i :: 0 <= i < |items| ==> r.pasteboard[i] == items[i].path
  {
    Clipboard(items, Copy, PathsOf(items))
  }

  /** `cut(items:)`. */
  function CutItems(cb: Clipboard, items: seq<Entry>): (r: Clipboard)
    ensures r.items == items && r.action == Cut
    ensures |r.pasteboard| == |items| && forall i :: 0 <= i < |items| ==> r.pasteboard[i] == items[i].path
  {
    Clipboard(items, Cut, PathsOf(items))
  }

  /** `clearClipboard()`: both the recorded items and the pasteboard empty;
      the action tag stays. */
  function ClearClipboard(cb: Clipboard): (r: Clipboard)
    ensures r.items == [] && r.pasteboard == [] && r.action == cb.action
  {
    cb.(items := [], pasteboard := [])
  }

  /** `hasClipboardContent()` looks at the recorded items, not the pasteboard. */
  function HasClipboardContent(cb: Clipboard): (r: bool)
    ensures r <==> cb.items != []
  {
    |cb.items| > 0
  }

  lemma ClearedClipboardHasNoContent(cb: Clipboard)
    ensures !HasClipboardContent(ClearClipboard(cb)) && ClearClipboard(cb).pasteboard == []
  {
  }

  // ---------------------------------------------------------------------
  // Per-item outcomes

  /** What became of one pasteboard URL. */
  datatype Outcome =
    | Succeeded(source: Path, destination: Path)
    | Failed(source: Path)
    | Conflicted(source: Path)
    | Skipped(source: Path)

  /** `destination.appendingPathComponent(source.lastPathComponent)`. */
  function DestinationFor(dest: Path, src: Path): Path
  {
    Appending(dest, LastComponent(src))
  }

  /** A move for a cut, a copy otherwise. */
  function Transfer(action: Action, d: Disk, src: Path, dst: Path, fails: bool): (r: Result<Disk, OpError>)
    ensures r.Ok? <==> !fails && src in d && dst !in d && (action == Cut ==> !IsUnder(dst, src))
    ensures r.Ok? ==> dst in r.value
    ensures r.Ok? ==> forall q :: q in d && IsUnder(q, src) ==> Rebase(q, src, dst) in r.value
    ensures action == Copy && r.Ok? ==> d <= r.value
    ensures action == Cut && r.Ok? ==> d - Subtree(d, src) <= r.value
    ensures action == Cut && r.Ok? && !IsUnder(src, dst) ==> src !in r.value
    ensures action == Cut && r.Ok? && !IsUnder(src, dst) ==> forall q :: IsUnder(q, src) ==> q !in r.value
    ensures action == Copy && r.Ok? ==> forall q :: q in r.value ==>
      q in d || exists p :: p in d && IsUnder(p, src) && q == Rebase(p, src, dst)
    ensures action == Cut && r.Ok? ==> forall q :: q in r.value ==>
      (q in d && !IsUnder(q, src)) || exists p :: p in d && IsUnder(p, src) && q == Rebase(p, src, dst)
  {
    if action == Cut then MoveItem(d, src, dst, fails) else CopyItem(d, src, dst, fails)
  }

  /** One iteration of `paste(to:)`: an existing destination is a conflict
      and touches nothing; otherwise the transfer succeeds or fails. */
  function PasteStep(action: Action, dest: Path, d: Disk, src: Path, fails: bool): (r: (Outcome, Disk))
    ensures r.0.source == src && !r.0.Skipped?
    ensures DestinationFor(dest, src) in d <==> r.0.Conflicted?
    ensures r.0.Conflicted? || r.0.Failed? ==> r.1 == d
    ensures r.0.Succeeded? ==> r.0.destination == DestinationFor(dest, src) && r.0.destination in r.1
    ensures action == Copy ==> d <= r.1
  {
    var dst := DestinationFor(dest, src);
    if dst in d then (Conflicted(src), d)
    else match Transfer(action, d, src, dst, fails)
      case Ok(d') => (Succeeded(src, dst), d')
      case Err(_) => (Failed(src), d)
  }

  /** The loop of `paste(to:)` over `urls`, left to right; `failAt` holds the
      positions whose transfer fails for reasons outside the model. */
  function PasteAll(action: Action, dest: Path, d: Disk, urls: seq<Path>, failAt: set<nat>): (r: (seq<Outcome>, Disk))
    ensures |r.0| == |urls|
    ensures forall i :: 0 <= i < |urls| ==> r.0[i].source == urls[i] && !r.0[i].Skipped?
    ensures forall i :: 0 <= i < |urls| && r.0[i].Succeeded? ==> r.0[i].destination == DestinationFor(dest, urls[i])
    ensures action == Copy ==> d <= r.1
    ensures action == Copy ==> forall i :: 0 <= i < |urls| && r.0[i].Succeeded? ==> r.0[i].destination in r.1
    decreases |urls|
  {
    if |urls| == 0 then ([], d)
    else
      var prev := PasteAll(action, dest, d, urls[..|urls| - 1], failAt);
      var step := PasteStep(action, dest, prev.1, urls[|urls| - 1], |urls| - 1 in failAt);
      (prev.0 + [step.0], step.1)
  }

  /** Each outcome is decided on the disk as the earlier items left it. */
  lemma {:induction false} PasteAllStepwise(action: Action, dest: Path, d: Disk, urls: seq<Path>, failAt: set<nat>, k: int)
    requires 0 <= k < |urls|
    ensures var before := PasteAll(action, dest, d, urls[..k], failAt).1;
      PasteAll(action, dest, d, urls, failAt).0[k] == PasteStep(action, dest, before, urls[k], k in failAt).0
    decreases |urls|
  {
    var n := |urls|;
    var prev := PasteAll(action, dest, d, urls[..n - 1], failAt);
    var last := PasteStep(action, dest, prev.1, urls[n - 1], n - 1 in failAt);
    assert PasteAll(action, dest, d, urls, failAt).0 == prev.0 + [last.0];
    if k < n - 1 {
      assert urls[..n - 1][..k] == urls[..k];
      assert (prev.0 + [last.0])[k] == prev.0[k];
      PasteAllStepwise(action, dest, d, urls[..n - 1], failAt, k);
    } else {
      assert urls[..n - 1] == urls[..k];
    }
  }

  /** A name created by an earlier item of the same batch makes a later item
      with the same name a conflict. */
  lemma EarlierItemCausesConflict(action: Action, dest: Path, d: Disk, u0: Path, u1: Path, failAt: set<nat>)
    requires LastComponent(u0) == LastComponent(u1)
    requires PasteAll(action, dest, d, [u0, u1], failAt).0[0].Succeeded?
    ensures PasteAll(action, dest, d, [u0, u1], failAt).0[1].Conflicted?
  {
    PasteAllStepwise(action, dest, d, [u0, u1], failAt, 0);
    PasteAllStepwise(action, dest, d, [u0, u1], failAt, 1);
    assert [u0, u1][..1] == [u0];
    assert [u0, u1][..0] == [];
  }

  /** The disk as the first `i` items of the batch left it. */
  function DiskBefore(action: Action, dest: Path, d: Disk, urls: seq<Path>, failAt: set<nat>, i: nat): Disk
    requires i <= |urls|
  {
    PasteAll(action, dest, d, urls[..i], failAt).1
  }

  /** Item `i`'s destination already exists at its turn. */
  predicate ConflictAt(action: Action, dest: Path, d: Disk, urls: seq<Path>, failAt: set<nat>, i: nat)
    requires i < |urls|
  {
    DestinationFor(dest, urls[i]) in DiskBefore(action, dest, d, urls, failAt, i)
  }

  /** Item `i`'s transfer, tried on the disk as the earlier items left it,
      succeeds (`ok`) or fails (`!ok`). */
  predicate TransferAt(action: Action, dest: Path, d: Disk, urls: seq<Path>, failAt: set<nat>, i: nat, ok: bool)
    requires i < |urls|
  {
    && !ConflictAt(action, dest, d, urls, failAt, i)
    && Transfer(action, DiskBefore(action, dest, d, urls, failAt, i), urls[i], DestinationFor(dest, urls[i]), i in failAt).Ok? == ok
  }

  /** What decides the outcome of item `i`: a conflict when its destination
      already exists at its turn, otherwise success or failure of the
      transfer on that disk. */
  lemma OutcomeAt(action: Action, dest: Path, d: Disk, urls: seq<Path>, failAt: set<nat>, i: nat)
    requires i < |urls|
    ensures var o := PasteAll(action, dest, d, urls, failAt).0[i];
      && (o.Conflicted? <==> ConflictAt(action, dest, d, urls, failAt, i))
      && (o.Succeeded? <==> TransferAt(action, dest, d, urls, failAt, i, true))
      && (o.Failed? <==> TransferAt(action, dest, d, urls, failAt, i, false))
  {
    PasteAllStepwise(action, dest, d, urls, failAt, i);
  }

  /** The conflicts of a batch are the sources whose destination existed at
      their turn. */
  lemma ConflictsListed(action: Action, dest: Path, d: Disk, urls: seq<Path>, failAt: set<nat>)
    ensures forall p :: p in ConflictsOf(PasteAll(action, dest, d, urls, failAt).0) <==>
      exists i: nat :: i < |urls| && urls[i] == p && ConflictAt(action, dest, d, urls, failAt, i)
  {
    forall i: nat | i < |urls| {
      OutcomeAt(action, dest, d, urls, failAt, i);
    }
  }

  /** The failures of a batch are the sources whose transfer failed at their
      turn. */
  lemma FailuresListed(action: Action, dest: Path, d: Disk, urls: seq<Path>, failAt: set<nat>)
    ensures forall p :: p in FailedOf(PasteAll(action, dest, d, urls, failAt).0) <==>
      exists i: nat :: i < |urls| && urls[i] == p && TransferAt(action, dest, d, urls, failAt, i, false)
  {
    forall i: nat | i < |urls| {
      OutcomeAt(action, dest, d, urls, failAt, i);
    }
  }

  /** The successes of a batch are the destinations of the items whose
      transfer succeeded at their turn. */
  lemma SuccessesListed(action: Action, dest: Path, d: Disk, urls: seq<Path>, failAt: set<nat>)
    ensures forall p :: p in SucceededOf(PasteAll(action, dest, d, urls, failAt).0) <==>
      exists i: nat :: i < |urls| && p == DestinationFor(dest, urls[i]) && TransferAt(action, dest, d, urls, failAt, i, true)
  {
    forall i: nat | i < |urls| {
      OutcomeAt(action, dest, d, urls, failAt, i);
    }
  }

  function SucceededOf(outs: seq<Outcome>): (r: seq<Path>)
    ensures forall p :: p in r <==> exists i :: 0 <= i < |outs| && outs[i].Succeeded? && outs[i].destination == p
  {
    if |outs| == 0 then []
    else
      assert forall i :: 1 <= i < |outs| ==> outs[i] == outs[1..][i - 1];
      (if outs[0].Succeeded? then [outs[0].destination] else []) + SucceededOf(outs[1..])
  }

  function FailedOf(outs: seq<Outcome>): (r: seq<Path>)
    ensures forall p :: p in r <==> exists i :: 0 <= i < |outs| && outs[i].Failed? && outs[i].source == p
  {
    if |outs| == 0 then []
    else
      assert forall i :: 1 <= i < |outs| ==> outs[i] == outs[1..][i - 1];
      (if outs[0].Failed? then [outs[0].source] else []) + FailedOf(outs[1..])
  }

  function ConflictsOf(outs: seq<Outcome>): (r: seq<Path>)
    ensures forall p :: p in r <==> exists i :: 0 <= i < |outs| && outs[i].Conflicted? && outs[i].source == p
  {
    if |outs| == 0 then []
    else
      assert forall i :: 1 <= i < |outs| ==> outs[i] == outs[1..][i - 1];
      (if outs[0].Conflicted? then [outs[0].source] else []) + ConflictsOf(outs[1..])
  }

  function SkippedCount(outs: seq<Outcome>): nat
  {
    if |outs| == 0 then 0 else (if outs[0].Skipped? then 1 else 0) + SkippedCount(outs[1..])
  }

  /** `PasteResult` from the outcomes, in pasteboard order. Every outcome
      lands in exactly one list or is skipped. */
  function Summarize(outs: seq<Outcome>): (r: PasteResult)
    ensures |r.succeeded| + |r.failed| + |r.conflicts| + SkippedCount(outs) == |outs|
    ensures (forall i :: 0 <= i < |outs| ==> outs[i].Succeeded?) <==> |r.succeeded| == |outs|
    ensures |r.failed| == 0 <==> forall i :: 0 <= i < |outs| ==> !outs[i].Failed?
    ensures |r.conflicts| == 0 <==> forall i :: 0 <= i < |outs| ==> !outs[i].Conflicted?
  {
    SummarizeCounts(outs);
    PasteResult(SucceededOf(outs), FailedOf(outs), ConflictsOf(outs))
  }

  lemma {:induction false} SummarizeCounts(outs: seq<Outcome>)
    ensures |SucceededOf(outs)| + |FailedOf(outs)| + |ConflictsOf(outs)| + SkippedCount(outs) == |outs|
    ensures (forall i :: 0 <= i < |outs| ==> outs[i].Succeeded?) <==> |SucceededOf(outs)| == |outs|
    ensures |FailedOf(outs)| == 0 <==> forall i :: 0 <= i < |outs| ==> !outs[i].Failed?
    ensures |ConflictsOf(outs)| == 0 <==> forall i :: 0 <= i < |outs| ==> !outs[i].Conflicted?
  {
    if |outs| > 0 {
      SummarizeCounts(outs[1..]);
      assert forall i :: 1 <= i < |outs| ==> outs[i] == outs[1..][i - 1];
      assert |SucceededOf(outs[1..])| <= |outs[1..]|;
    }
  }

  datatype PasteOutcome = PasteOutcome(result: PasteResult, clipboard: Clipboard, disk: Disk)

  /** `paste(to:)`. An empty pasteboard throws `nothingToPaste`. Otherwise
      every pasteboard URL is processed in order and the clipboard is cleared
      exactly when the action is a cut and every URL succeeded. */
  function Paste(cb: Clipboard, dest: Path, d: Disk, failAt: set<nat>): (r: Result<PasteOutcome, ClipboardError>)
    ensures r.Err? <==> |cb.pasteboard| == 0
    ensures r.Err? ==> r.error == NothingToPaste
    ensures r.Ok? ==>
      var res := r.value.result;
      && |res.succeeded| + |res.failed| + |res.conflicts| == |cb.pasteboard|
      && (r.value.clipboard == ClearClipboard(cb) <==> cb.action == Cut && |res.succeeded| == |cb.pasteboard|)
      && (cb.action == Copy || |res.succeeded| < |cb.pasteboard| ==> r.value.clipboard == cb)
    ensures r.Ok? ==>
      var all := PasteAll(cb.action, dest, d, cb.pasteboard, failAt);
      r.value.result == Summarize(all.0) && r.value.disk == all.1
    ensures r.Ok? && cb.action == Copy ==>
      d <= r.value.disk && forall p :: p in r.value.result.succeeded ==> p in r.value.disk
  {
    if |cb.pasteboard| == 0 then Err(NothingToPaste)
    else
      var (outs, d') := PasteAll(cb.action, dest, d, cb.pasteboard, failAt);
      var res := Summarize(outs);
      NoSkips(outs);
      var cleared := cb.action == Cut && |res.succeeded| == |cb.pasteboard|;
      assert cb != ClearClipboard(cb);
      Ok(PasteOutcome(res, if cleared then ClearClipboard(cb) else cb, d'))
  }

  /** Cutting a folder and pasting it into itself: the move is refused, so
      the folder is reported failed and the disk and clipboard stay as they
      were. */
  lemma CutIntoItselfFails(cb: Clipboard, d: Disk, failAt: set<nat>)
    requires cb.action == Cut && |cb.pasteboard| == 1
    requires cb.pasteboard[0] in d && DestinationFor(cb.pasteboard[0], cb.pasteboard[0]) !in d
    ensures var r := Paste(cb, cb.pasteboard[0], d, failAt);
      && r.Ok?
      && r.value.result == PasteResult([], [cb.pasteboard[0]], [])
      && r.value.disk == d && r.value.clipboard == cb
  {
    var src := cb.pasteboard[0];
    AppendingIsUnder(src, LastComponent(src));
    assert Transfer(Cut, d, src, DestinationFor(src, src), 0 in failAt).Err?;
    assert PasteStep(Cut, src, d, src, 0 in failAt) == (Failed(src), d);
    assert cb.pasteboard[..0] == [];
    assert PasteAll(Cut, src, d, cb.pasteboard[..0], failAt) == ([], d);
    assert PasteAll(Cut, src, d, cb.pasteboard, failAt) == ([] + [Failed(src)], d);
    var outs := [Failed(src)];
    assert outs[1..] == [];
    assert SucceededOf([]) == [] && FailedOf([]) == [] && ConflictsOf([]) == [];
  }

  /** Paste depends on the pasteboard and the action, never on the recorded
      items. */
  lemma PasteReadsOnlyPasteboard(cb1: Clipboard, cb2: Clipboard, dest: Path, d: Disk, failAt: set<nat>)
    requires cb1.pasteboard == cb2.pasteboard && cb1.action == cb2.action
    ensures Paste(cb1, dest, d, failAt).Ok? <==> Paste(cb2, dest, d, failAt).Ok?
    ensures Paste(cb1, dest, d, failAt).Ok? ==>
      && Paste(cb1, dest, d, failAt).value.result == Paste(cb2, dest, d, failAt).value.result
      && Paste(cb1, dest, d, failAt).value.disk == Paste(cb2, dest, d, failAt).value.disk
  {
  }

  /** The three lists of a paste, item by item: a source is a conflict when
      its destination already existed at its turn, a failure when the
      transfer failed there, and a destination is listed as succeeded when
      some item was transferred to it. */
  lemma PasteLists(cb: Clipboard, dest: Path, d: Disk, failAt: set<nat>)
    ensures Paste(cb, dest, d, failAt).Ok? ==>
      var res, pb, act := Paste(cb, dest, d, failAt).value.result, cb.pasteboard, cb.action;
      && (forall p :: p in res.conflicts <==>
            exists i: nat :: i < |pb| && pb[i] == p && ConflictAt(act, dest, d, pb, failAt, i))
      && (forall p :: p in res.failed <==>
            exists i: nat :: i < |pb| && pb[i] == p && TransferAt(act, dest, d, pb, failAt, i, false))
      && (forall p :: p in res.succeeded <==>
            exists i: nat :: i < |pb| && p == DestinationFor(dest, pb[i]) && TransferAt(act, dest, d, pb, failAt, i, true))
  {
    ConflictsListed(cb.action, dest, d, cb.pasteboard, failAt);
    FailuresListed(cb.action, dest, d, cb.pasteboard, failAt);
    SuccessesListed(cb.action, dest, d, cb.pasteboard, failAt);
  }

  /** The same holds for the paste with a conflict resolution. */
  lemma ResolutionReadsOnlyPasteboard(cb1: Clipboard, cb2: Clipboard, dest: Path, res: ConflictResolution, d: Disk, failAt: set<nat>, trashFailAt: set<nat>)
    requires cb1.pasteboard == cb2.pasteboard && cb1.action == cb2.action
    ensures PasteWithResolution(cb1, dest, res, d, failAt, trashFailAt).Ok? <==> PasteWithResolution(cb2, dest, res, d, failAt, trashFailAt).Ok?
    ensures PasteWithResolution(cb1, dest, res, d, failAt, trashFailAt).Ok? ==>
      && PasteWithResolution(cb1, dest, res, d, failAt, trashFailAt).value.result == PasteWithResolution(cb2, dest, res, d, failAt, trashFailAt).value.result
      && PasteWithResolution(cb1, dest, res, d, failAt, trashFailAt).value.disk == PasteWithResolution(cb2, dest, res, d, failAt, trashFailAt).value.disk
  {
  }

  // ---------------------------------------------------------------------
  // Unique names for "keep both"

  /** "{base} copy {n}.{ext}", without the ".{ext}" when there is no extension. */
  function CandidateName(base: string, ext: string, n: nat): string
  {
    base + " copy " + NatToString(n) + (if ext == "" then "" else "." + ext)
  }

  function Candidate(dir: Path, base: string, ext: string, n: nat): Path
  {
    Appending(dir, CandidateName(base, ext, n))
  }

  lemma MiddleCancels(p: string, a: string, b: string, s: string)
    requires p + a + s == p + b + s
    ensures a == b
  {
    var w := p + a + s;
    assert |a| == |b|;
    assert a == w[|p|..|p| + |a|];
    assert b == (p + b + s)[|p|..|p| + |b|];
  }

  lemma CandidateInjective(dir: Path, base: string, ext: string, n: nat, m: nat)
    requires Candidate(dir, base, ext, n) == Candidate(dir, base, ext, m)
    ensures n == m
  {
    AppendingThenDeleting(dir, CandidateName(base, ext, n));
    AppendingThenDeleting(dir, CandidateName(base, ext, m));
    var suffix := if ext == "" then "" else "." + ext;
    MiddleCancels(base + " copy ", NatToString(n), NatToString(m), suffix);
    NatToStringInjective(n, m);
  }

  /** The existing candidates numbered `n` or more: finite, and shrinking as
      the search moves past an existing candidate. */
  ghost function LaterCandidates(d: Disk, dir: Path, base: string, ext: string, n: nat): set<Path>
  {
    set p | p in d && exists m: nat :: m >= n && p == Candidate(dir, base, ext, m)
  }

  /** The first candidate numbered `n` or more that does not exist. */
  function FirstFreeFrom(d: Disk, dir: Path, base: string, ext: string, n: nat): (r: Path)
    ensures r !in d
    ensures exists m: nat :: m >= n && r == Candidate(dir, base, ext, m) &&
              (forall k: nat :: n <= k < m ==> Candidate(dir, base, ext, k) in d)
    decreases LaterCandidates(d, dir, base, ext, n)
  {
    var c := Candidate(dir, base, ext, n);
    if c !in d then c
    else
      assert c in LaterCandidates(d, dir, base, ext, n);
      assert c !in LaterCandidates(d, dir, base, ext, n + 1) by {
        forall m: nat | m >= n + 1 ensures c != Candidate(dir, base, ext, m) {
          if c == Candidate(dir, base, ext, m) {
            CandidateInjective(dir, base, ext, n, m);
          }
        }
      }
      assert LaterCandidates(d, dir, base, ext, n + 1) < LaterCandidates(d, dir, base, ext, n);
      var r := FirstFreeFrom(d, dir, base, ext, n + 1);
      r
  }

  /** `generateUniqueURL(for:)`: the URL itself when free, otherwise the
      first free "copy n" candidate in its folder, counting from 1. */
  function GenerateUniqueUrl(url: Path, d: Disk): (r: Path)
    ensures r !in d
    ensures url !in d ==> r == url
    ensures url in d ==>
      var name := LastComponent(url);
      var dir, base, ext := DeletingLastComponent(url), DeletingPathExtension(name), PathExtension(name);
      exists m: nat :: m >= 1 && r == Candidate(dir, base, ext, m) &&
        (forall k: nat :: 1 <= k < m ==> Candidate(dir, base, ext, k) in d)
  {
    if url !in d then url
    else
      var name := LastComponent(url);
      FirstFreeFrom(d, DeletingLastComponent(url), DeletingPathExtension(name), PathExtension(name), 1)
  }

  /** "X", "X copy 1" and "X copy 2" taken: the generator picks "X copy 3". */
  lemma UniqueNameExample()
    ensures var dir := Path(["d"]);
      GenerateUniqueUrl(Appending(dir, "X"), {Appending(dir, "X"), Appending(dir, "X copy 1"), Appending(dir, "X copy 2")})
        == Appending(dir, "X copy 3")
  {
    var dir := Path(["d"]);
    var d := {Appending(dir, "X"), Appending(dir, "X copy 1"), Appending(dir, "X copy 2")};
    assert LastDot("X") == -1;
    assert NatToString(1) == "1" && NatToString(2) == "2" && NatToString(3) == "3";
    assert CandidateName("X", "", 1) == "X copy 1" by { assert "X" + " copy " + "1" + "" == "X copy 1"; }
    assert CandidateName("X", "", 2) == "X copy 2" by { assert "X" + " copy " + "2" + "" == "X copy 2"; }
    assert CandidateName("X", "", 3) == "X copy 3" by { assert "X" + " copy " + "3" + "" == "X copy 3"; }
    assert "X copy 3" != "X" && "X copy 3"[7] != "X copy 1"[7] && "X copy 3"[7] != "X copy 2"[7];
    assert Appending(dir, "X copy 3").comps[1] == "X copy 3";
    assert Appending(dir, "X").comps[1] == "X";
    assert Appending(dir, "X copy 1").comps[1] == "X copy 1";
    assert Appending(dir, "X copy 2").comps[1] == "X copy 2";
    assert Appending(dir, "X copy 3") !in d;
    assert FirstFreeFrom(d, dir, "X", "", 3) == Appending(dir, "X copy 3");
    assert FirstFreeFrom(d, dir, "X", "", 2) == Appending(dir, "X copy 3");
  }

  // ---------------------------------------------------------------------
  // Paste with conflict resolution

  /** One iteration of `pasteWithResolution(to:conflictResolution:)`.
      `fails` decides the transfer, `trashFails` the best-effort trash of a
      destination being replaced. */
  function ResolvedStep(action: Action, dest: Path, res: ConflictResolution, d: Disk, src: Path, fails: bool, trashFails: bool): (r: (Outcome, Disk))
    ensures r.0.source == src && !r.0.Conflicted?
    ensures r.0.Skipped? <==> DestinationFor(dest, src) in d && res == Skip
    ensures r.0.Skipped? || r.0.Failed? ==> r.1 == d || (res == Replace && r.1 <= d)
    ensures DestinationFor(dest, src) !in d ==> r == PasteStep(action, dest, d, src, fails)
    ensures DestinationFor(dest, src) in d && res == KeepBoth && r.0.Succeeded? ==>
      r.0.destination == GenerateUniqueUrl(DestinationFor(dest, src), d) && r.0.destination !in d
    ensures DestinationFor(dest, src) in d && res == Replace && r.0.Succeeded? ==>
      r.0.destination == DestinationFor(dest, src)
  {
    var dst := DestinationFor(dest, src);
    if dst !in d then PasteStep(action, dest, d, src, fails)
    else match res
      case Skip => (Skipped(src), d)
      case Replace =>
        var trashed := Trash(d, dst, trashFails);
        var d1 := if trashed.Ok? then trashed.value else d;
        (match Transfer(action, d1, src, dst, fails)
         case Ok(d') => (Succeeded(src, dst), d')
         case Err(_) => (Failed(src), d1))
      case KeepBoth =>
        var dst' := GenerateUniqueUrl(dst, d);
        (match Transfer(action, d, src, dst', fails)
         case Ok(d') => (Succeeded(src, dst'), d')
         case Err(_) => (Failed(src), d))
  }

  function ResolvedAll(action: Action, dest: Path, res: ConflictResolution, d: Disk, urls: seq<Path>, failAt: set<nat>, trashFailAt: set<nat>): (r: (seq<Outcome>, Disk))
    ensures |r.0| == |urls|
    ensures forall i :: 0 <= i < |urls| ==> r.0[i].source == urls[i] && !r.0[i].Conflicted?
    ensures res != Skip ==> forall i :: 0 <= i < |urls| ==> !r.0[i].Skipped?
    decreases |urls|
  {
    if |urls| == 0 then ([], d)
    else
      var n := |urls| - 1;
      var prev := ResolvedAll(action, dest, res, d, urls[..n], failAt, trashFailAt);
      var step := ResolvedStep(action, dest, res, prev.1, urls[n], n in failAt, n in trashFailAt);
      (prev.0 + [step.0], step.1)
  }

  /** Each outcome of the resolving loop is decided on the disk as the
      earlier items left it. */
  lemma {:induction false} ResolvedAllStepwise(action: Action, dest: Path, res: ConflictResolution, d: Disk, urls: seq<Path>, failAt: set<nat>, trashFailAt: set<nat>, k: int)
    requires 0 <= k < |urls|
    ensures var before := ResolvedAll(action, dest, res, d, urls[..k], failAt, trashFailAt).1;
      ResolvedAll(action, dest, res, d, urls, failAt, trashFailAt).0[k] ==
        ResolvedStep(action, dest, res, before, urls[k], k in failAt, k in trashFailAt).0
    decreases |urls|
  {
    var n := |urls|;
    var prev := ResolvedAll(action, dest, res, d, urls[..n - 1], failAt, trashFailAt);
    var last := ResolvedStep(action, dest, res, prev.1, urls[n - 1], n - 1 in failAt, n - 1 in trashFailAt);
    assert ResolvedAll(action, dest, res, d, urls, failAt, trashFailAt).0 == prev.0 + [last.0];
    if k < n - 1 {
      assert urls[..n - 1][..k] == urls[..k];
      assert (prev.0 + [last.0])[k] == prev.0[k];
      ResolvedAllStepwise(action, dest, res, d, urls[..n - 1], failAt, trashFailAt, k);
    } else {
      assert urls[..n - 1] == urls[..k];
    }
  }

  /** `pasteWithResolution(to:conflictResolution:)`: no conflicts are
      reported; a cut clears the clipboard exactly when nothing failed. */
  function PasteWithResolution(cb: Clipboard, dest: Path, res: ConflictResolution, d: Disk, failAt: set<nat>, trashFailAt: set<nat>): (r: Result<PasteOutcome, ClipboardError>)
    ensures r.Err? <==> |cb.pasteboard| == 0
    ensures r.Err? ==> r.error == NothingToPaste
    ensures r.Ok? ==>
      var out := r.value.result;
      && out.conflicts == []
      && |out.succeeded| + |out.failed| <= |cb.pasteboard|
      && (res != Skip ==> |out.succeeded| + |out.failed| == |cb.pasteboard|)
      && (r.value.clipboard == ClearClipboard(cb) <==> cb.action == Cut && out.failed == [])
      && (cb.action == Copy || out.failed != [] ==> r.value.clipboard == cb)
    ensures r.Ok? ==>
      var all := ResolvedAll(cb.action, dest, res, d, cb.pasteboard, failAt, trashFailAt);
      r.value.result == Summarize(all.0) && r.value.disk == all.1
  {
    if |cb.pasteboard| == 0 then Err(NothingToPaste)
    else
      var (outs, d') := ResolvedAll(cb.action, dest, res, d, cb.pasteboard, failAt, trashFailAt);
      var out := Summarize(outs);
      assert res != Skip ==> SkippedCount(outs) == 0 by {
        if res != Skip { NoSkips(outs); }
      }
      var cleared := cb.action == Cut && |out.failed| == 0;
      assert cb != ClearClipboard(cb);
      Ok(PasteOutcome(out, if cleared then ClearClipboard(cb) else cb, d'))
  }

  lemma {:induction false} NoSkips(outs: seq<Outcome>)
    requires forall i :: 0 <= i < |outs| ==> !outs[i].Skipped?
    ensures SkippedCount(outs) == 0
  {
    if |outs| > 0 {
      assert forall i :: 1 <= i < |outs| ==> outs[i] == outs[1..][i - 1];
      NoSkips(outs[1..]);
    }
  }

  /** Skipping an item whose destination exists leaves the disk as it was and
      keeps the item out of every list. */
  lemma SkipLeavesConflictUntouched(action: Action, dest: Path, d: Disk, src: Path, fails: bool, trashFails: bool)
    requires DestinationFor(dest, src) in d
    ensures ResolvedStep(action, dest, Skip, d, src, fails, trashFails) == (Skipped(src), d)
  {
  }
}

=== FILE: color.dfy ===
/** The integer part of `Color(hex:)`: trim non-alphanumerics from both ends,
    read the longest hexadecimal prefix, and split the value into alpha, red,
    green and blue by the length of the trimmed string. The final division
    by 255 into floating-point components is not modelled. */
module ColorHex {
  /** ASCII letters and digits stand in for `CharacterSet.alphanumerics`. */
  predicate IsAlphanumeric(c: char)
  {
    ('a' <= c <= 'z') || ('A' <= c <= 'Z') || ('0' <= c <= '9')
  }

  /** Drops the leading characters that are not alphanumeric. */
  function TrimStart(s: string): (r: string)
    ensures |r| <= |s| && r == s[|s| - |r|..]
    ensures |r| > 0 ==> IsAlphanumeric(r[0])
    ensures forall k :: 0 <= k < |s| - |r| ==> !IsAlphanumeric(s[k])
  {
    if |s| == 0 || IsAlphanumeric(s[0]) then s else TrimStart(s[1..])
  }

  /** Drops the trailing characters that are not alphanumeric. */
  function TrimEnd(s: string): (r: string)
    ensures |r| <= |s| && r == s[..|r|]
    ensures |r| > 0 ==> IsAlphanumeric(r[|r| - 1])
    ensures forall k :: |r| <= k < |s| ==> !IsAlphanumeric(s[k])
  {
    if |s| == 0 || IsAlphanumeric(s[|s| - 1]) then s else TrimEnd(s[..|s| - 1])
  }

  /** `trimmingCharacters(in: CharacterSet.alphanumerics.inverted)`. */
  function Trim(s: string): (r: string)
    ensures |r| > 0 ==> IsAlphanumeric(r[0]) && IsAlphanumeric(r[|r| - 1])
    ensures exists i, j :: 0 <= i <= j <= |s| && r == s[i..j]
  {
    var t := TrimStart(s);
    var r := TrimEnd(t);
    assert r == s[|s| - |t|..|s| - |t| + |r|];
    r
  }

  /** A leading '#' makes no difference. */
  lemma TrimIgnoresHash(s: string)
    ensures Trim("#" + s) == Trim(s)
  {
    assert ("#" + s)[1..] == s;
  }

  lemma TrimKeepsAlphanumericEnds(s: string)
    requires |s| > 0 && IsAlphanumeric(s[0]) && IsAlphanumeric(s[|s| - 1])
    ensures Trim(s) == s
  {
  }

  // ---------------------------------------------------------------------
  // Hexadecimal digits

  predicate IsHexDigit(c: char)
  {
    ('0' <= c <= '9') || ('a' <= c <= 'f') || ('A' <= c <= 'F')
  }

  predicate AllHex(s: string)
  {
    forall k :: 0 <= k < |s| ==> IsHexDigit(s[k])
  }

  /** The value of a hex digit; 0 for any other character. */
  function HexDigitValue(c: char): (r: nat)
    ensures r < 16
  {
    if '0' <= c <= '9' then c as int - '0' as int
    else if 'a' <= c <= 'f' then c as int - 'a' as int + 10
    else if 'A' <= c <= 'F' then c as int - 'A' as int + 10
    else 0
  }

  /** The upper-case digit for `d`. */
  function HexDigit(d: nat): (c: char)
    requires d < 16
    ensures IsHexDigit(c) && HexDigitValue(c) == d
  {
    if d < 10 then ('0' as int + d) as char else ('A' as int + d - 10) as char
  }

  function Pow16(n: nat): (r: nat)
    ensures r >= 1
  {
    if n == 0 then 1 else 16 * Pow16(n - 1)
  }

  /** The value of a string of hex digits, most significant digit first. */
  function HexValue(s: string): (r: nat)
    ensures r < Pow16(|s|)
  {
    if |s| == 0 then 0
    else
      var r := HexValue(s[..|s| - 1]) * 16 + HexDigitValue(s[|s| - 1]);
      assert r < Pow16(|s| - 1) * 16;
      r
  }

  lemma Horner(A: nat, P: nat, B: nat, c: nat)
    ensures (A * P + B) * 16 + c == A * (16 * P) + (B * 16 + c)
  {
  }

  lemma {:induction false} HexValueAppend(a: string, b: string)
    ensures HexValue(a + b) == HexValue(a) * Pow16(|b|) + HexValue(b)
    decreases |b|
  {
    if |b| == 0 {
      assert a + b == a;
    } else {
      var b' := b[..|b| - 1];
      var c := HexDigitValue(b[|b| - 1]);
      assert (a + b)[..|a + b| - 1] == a + b';
      assert (a + b)[|a + b| - 1] == b[|b| - 1];
      HexValueAppend(a, b');
      Horner(HexValue(a), Pow16(|b'|), HexValue(b'), c);
    }
  }

  /** Length of the longest all-hex prefix. */
  function HexPrefixLength(s: string): (n: nat)
    ensures n <= |s| && AllHex(s[..n])
    ensures n < |s| ==> !IsHexDigit(s[n])
    ensures AllHex(s) ==> n == |s|
  {
    if |s| == 0 || !IsHexDigit(s[0]) then 0
    else
      var n := 1 + HexPrefixLength(s[1..]);
      assert s[..n] == [s[0]] + s[1..][..n - 1];
      n
  }

  /** `Scanner.scanHexInt64`: the value of the longest hex prefix, 0 when
      there is none. */
  function ScanHex(s: string): (r: nat)
    ensures r < Pow16(|s|)
    ensures AllHex(s) ==> r == HexValue(s)
  {
    var n := HexPrefixLength(s);
    Pow16Monotone(n, |s|);
    assert AllHex(s) ==> s[..n] == s;
    HexValue(s[..n])
  }

  lemma Pow16Monotone(m: nat, n: nat)
    requires m <= n
    ensures Pow16(m) <= Pow16(n)
  {
  }

  // ---------------------------------------------------------------------
  // Components

  datatype Argb = Argb(a: nat, r: nat, g: nat, b: nat)

  predicate InByteRange(c: Argb)
  {
    c.a <= 255 && c.r <= 255 && c.g <= 255 && c.b <= 255
  }

  /** A nibble widened to a byte by repeating it (`0xA` becomes `0xAA`). */
  function Widen(n: nat): (r: nat)
    requires n < 16
    ensures r <= 255 && r % 17 == 0
  {
    n * 17
  }

  /** `Color(hex:)` up to the integer components: 3 digits are 12-bit RGB
      with each nibble doubled, 6 digits 24-bit RGB, 8 digits 32-bit ARGB;
      any other length is opaque black. */
  function DecodeHex(hex: string): (c: Argb)
    ensures InByteRange(c)
    ensures |Trim(hex)| != 3 && |Trim(hex)| != 6 && |Trim(hex)| != 8 ==> c == Argb(255, 0, 0, 0)
    ensures |Trim(hex)| != 8 ==> c.a == 255
  {
    var t := Trim(hex);
    var v := ScanHex(t);
    if |t| == 3 then
      DivBound(v, 256, 16);
      Argb(255, Widen(v / 256), Widen(v / 16 % 16), Widen(v % 16))
    else if |t| == 6 then
      DivBound(v, 65536, 256);
      Argb(255, v / 65536, v / 256 % 256, v % 256)
    else if |t| == 8 then
      DivBound(v, 16777216, 256);
      Argb(v / 16777216, v / 65536 % 256, v / 256 % 256, v % 256)
    else Argb(255, 0, 0, 0)
  }

  /** A value below `q * d` has quotient below `q`. */
  lemma DivBound(v: nat, d: nat, q: nat)
    requires d > 0 && v < q * d
    ensures v / d < q
  {
    if v / d >= q {
      MulMonotone(q, v / d, d);
      assert false;
    }
  }

  lemma MulMonotone(a: nat, b: nat, d: nat)
    requires a <= b
    ensures a * d <= b * d
  {
  }

  lemma DivMod(x: nat, d: nat, q: nat, m: nat)
    requires d > 0 && m < d && x == q * d + m
    ensures x / d == q && x % d == m
  {
    var q', m' := x / d, x % d;
    assert x == q' * d + m' && m' < d;
    if q' < q {
      MulMonotone(q' + 1, q, d);
      assert false;
    } else if q' > q {
      MulMonotone(q + 1, q', d);
      assert false;
    }
  }

  /** How the decoder reads a string that trims to the all-hex `t`. */
  lemma DecodeTrimmedHex(hex: string, t: string)
    requires Trim(hex) == t && AllHex(t)
    ensures var v := HexValue(t);
      && (|t| == 3 ==> DecodeHex(hex) == Argb(255, Widen(v / 256), Widen(v / 16 % 16), Widen(v % 16)))
      && (|t| == 6 ==> DecodeHex(hex) == Argb(255, v / 65536, v / 256 % 256, v % 256))
      && (|t| == 8 ==> DecodeHex(hex) == Argb(v / 16777216, v / 65536 % 256, v / 256 % 256, v % 256))
  {
    assert ScanHex(t) == HexValue(t);
    if |t| == 3 {
      DivBound(HexValue(t), 256, 16);
    }
  }

  lemma SplitNibbles(v: nat, x: nat, y: nat, z: nat)
    requires x < 16 && y < 16 && z < 16 && v == (x * 16 + y) * 16 + z
    ensures v / 256 == x && v / 16 % 16 == y && v % 16 == z
  {
    DivMod(v, 256, x, y * 16 + z);
    DivMod(v, 16, x * 16 + y, z);
    DivMod(x * 16 + y, 16, x, y);
  }

  lemma SplitBytes(v: nat, a: nat, r: nat, g: nat, b: nat)
    requires a < 256 && r < 256 && g < 256 && b < 256
    requires v == ((a * 256 + r) * 256 + g) * 256 + b
    ensures v / 16777216 == a && v / 65536 % 256 == r && v / 256 % 256 == g && v % 256 == b
  {
    DivMod(v, 16777216, a, (r * 256 + g) * 256 + b);
    DivMod(v, 65536, a * 256 + r, g * 256 + b);
    DivMod(a * 256 + r, 256, a, r);
    DivMod(v, 256, (a * 256 + r) * 256 + g, b);
    DivMod((a * 256 + r) * 256 + g, 256, a * 256 + r, g);
  }

  lemma HexValueOfThree(x: char, y: char, z: char)
    ensures HexValue([x, y, z]) == (HexDigitValue(x) * 16 + HexDigitValue(y)) * 16 + HexDigitValue(z)
  {
    assert [x, y, z][..2] == [x, y] && [x, y][..1] == [x] && [x][..0] == [];
    assert HexValue([x]) == HexDigitValue(x);
  }

  /** Three hex digits: full alpha, each nibble times 17. */
  lemma ThreeDigitsExpand(x: char, y: char, z: char)
    requires IsHexDigit(x) && IsHexDigit(y) && IsHexDigit(z)
    ensures DecodeHex([x, y, z]) == Argb(255, HexDigitValue(x) * 17, HexDigitValue(y) * 17, HexDigitValue(z) * 17)
  {
    var s := [x, y, z];
    assert AllHex(s);
    TrimKeepsAlphanumericEnds(s);
    HexValueOfThree(x, y, z);
    SplitNibbles(HexValue(s), HexDigitValue(x), HexDigitValue(y), HexDigitValue(z));
    DecodeTrimmedHex(s, s);
  }

  /** Two upper-case hex digits for a byte. */
  function ByteHex(x: nat): (s: string)
    requires x < 256
    ensures |s| == 2 && AllHex(s) && HexValue(s) == x
  {
    var s := [HexDigit(x / 16), HexDigit(x % 16)];
    assert s[..1] == [HexDigit(x / 16)];
    s
  }

  /** "#RRGGBB". */
  function EncodeRgb(r: nat, g: nat, b: nat): (s: string)
    requires r < 256 && g < 256 && b < 256
  {
    "#" + ByteHex(r) + ByteHex(g) + ByteHex(b)
  }

  /** "#AARRGGBB". */
  function EncodeArgb(a: nat, r: nat, g: nat, b: nat): (s: string)
    requires a < 256 && r < 256 && g < 256 && b < 256
  {
    "#" + ByteHex(a) + ByteHex(r) + ByteHex(g) + ByteHex(b)
  }

  lemma HexIsAlphanumeric(s: string)
    requires AllHex(s)
    ensures forall k :: 0 <= k < |s| ==> IsAlphanumeric(s[k])
  {
  }

  /** Appending the two digits of a byte shifts the value by one byte. */
  lemma AppendByte(s: string, x: nat)
    requires x < 256
    ensures HexValue(s + ByteHex(x)) == HexValue(s) * 256 + x
  {
    HexValueAppend(s, ByteHex(x));
    assert Pow16(2) == 256;
  }

  /** A "#" followed by hex digits trims to the digits. */
  lemma TrimHashHex(body: string)
    requires |body| > 0 && AllHex(body)
    ensures Trim("#" + body) == body
  {
    TrimIgnoresHash(body);
    HexIsAlphanumeric(body);
    TrimKeepsAlphanumericEnds(body);
  }

  /** Six digits decode back to the bytes they encode, with full alpha. */
  lemma RgbRoundTrip(r: nat, g: nat, b: nat)
    requires r < 256 && g < 256 && b < 256
    ensures DecodeHex(EncodeRgb(r, g, b)) == Argb(255, r, g, b)
  {
    var s1 := ByteHex(r);
    var s2 := s1 + ByteHex(g);
    var body := s2 + ByteHex(b);
    AppendByte(s1, g);
    AppendByte(s2, b);
    assert HexValue(body) == ((0 * 256 + r) * 256 + g) * 256 + b;
    assert EncodeRgb(r, g, b) == "#" + body;
    TrimHashHex(body);
    SplitBytes(HexValue(body), 0, r, g, b);
    DecodeTrimmedHex(EncodeRgb(r, g, b), body);
  }

  /** Eight digits decode back to the four bytes they encode. */
  lemma ArgbRoundTrip(a: nat, r: nat, g: nat, b: nat)
    requires a < 256 && r < 256 && g < 256 && b < 256
    ensures DecodeHex(EncodeArgb(a, r, g, b)) == Argb(a, r, g, b)
  {
    var s1 := ByteHex(a);
    var s2 := s1 + ByteHex(r);
    var s3 := s2 + ByteHex(g);
    var body := s3 + ByteHex(b);
    AppendByte(s1, r);
    AppendByte(s2, g);
    AppendByte(s3, b);
    assert HexValue(body) == ((a * 256 + r) * 256 + g) * 256 + b;
    assert EncodeArgb(a, r, g, b) == "#" + body;
    TrimHashHex(body);
    SplitBytes(HexValue(body), a, r, g, b);
    DecodeTrimmedHex(EncodeArgb(a, r, g, b), body);
  }

  /** The accent colour "#009880". */
  const FolderAccent: string := "#009880"

  lemma FolderAccentComponents()
    ensures DecodeHex(FolderAccent) == Argb(255, 0, 152, 128)
  {
    assert ByteHex(0) == "00" && ByteHex(152) == "98" && ByteHex(128) == "80";
    assert FolderAccent == EncodeRgb(0, 152, 128);
    RgbRoundTrip(0, 152, 128);
  }
}

=== FILE: disk.dfy ===
/** The mutable side of the filesystem as the controllers see it: the set of
    existing paths, and the whole-item operations (copy, move, trash, create
    directory) acting on a path together with everything inside it. Whether an
    operation the model allows still fails (permissions, I/O) is decided by
    the caller's `fails` oracle. */
module Disk {
  import opened Wrappers
  import opened Paths

  type Disk = set<Path>

  datatype OpError = OperationFailed

  /** `p` and everything inside it. */
  function Subtree(d: Disk, p: Path): (r: set<Path>)
    ensures r <= d
    ensures p in d ==> p in r
  {
    set q | q in d && IsUnder(q, p)
  }

  /** The subtree of `src` as it appears once placed at `dst`. */
  function Relocated(d: Disk, src: Path, dst: Path): (r: set<Path>)
    ensures src in d ==> dst in r
    ensures forall q :: q in r ==> IsUnder(q, dst)
    ensures forall q :: q in d && IsUnder(q, src) ==> Rebase(q, src, dst) in r
    ensures forall q :: q in r ==> exists p :: p in d && IsUnder(p, src) && q == Rebase(p, src, dst)
  {
    var r := set q | q in d && IsUnder(q, src) :: Rebase(q, src, dst);
    assert IsUnder(src, src);
    assert src in d ==> Rebase(src, src, dst) in r;
    r
  }

  /** `copyItem(at:to:)`: fails if the source is missing or the destination
      exists; on success the source is kept and the destination appears,
      holding a copy of everything the source held. */
  function CopyItem(d: Disk, src: Path, dst: Path, fails: bool): (r: Result<Disk, OpError>)
    ensures r.Ok? <==> !fails && src in d && dst !in d
    ensures r.Ok? ==> d <= r.value && dst in r.value
    ensures r.Ok? ==> forall q :: q in d && IsUnder(q, src) ==> Rebase(q, src, dst) in r.value
    ensures r.Ok? ==> forall q :: q in r.value ==>
      q in d || exists p :: p in d && IsUnder(p, src) && q == Rebase(p, src, dst)
  {
    if fails || src !in d || dst in d then Err(OperationFailed)
    else Ok(d + Relocated(d, src, dst))
  }

  /** `moveItem(at:to:)`: the failure conditions of a copy, and a directory
      cannot be moved into itself; on success the destination appears with
      the source's contents, the source is gone, and nothing outside the
      source's subtree is lost. */
  function MoveItem(d: Disk, src: Path, dst: Path, fails: bool): (r: Result<Disk, OpError>)
    ensures r.Ok? <==> !fails && src in d && dst !in d && !IsUnder(dst, src)
    ensures r.Ok? ==> dst in r.value && d - Subtree(d, src) <= r.value
    ensures r.Ok? ==> forall q :: q in d && IsUnder(q, src) ==> Rebase(q, src, dst) in r.value
    ensures r.Ok? ==> forall q :: q in r.value ==>
      (q in d && !IsUnder(q, src)) || exists p :: p in d && IsUnder(p, src) && q == Rebase(p, src, dst)
    ensures r.Ok? && !IsUnder(src, dst) ==> forall q :: IsUnder(q, src) ==> q !in r.value
  {
    if fails || src !in d || dst in d || IsUnder(dst, src) then Err(OperationFailed)
    else
      var r := (d - Subtree(d, src)) + Relocated(d, src, dst);
      assert !IsUnder(src, dst) ==> forall q :: IsUnder(q, src) ==> q !in r by {
        forall q | IsUnder(q, src) && IsUnder(q, dst) && !IsUnder(src, dst)
          ensures false
        {
          UnderBothIsNested(q, src, dst);
        }
      }
      Ok(r)
  }

  /** `trashItem(at:)`: the item and its contents leave the folder tree. */
  function Trash(d: Disk, p: Path, fails: bool): (r: Result<Disk, OpError>)
    ensures r.Ok? <==> !fails && p in d
    ensures r.Ok? ==> r.value <= d && p !in r.value
    ensures r.Ok? ==> forall q :: q in r.value <==> q in d && !IsUnder(q, p)
  {
    if fails || p !in d then Err(OperationFailed)
    else Ok(d - Subtree(d, p))
  }

  /** `createDirectory(at:withIntermediateDirectories: false)`: the parent
      must exist and the target must not. */
  function CreateDirectory(d: Disk, p: Path, fails: bool): (r: Result<Disk, OpError>)
    ensures r.Ok? <==> !fails && p !in d && DeletingLastComponent(p) in d
    ensures r.Ok? ==> r.value == d + {p}
  {
    if fails || p in d || DeletingLastComponent(p) !in d then Err(OperationFailed)
    else Ok(d + {p})
  }
}

=== FILE: explorer.dfy ===
/** The browser window's controller (`FileExplorerViewModel`): current
    folder, back/forward history, the listed entries and their sort, the
    selection, and the file operations started from the window. A reload is
    modelled synchronously: it is handed the listing result (or the listing
    error) that the asynchronous task would obtain. */
module Explorer {
  import opened Wrappers
  import opened Text
  import opened Paths
  import opened Items
  import opened ViewModes
  import opened Sorting
  import opened Selections
  import Disk
  import Listing

  datatype ErrorMessage =
    | PathDoesNotExist(path: Path)
    | FailedToLoad
    | FailedToCreateFolder
    | FailedToRename
    | FailedToDelete

  datatype Explorer = Explorer(
    currentPath: Path,
    items: seq<Entry>,
    isLoading: bool,
    errorMessage: Option<ErrorMessage>,
    viewMode: ViewMode,
    selection: Selection,
    canGoBack: bool,
    canGoForward: bool,
    history: seq<Path>,
    historyIndex: int,
    watching: Option<Path>)

  /** The history invariant the class keeps: the index is -1 exactly when the
      history is empty and otherwise points into it, and the two published
      flags agree with the index. */
  predicate Valid(st: Explorer)
  {
    && -1 <= st.historyIndex < |st.history|
    && (st.historyIndex == -1 <==> |st.history| == 0)
    && st.canGoBack == (st.historyIndex > 0)
    && st.canGoForward == (st.historyIndex < |st.history| - 1)
  }

  /** A window opened on `path`; `viewId` is the view mode's UUID. */
  function Init(path: Path, viewId: nat): (st: Explorer)
    ensures Valid(st)
    ensures st.currentPath == path && st.history == [] && st.selection.selected == {}
    ensures !st.canGoBack && !st.canGoForward
  {
    Explorer(path, [], false, None, Default(viewId), NoSelection, false, false, [], -1, None)
  }

  /** `updateNavigationState()`. */
  function WithFlags(st: Explorer): Explorer
  {
    st.(canGoBack := st.historyIndex > 0, canGoForward := st.historyIndex < |st.history| - 1)
  }

  // ---------------------------------------------------------------------
  // Navigation

  /** `navigate(to:)`. A missing target only sets the error message.
      Otherwise the forward history is dropped, the folder being LEFT is
      appended, the index moves to the new tail, and the target becomes
      current with an empty selection; the reload it schedules is `Reload`. */
  function Navigate(st: Explorer, url: Path, disk: Disk.Disk): (r: Explorer)
    requires Valid(st)
    ensures Valid(r)
    ensures url !in disk ==> r == st.(errorMessage := Some(PathDoesNotExist(url)))
    ensures url in disk ==>
      && r.history == st.history[..st.historyIndex + 1] + [st.currentPath]
      && r.historyIndex == |r.history| - 1
      && !r.canGoForward
      && r.currentPath == url
      && r.selection == st.selection.(selected := {})
      && r.items == st.items && r.errorMessage == st.errorMessage && r.viewMode == st.viewMode
  {
    if url !in disk then st.(errorMessage := Some(PathDoesNotExist(url)))
    else
      var kept := if st.historyIndex < |st.history| - 1 then st.history[..st.historyIndex + 1] else st.history;
      var h := kept + [st.currentPath];
      WithFlags(st.(history := h, historyIndex := |h| - 1)).(
        currentPath := url, selection := st.selection.(selected := {}))
  }

  /** `navigateBack()`: when permitted, one step back in the history, which
      itself is left unchanged. */
  function Back(st: Explorer): (r: Explorer)
    requires Valid(st)
    ensures Valid(r)
    ensures !st.canGoBack ==> r == st
    ensures st.canGoBack ==>
      && r.historyIndex == st.historyIndex - 1
      && r.currentPath == st.history[r.historyIndex]
      && r.history == st.history
      && r.selection == st.selection.(selected := {})
      && r.canGoForward
  {
    if !(st.canGoBack && st.historyIndex > 0) then st
    else
      var i := st.historyIndex - 1;
      WithFlags(st.(historyIndex := i, currentPath := st.history[i], selection := st.selection.(selected := {})))
  }

  /** `navigateForward()`: when permitted, one step forward. */
  function Forward(st: Explorer): (r: Explorer)
    requires Valid(st)
    ensures Valid(r)
    ensures !st.canGoForward ==> r == st
    ensures st.canGoForward ==>
      && r.historyIndex == st.historyIndex + 1
      && r.currentPath == st.history[r.historyIndex]
      && r.history == st.history
      && r.selection == st.selection.(selected := {})
      && r.canGoBack
  {
    if !(st.canGoForward && st.historyIndex < |st.history| - 1) then st
    else
      var i := st.historyIndex + 1;
      WithFlags(st.(historyIndex := i, currentPath := st.history[i], selection := st.selection.(selected := {})))
  }

  /** Back then forward returns to the same history position. */
  lemma BackThenForwardRestoresIndex(st: Explorer)
    requires Valid(st) && st.canGoBack
    ensures Forward(Back(st)).historyIndex == st.historyIndex
    ensures Forward(Back(st)).history == st.history
    ensures Forward(Back(st)).currentPath == st.history[st.historyIndex]
  {
  }

  /** After a successful navigation, going back lands on the entry before
      the folder just left (or does nothing on the first navigation), not on
      the folder just left. */
  lemma BackAfterNavigate(st: Explorer, url: Path, disk: Disk.Disk)
    requires Valid(st) && url in disk
    ensures var r := Back(Navigate(st, url, disk));
      && (st.historyIndex <= -1 ==> r.currentPath == url)
      && (st.historyIndex >= 0 ==> r.currentPath == st.history[st.historyIndex])
  {
  }

  /** The history as written misses the folder being shown: three
      navigations followed by two steps back end on the folder the window
      started in, not on the first target, and two steps forward end on the
      second target, not the third. */
  lemma NavigationRoundTripFailsAsWritten()
    ensures var h, a, b, c := Path(["h"]), Path(["a"]), Path(["b"]), Path(["c"]);
      var disk := {h, a, b, c};
      var st := Navigate(Navigate(Navigate(Init(h, 0), a, disk), b, disk), c, disk);
      && !Navigate(Init(h, 0), a, disk).canGoBack
      && Back(Back(st)).currentPath == h != a
      && Forward(Forward(Back(Back(st)))).currentPath == b != c
  {
    var h, a, b, c := Path(["h"]), Path(["a"]), Path(["b"]), Path(["c"]);
    var disk := {h, a, b, c};
    var s1 := Navigate(Init(h, 0), a, disk);
    var s2 := Navigate(s1, b, disk);
    var s3 := Navigate(s2, c, disk);
    assert s3.history == [h, a, b];
  }

  /** The evident intent: the history also holds the folder on show, at the
      current index. */
  predicate Tracked(st: Explorer)
  {
    Valid(st) && (|st.history| > 0 ==> st.history[st.historyIndex] == st.currentPath)
  }

  /** `navigate(to:)` as intended: the first navigation records the starting
      folder, and every navigation appends its target rather than the folder
      being left. */
  function NavigateIntended(st: Explorer, url: Path, disk: Disk.Disk): (r: Explorer)
    requires Tracked(st)
    ensures Tracked(r)
    ensures url !in disk ==> r == st.(errorMessage := Some(PathDoesNotExist(url)))
    ensures url in disk ==>
      && r.currentPath == url && r.canGoBack && !r.canGoForward
      && r.history[r.historyIndex - 1] == st.currentPath
      && r.selection == st.selection.(selected := {})
  {
    if url !in disk then st.(errorMessage := Some(PathDoesNotExist(url)))
    else
      var base := if |st.history| == 0 then [st.currentPath] else st.history[..st.historyIndex + 1];
      var h := base + [url];
      WithFlags(st.(history := h, historyIndex := |h| - 1)).(
        currentPath := url, selection := st.selection.(selected := {}))
  }

  /** With the intended history, stepping back and forth keeps the folder on
      show in step with the history, back undoes a navigation, and back then
      forward is a full round trip. */
  lemma IntendedHistoryRoundTrips(st: Explorer, url: Path, disk: Disk.Disk)
    requires Tracked(st)
    ensures Tracked(Back(st)) && Tracked(Forward(st))
    ensures url in disk ==> Back(NavigateIntended(st, url, disk)).currentPath == st.currentPath
    ensures st.canGoBack ==> Forward(Back(st)).currentPath == st.currentPath
    ensures st.canGoForward ==> Back(Forward(st)).currentPath == st.currentPath
  {
  }

  /** The three-navigation scenario with the intended history. */
  lemma NavigationRoundTripIntended()
    ensures var h, a, b, c := Path(["h"]), Path(["a"]), Path(["b"]), Path(["c"]);
      var disk := {h, a, b, c};
      var st := NavigateIntended(NavigateIntended(NavigateIntended(Init(h, 0), a, disk), b, disk), c, disk);
      && Back(Back(st)).currentPath == a
      && Forward(Forward(Back(Back(st)))).currentPath == c
  {
    var h, a, b, c := Path(["h"]), Path(["a"]), Path(["b"]), Path(["c"]);
    var disk := {h, a, b, c};
    var s1 := NavigateIntended(Init(h, 0), a, disk);
    var s2 := NavigateIntended(s1, b, disk);
    var s3 := NavigateIntended(s2, c, disk);
    assert s3.history == [h, a, b, c];
  }

  /** `navigateToParent()`: nothing at the root, else `navigate(to:)` the
      parent, with the history exactly as that function keeps it: the folder
      being left is appended, so the history's tail is the child, not the
      parent now on show. */
  function NavigateToParent(st: Explorer, disk: Disk.Disk): (r: Explorer)
    requires Valid(st)
    ensures Valid(r)
    ensures st.currentPath == Root ==> r == st
    ensures st.currentPath != Root ==>
      var parent := DeletingLastComponent(st.currentPath);
      && (parent !in disk ==> r == st.(errorMessage := Some(PathDoesNotExist(parent))))
      && (parent in disk ==>
            && r.currentPath == parent && |r.currentPath.comps| + 1 == |st.currentPath.comps|
            && r.history == st.history[..st.historyIndex + 1] + [st.currentPath]
            && r.historyIndex == |r.history| - 1 && !r.canGoForward
            && r.selection.selected == {})
  {
    match Listing.ParentDirectory(st.currentPath)
    case None => st
    case Some(parent) => Navigate(st, parent, disk)
  }

  /** Going up from a freshly opened window leaves back disabled, and once
      there is history, back from the parent shows the entry before the
      child rather than the child. */
  lemma BackAfterParent(st: Explorer, disk: Disk.Disk)
    requires Valid(st) && st.currentPath != Root && DeletingLastComponent(st.currentPath) in disk
    ensures st.history == [] ==> !NavigateToParent(st, disk).canGoBack
    ensures st.history == [] ==> Back(NavigateToParent(st, disk)).currentPath == DeletingLastComponent(st.currentPath)
    ensures st.history != [] ==> Back(NavigateToParent(st, disk)).currentPath == st.history[st.historyIndex]
  {
    BackAfterNavigate(st, DeletingLastComponent(st.currentPath), disk);
  }

  // ---------------------------------------------------------------------
  // Loading and sorting

  /** The source's comparison closure for each sort field. */
  predicate FieldLess(opt: SortOption, a: Entry, b: Entry)
  {
    match opt
    case Name => CaseInsensitiveLess(a.name, b.name)
    case DateModified => a.modifiedAt < b.modifiedAt
    case Size => a.size < b.size
    case Type => LexLess(Codes(RawValue(a.fileType)), Codes(RawValue(b.fileType)))
  }

  function FieldKey(opt: SortOption): Entry -> seq<int>
  {
    match opt
    case Name => (e: Entry) => Codes(Lower(e.name))
    case DateModified => (e: Entry) => [e.modifiedAt]
    case Size => (e: Entry) => [e.size]
    case Type => (e: Entry) => Codes(RawValue(e.fileType))
  }

  lemma FieldKeyOrder(opt: SortOption, a: Entry, b: Entry)
    ensures FieldLess(opt, a, b) <==> LexLess(FieldKey(opt)(a), FieldKey(opt)(b))
  {
  }

  /** `r` is in the view mode's order: no later entry comes strictly before
      an earlier one by the chosen field (strictly after, when descending). */
  predicate InViewOrder(vm: ViewMode, r: seq<Entry>)
  {
    && (vm.sortOrder == Ascending ==> forall i, j :: 0 <= i < j < |r| ==> !FieldLess(vm.sortBy, r[j], r[i]))
    && (vm.sortOrder == Descending ==> forall i, j :: 0 <= i < j < |r| ==> !FieldLess(vm.sortBy, r[i], r[j]))
  }

  /** `sortItems`: a permutation of the input, ordered by the chosen field,
      ascending or reversed. */
  function SortItems(vm: ViewMode, items: seq<Entry>): (r: seq<Entry>)
    ensures multiset(r) == multiset(items)
    ensures InViewOrder(vm, r)
  {
    var key := FieldKey(vm.sortBy);
    var asc := SortBy(items, key);
    forall a, b ensures FieldLess(vm.sortBy, a, b) <==> LexLess(key(a), key(b)) {
      FieldKeyOrder(vm.sortBy, a, b);
    }
    if vm.sortOrder == Descending then
      ReverseIsPermutation(asc);
      ReverseOfSorted(asc, key);
      Reverse(asc)
    else asc
  }

  /** The descending order is exactly the ascending result read backwards,
      ties included. */
  lemma DescendingReversesAscending(vm: ViewMode, items: seq<Entry>)
    ensures SortItems(vm.(sortOrder := Descending), items) == Reverse(SortItems(vm.(sortOrder := Ascending), items))
  {
  }

  /** `loadContents()` given the listing of the current folder. On success
      the sorted entries are published, the first one joins the selection
      (ids from before the reload are NOT removed) and the folder is watched;
      on failure the list empties, an error is shown and watching stops. */
  function Reload(st: Explorer, listing: Result<seq<Entry>, Listing.ListingError>): (r: Explorer)
    ensures !r.isLoading
    ensures r.currentPath == st.currentPath && r.history == st.history && r.historyIndex == st.historyIndex
    ensures r.canGoBack == st.canGoBack && r.canGoForward == st.canGoForward && r.viewMode == st.viewMode
    ensures r.selection.anchor == st.selection.anchor
    ensures listing.Err? ==>
      r.items == [] && r.errorMessage == Some(FailedToLoad) && r.watching.None? && r.selection == st.selection
    ensures listing.Ok? ==>
      && multiset(r.items) == multiset(listing.value)
      && InViewOrder(st.viewMode, r.items)
      && r.errorMessage.None?
      && r.watching == Some(st.currentPath)
      && (|r.items| == 0 ==> r.selection == st.selection)
      && (|r.items| > 0 ==> r.selection.selected == st.selection.selected + {r.items[0].id})
  {
    match listing
    case Err(_) =>
      st.(isLoading := false, errorMessage := Some(FailedToLoad), items := [], watching := None)
    case Ok(contents) =>
      var sorted := SortItems(st.viewMode, contents);
      var sel := if |sorted| > 0 then st.selection.(selected := st.selection.selected + {sorted[0].id}) else st.selection;
      st.(isLoading := false, errorMessage := None, items := sorted, selection := sel, watching := Some(st.currentPath))
  }

  /** A reload keeps every id that was selected before it, listed or not. */
  lemma ReloadKeepsStaleIds(st: Explorer, listing: Result<seq<Entry>, Listing.ListingError>)
    ensures st.selection.selected <= Reload(st, listing).selection.selected
  {
  }

  /** `setSortOption(_:)`. */
  function SetSortOption(st: Explorer, opt: SortOption): (r: Explorer)
    ensures r.viewMode == st.viewMode.(sortBy := opt)
    ensures multiset(r.items) == multiset(st.items) && InViewOrder(r.viewMode, r.items)
    ensures r.selection == st.selection && r.currentPath == st.currentPath
  {
    var vm := st.viewMode.(sortBy := opt);
    st.(viewMode := vm, items := SortItems(vm, st.items))
  }

  /** `toggleSortOrder()`. */
  function ToggleSortOrder(st: Explorer): (r: Explorer)
    ensures r.viewMode.sortOrder != st.viewMode.sortOrder
    ensures r.viewMode.sortBy == st.viewMode.sortBy && r.viewMode.mode == st.viewMode.mode
    ensures multiset(r.items) == multiset(st.items) && InViewOrder(r.viewMode, r.items)
  {
    var vm := st.viewMode.(sortOrder := FlipOrder(st.viewMode.sortOrder));
    st.(viewMode := vm, items := SortItems(vm, st.items))
  }

  lemma ToggleSortOrderTwice(st: Explorer)
    ensures ToggleSortOrder(ToggleSortOrder(st)).viewMode == st.viewMode
  {
  }

  /** `toggleViewMode()`. */
  function ToggleViewMode(st: Explorer): (r: Explorer)
    ensures r.viewMode.mode != st.viewMode.mode
    ensures r.viewMode == st.viewMode.(mode := r.viewMode.mode)
    ensures r.items == st.items
  {
    st.(viewMode := st.viewMode.(mode := FlipMode(st.viewMode.mode)))
  }

  // ---------------------------------------------------------------------
  // Selection

  function ToggleSelection(st: Explorer, item: Entry): (r: Explorer)
    ensures item.id in r.selection.selected <==> item.id !in st.selection.selected
    ensures forall x :: x != item.id ==> (x in r.selection.selected <==> x in st.selection.selected)
    ensures r.selection.anchor == Some(item.id)
    ensures r == st.(selection := r.selection)
  {
    st.(selection := Toggle(st.selection, item.id))
  }

  function SelectAll(st: Explorer): (r: Explorer)
    ensures forall x :: x in r.selection.selected <==> exists k :: 0 <= k < |st.items| && st.items[k].id == x
    ensures r.selection.anchor == st.selection.anchor
  {
    st.(selection := st.selection.(selected := AllIds(st.items)))
  }

  /** `clearSelection()` of the browser window keeps the anchor. */
  function ClearSelection(st: Explorer): (r: Explorer)
    ensures r.selection.selected == {} && r.selection.anchor == st.selection.anchor
    ensures r == st.(selection := r.selection)
  {
    st.(selection := st.selection.(selected := {}))
  }

  function SelectRangeIn(st: Explorer, start: Entry, end: Entry): (r: Explorer)
    ensures r.selection == SelectRange(st.selection, st.items, start, end)
    ensures st.selection.selected <= r.selection.selected
    ensures r == st.(selection := r.selection)
  {
    st.(selection := SelectRange(st.selection, st.items, start, end))
  }

  /** The four arrow moves; `first` is `selectedItems.first`. */
  function SelectNext(st: Explorer, first: Option<nat>): (r: Explorer)
    requires FirstOf(st.selection.selected, first)
    ensures r == st.(selection := st.selection.(selected := MoveForward(st.items, st.selection.selected, first, 1)))
    ensures |st.items| > 0 ==> |r.selection.selected| >= 1
  {
    st.(selection := st.selection.(selected := MoveForward(st.items, st.selection.selected, first, 1)))
  }

  function SelectPrevious(st: Explorer, first: Option<nat>): (r: Explorer)
    requires FirstOf(st.selection.selected, first)
    ensures r == st.(selection := st.selection.(selected := MoveBackward(st.items, st.selection.selected, first, 1)))
    ensures |st.items| > 0 ==> |r.selection.selected| >= 1
  {
    st.(selection := st.selection.(selected := MoveBackward(st.items, st.selection.selected, first, 1)))
  }

  /** `columnsPerRow` is at least 1 at the only caller; a negative value would
      index outside the list in the source. */
  function SelectBelow(st: Explorer, first: Option<nat>, columnsPerRow: nat): (r: Explorer)
    requires FirstOf(st.selection.selected, first)
    ensures r == st.(selection := st.selection.(selected := MoveForward(st.items, st.selection.selected, first, columnsPerRow)))
    ensures |st.items| > 0 ==> |r.selection.selected| >= 1
  {
    st.(selection := st.selection.(selected := MoveForward(st.items, st.selection.selected, first, columnsPerRow)))
  }

  function SelectAbove(st: Explorer, first: Option<nat>, columnsPerRow: nat): (r: Explorer)
    requires FirstOf(st.selection.selected, first)
    ensures r == st.(selection := st.selection.(selected := MoveBackward(st.items, st.selection.selected, first, columnsPerRow)))
    ensures |st.items| > 0 ==> |r.selection.selected| >= 1
  {
    st.(selection := st.selection.(selected := MoveBackward(st.items, st.selection.selected, first, columnsPerRow)))
  }

  /** After any arrow move on a non-empty list with a listed selection, exactly
      one entry is selected, and it is a listed one. */
  lemma ArrowMoveSelectsOneListedEntry(st: Explorer, first: Option<nat>, step: nat, forward: bool)
    requires FirstOf(st.selection.selected, first)
    requires |st.items| > 0 && Found(st.items, first).Some?
    ensures var sel := if forward then MoveForward(st.items, st.selection.selected, first, step)
                       else MoveBackward(st.items, st.selection.selected, first, step);
      |sel| == 1 && exists k :: 0 <= k < |st.items| && sel == {st.items[k].id}
  {
  }

  // ---------------------------------------------------------------------
  // Opening items

  /** `openItem(_:)`: folders are navigated into with `navigate(to:)`;
      opening a file is handed to the workspace and changes no state here. */
  function OpenItem(st: Explorer, item: Entry, disk: Disk.Disk): (r: Explorer)
    requires Valid(st)
    ensures Valid(r)
    ensures item.fileType != Folder ==> r == st
    ensures item.fileType == Folder && item.path in disk ==>
      && r.currentPath == item.path
      && r.history == st.history[..st.historyIndex + 1] + [st.currentPath]
      && r.historyIndex == |r.history| - 1 && !r.canGoForward
      && r.selection.selected == {}
    ensures item.fileType == Folder && item.path !in disk ==>
      r == st.(errorMessage := Some(PathDoesNotExist(item.path)))
  {
    if item.fileType == Folder then Navigate(st, item.path, disk) else st
  }

  /** Opening a folder and stepping back shows the entry before the folder
      that was open, or stays in the opened folder on a first navigation. */
  lemma BackAfterOpen(st: Explorer, item: Entry, disk: Disk.Disk)
    requires Valid(st) && item.fileType == Folder && item.path in disk
    ensures st.history == [] ==> Back(OpenItem(st, item, disk)).currentPath == item.path
    ensures st.history != [] ==> Back(OpenItem(st, item, disk)).currentPath == st.history[st.historyIndex]
  {
    BackAfterNavigate(st, item.path, disk);
  }

  // ---------------------------------------------------------------------
  // File operations

  /** `createNewFolder(named:)`: on failure only the error message changes;
      on success the folder exists and a refresh follows. */
  function CreateNewFolder(st: Explorer, name: string, disk: Disk.Disk, fails: bool): (r: (Explorer, Disk.Disk))
    ensures var target := Listing.CreateFolderTarget(st.currentPath, name);
      && (Disk.CreateDirectory(disk, target, fails).Ok? ==> r.0 == st && r.1 == disk + {target})
      && (Disk.CreateDirectory(disk, target, fails).Err? ==>
            r.0 == st.(errorMessage := Some(FailedToCreateFolder)) && r.1 == disk)
  {
    match Disk.CreateDirectory(disk, Listing.CreateFolderTarget(st.currentPath, name), fails)
    case Ok(d) => (st, d)
    case Err(_) => (st.(errorMessage := Some(FailedToCreateFolder)), disk)
  }

  /** `renameItem(_:to:)`: a move inside the item's own folder. */
  function RenameItem(st: Explorer, item: Entry, newName: string, disk: Disk.Disk, fails: bool): (r: (Explorer, Disk.Disk))
    ensures var target := Listing.RenameTarget(item.path, newName);
      && (Disk.MoveItem(disk, item.path, target, fails).Ok? ==> r.0 == st && target in r.1 && item.path !in r.1)
      && (Disk.MoveItem(disk, item.path, target, fails).Ok? ==>
            forall q :: q in disk && IsUnder(q, item.path) ==> Rebase(q, item.path, target) in r.1)
      && (Disk.MoveItem(disk, item.path, target, fails).Ok? ==>
            disk - Disk.Subtree(disk, item.path) <= r.1 && forall q :: IsUnder(q, item.path) ==> q !in r.1)
      && (Disk.MoveItem(disk, item.path, target, fails).Ok? ==>
            forall q :: q in r.1 ==>
              (q in disk && !IsUnder(q, item.path)) || exists p :: p in disk && IsUnder(p, item.path) && q == Rebase(p, item.path, target))
      && (Disk.MoveItem(disk, item.path, target, fails).Err? ==>
            r.0 == st.(errorMessage := Some(FailedToRename)) && r.1 == disk)
  {
    match Disk.MoveItem(disk, item.path, Listing.RenameTarget(item.path, newName), fails)
    case Ok(d) => (st, d)
    case Err(_) => (st.(errorMessage := Some(FailedToRename)), disk)
  }

  /** The listed entries that are selected, in list order. */
  function SelectedInOrder(items: seq<Entry>, sel: set<nat>): (r: seq<Entry>)
    ensures forall e :: e in r <==> e in items && e.id in sel
  {
    if |items| == 0 then []
    else (if items[0].id in sel then [items[0]] else []) + SelectedInOrder(items[1..], sel)
  }

  /** No path of `list` lies inside another one of it, as for the entries of
      one folder listing. */
  predicate Unnested(list: seq<Entry>)
  {
    forall i, j :: 0 <= i < |list| && 0 <= j < |list| && i != j ==> !IsUnder(list[j].path, list[i].path)
  }

  /** `q` lies inside none of the paths of `list`. */
  predicate Outside(q: Path, list: seq<Entry>)
  {
    forall i :: 0 <= i < |list| ==> !IsUnder(q, list[i].path)
  }

  /** Every item of `list` is present, none lies inside another, and no
      trash call from position `pos` on fails for an outside reason. */
  predicate Trashable(list: seq<Entry>, disk: Disk.Disk, failAt: set<nat>, pos: nat)
  {
    && Unnested(list)
    && (forall i :: 0 <= i < |list| ==> list[i].path in disk)
    && (forall k :: pos <= k < pos + |list| ==> k !in failAt)
  }

  /** Trashes `list` item by item; `failAt` holds the positions whose trash
      call fails for reasons outside the model. Returns the new disk and
      whether any call failed. Only the listed items and their contents
      leave the disk; with no outside failure, every item present and none
      inside another, no call fails. */
  function TrashAll(list: seq<Entry>, disk: Disk.Disk, failAt: set<nat>, pos: nat): (r: (Disk.Disk, bool))
    ensures r.0 <= disk
    ensures forall i :: 0 <= i < |list| && pos + i !in failAt ==> list[i].path !in r.0
    ensures forall i, q :: 0 <= i < |list| && pos + i !in failAt && list[i].path in disk && IsUnder(q, list[i].path) ==> q !in r.0
    ensures forall q :: q in disk && Outside(q, list) ==> q in r.0
    ensures (exists i :: pos <= i < pos + |list| && i in failAt) ==> r.1
    decreases |list|
  {
    if |list| == 0 then (disk, false)
    else
      var step := Disk.Trash(disk, list[0].path, pos in failAt);
      var d := if step.Ok? then step.value else disk;
      var rest := TrashAll(list[1..], d, failAt, pos + 1);
      assert forall i :: 1 <= i < |list| ==> list[i] == list[1..][i - 1];
      assert pos in failAt ==> step.Err?;
      assert forall q :: q in disk && !IsUnder(q, list[0].path) ==> q in d;
      assert forall i, q :: 0 <= i < |list| && pos + i !in failAt && list[i].path in disk && IsUnder(q, list[i].path) ==> q !in rest.0 by {
        forall i, q | 0 <= i < |list| && pos + i !in failAt && list[i].path in disk && IsUnder(q, list[i].path)
          ensures q !in rest.0
        {
          if i == 0 {
            assert q !in d;
          } else if list[i].path in d {
            assert list[i] == list[1..][i - 1];
          } else {
            IsUnderTransitive(q, list[i].path, list[0].path);
          }
        }
      }
      (rest.0, rest.1 || step.Err?)
  }

  /** With no outside failure, every item present and none inside another,
      no trash call fails. */
  lemma {:induction false} TrashAllSucceeds(list: seq<Entry>, disk: Disk.Disk, failAt: set<nat>, pos: nat)
    requires Trashable(list, disk, failAt, pos)
    ensures !TrashAll(list, disk, failAt, pos).1
    decreases |list|
  {
    if |list| > 0 {
      var step := Disk.Trash(disk, list[0].path, pos in failAt);
      assert step.Ok?;
      var tail := list[1..];
      forall i | 0 <= i < |tail|
        ensures tail[i].path in step.value
      {
        assert tail[i] == list[i + 1];
        assert !IsUnder(list[i + 1].path, list[0].path);
      }
      assert Unnested(tail) by {
        forall i, j | 0 <= i < |tail| && 0 <= j < |tail| && i != j
          ensures !IsUnder(tail[j].path, tail[i].path)
        {
          assert tail[i] == list[i + 1] && tail[j] == list[j + 1];
        }
      }
      TrashAllSucceeds(tail, step.value, failAt, pos + 1);
    }
  }

  /** `deleteSelectedItems()`: every selected listed entry is trashed in list
      order; a failure sets the error message without stopping the batch;
      the selection empties; a refresh follows. */
  function DeleteSelectedItems(st: Explorer, disk: Disk.Disk, failAt: set<nat>): (r: (Explorer, Disk.Disk))
    ensures r.1 <= disk
    ensures r.0.selection.selected == {} && r.0.selection.anchor == st.selection.anchor
    ensures var list := SelectedInOrder(st.items, st.selection.selected);
      && (forall i :: 0 <= i < |list| && i !in failAt ==> list[i].path !in r.1)
      && (forall i, q :: 0 <= i < |list| && i !in failAt && list[i].path in disk && IsUnder(q, list[i].path) ==> q !in r.1)
      && (forall q :: q in disk && Outside(q, list) ==> q in r.1)
      && ((exists i :: 0 <= i < |list| && i in failAt) ==> r.0.errorMessage == Some(FailedToDelete))
      && (Trashable(list, disk, failAt, 0) ==> r.0.errorMessage == st.errorMessage)
      && (|list| == 0 ==> r.0.errorMessage == st.errorMessage && r.1 == disk)
    ensures r.0.currentPath == st.currentPath && r.0.history == st.history && r.0.items == st.items
  {
    var list := SelectedInOrder(st.items, st.selection.selected);
    var (d, failed) := TrashAll(list, disk, failAt, 0);
    assert Trashable(list, disk, failAt, 0) ==> !failed by {
      if Trashable(list, disk, failAt, 0) {
        TrashAllSucceeds(list, disk, failAt, 0);
      }
    }
    var msg := if failed then Some(FailedToDelete) else st.errorMessage;
    (st.(errorMessage := msg, selection := st.selection.(selected := {})), d)
  }
}

=== FILE: hotkeys.dfy ===
/** The pure helpers of `GlobalHotkeyManager`: the key-name table and the
    translation of AppKit modifier flags into the Carbon modifier mask.
    Registering and unregistering the hotkey are not part of this model. */
module Hotkeys {
  import opened Wrappers
  import opened Text

  /** The entries of the table of `keyCodeFromString(_:)`, all lower case:
      the named keys, then F1 to F12, the letters and the digits, each group
      listed with its codes in key order. */
  const NamedKeys: seq<(string, nat)> := [("space", 49), ("return", 36), ("tab", 48), ("delete", 51), ("escape", 53)]
  const FunctionKeyCodes: seq<nat> := [122, 120, 99, 118, 96, 97, 98, 100, 101, 109, 103, 111]
  const LetterCodes: seq<nat> := [0, 11, 8, 2, 14, 3, 5, 4, 34, 38, 40, 37, 46, 45, 31, 35, 12, 15, 1, 17, 32, 9, 13, 7, 16, 6]
  const DigitCodes: seq<nat> := [29, 18, 19, 20, 21, 23, 22, 26, 28, 25]

  function FunctionKeys(): (r: seq<(string, nat)>)
    ensures |r| == 12 && forall i :: 0 <= i < 12 ==> r[i] == ("f" + NatToString(i + 1), FunctionKeyCodes[i])
  {
    seq(12, i requires 0 <= i < 12 => ("f" + NatToString(i + 1), FunctionKeyCodes[i]))
  }

  function LetterKeys(): (r: seq<(string, nat)>)
    ensures |r| == 26 && forall i :: 0 <= i < 26 ==> r[i] == ([('a' as int + i) as char], LetterCodes[i])
  {
    seq(26, i requires 0 <= i < 26 => ([('a' as int + i) as char], LetterCodes[i]))
  }

  function DigitKeys(): (r: seq<(string, nat)>)
    ensures |r| == 10 && forall i :: 0 <= i < 10 ==> r[i] == ([('0' as int + i) as char], DigitCodes[i])
  {
    seq(10, i requires 0 <= i < 10 => ([('0' as int + i) as char], DigitCodes[i]))
  }

  function KeyTable(): seq<(string, nat)>
  {
    NamedKeys + FunctionKeys() + LetterKeys() + DigitKeys()
  }

  /** The code stored under `key`, if any. */
  function Lookup(t: seq<(string, nat)>, key: string): (r: Option<nat>)
    ensures r.Some? <==> exists i :: 0 <= i < |t| && t[i].0 == key
    ensures r.Some? ==> exists i :: 0 <= i < |t| && t[i] == (key, r.value)
  {
    if |t| == 0 then None
    else if t[0].0 == key then Some(t[0].1)
    else
      var r := Lookup(t[1..], key);
      assert forall i :: 1 <= i < |t| ==> t[i] == t[1..][i - 1];
      r
  }

  /** `keyCodeFromString(_:)`: the lower-cased name looked up in the table. */
  function KeyCodeFromString(key: string): (r: Option<nat>)
    ensures r.Some? <==> exists i :: 0 <= i < |KeyTable()| && KeyTable()[i].0 == Lower(key)
    ensures r.Some? ==> exists i :: 0 <= i < |KeyTable()| && KeyTable()[i] == (Lower(key), r.value)
  {
    Lookup(KeyTable(), Lower(key))
  }

  /** Names that differ only in case give the same answer. */
  lemma KeyCodeIgnoresCase(a: string, b: string)
    requires Lower(a) == Lower(b)
    ensures KeyCodeFromString(a) == KeyCodeFromString(b)
  {
  }

  lemma KeyCodeOfLowered(key: string)
    ensures KeyCodeFromString(Lower(key)) == KeyCodeFromString(key)
  {
    LowerIdempotent(key);
  }

  /** The default hotkey "space", in any case, is key 49. */
  lemma SpaceIsFortyNine()
    ensures KeyCodeFromString("space") == Some(49)
    ensures KeyCodeFromString("SPACE") == Some(49)
  {
    assert Lower("space") == "space";
    assert Lower("SPACE") == "space";
    assert KeyTable()[0] == ("space", 49);
  }

  /** Each single letter is a key of the table. */
  lemma LettersMapped()
    ensures forall c :: 'a' <= c <= 'z' ==> KeyCodeFromString([c]).Some?
  {
    forall c | 'a' <= c <= 'z' ensures KeyCodeFromString([c]).Some? {
      var i := c as int - 'a' as int;
      assert Lower([c]) == [c];
      assert KeyTable()[17 + i] == LetterKeys()[i];
    }
  }

  lemma DigitsMapped()
    ensures forall c :: '0' <= c <= '9' ==> KeyCodeFromString([c]).Some?
  {
    forall c | '0' <= c <= '9' ensures KeyCodeFromString([c]).Some? {
      var i := c as int - '0' as int;
      assert Lower([c]) == [c];
      assert KeyTable()[43 + i] == DigitKeys()[i];
    }
  }

  /** "f1" to "f12" are already lower case. */
  lemma FunctionNameIsLower(n: nat)
    ensures Lower("f" + NatToString(n)) == "f" + NatToString(n)
  {
    var k := "f" + NatToString(n);
    forall j | 0 <= j < |k| ensures LowerChar(k[j]) == k[j] {
      if j > 0 { assert IsDigit(NatToString(n)[j - 1]); }
    }
  }

  lemma FunctionKeysMapped()
    ensures forall n :: 1 <= n <= 12 ==> KeyCodeFromString("f" + NatToString(n)).Some?
  {
    forall n | 1 <= n <= 12 ensures KeyCodeFromString("f" + NatToString(n)).Some? {
      FunctionNameIsLower(n);
      assert KeyTable()[5 + n - 1] == FunctionKeys()[n - 1];
    }
  }

  /** Every letter, every digit and F1 to F12 are mapped. */
  lemma TableCoversLettersDigitsAndFunctionKeys()
    ensures forall c :: 'a' <= c <= 'z' ==> KeyCodeFromString([c]).Some?
    ensures forall c :: '0' <= c <= '9' ==> KeyCodeFromString([c]).Some?
    ensures forall n :: 1 <= n <= 12 ==> KeyCodeFromString("f" + NatToString(n)).Some?
  {
    LettersMapped();
    DigitsMapped();
    FunctionKeysMapped();
  }

  // ---------------------------------------------------------------------
  // Modifiers

  /** The device-independent AppKit modifier flags. */
  datatype ModifierFlag = CapsLock | Shift | Control | Option | Command | NumericPad | Help | Function

  /** Carbon's `cmdKey`, `shiftKey`, `optionKey` and `controlKey`. */
  const CmdKey: bv32 := 0x100
  const ShiftKey: bv32 := 0x200
  const OptionKey: bv32 := 0x800
  const ControlKey: bv32 := 0x1000

  function BitIf(present: bool, bit: bv32): bv32
  {
    if present then bit else 0
  }

  /** `carbonModifiersFromAppKit(_:)`. */
  function CarbonModifiers(flags: set<ModifierFlag>): (r: bv32)
    ensures (r & CmdKey != 0) <==> Command in flags
    ensures (r & OptionKey != 0) <==> Option in flags
    ensures (r & ControlKey != 0) <==> Control in flags
    ensures (r & ShiftKey != 0) <==> Shift in flags
    ensures r & !(CmdKey | OptionKey | ControlKey | ShiftKey) == 0
  {
    BitIf(Command in flags, CmdKey) | BitIf(Option in flags, OptionKey)
      | BitIf(Control in flags, ControlKey) | BitIf(Shift in flags, ShiftKey)
  }

  /** The flags a Carbon mask stands for. */
  function FlagsOf(mask: bv32): (r: set<ModifierFlag>)
    ensures r <= {Command, Option, Control, Shift}
  {
    (if mask & CmdKey != 0 then {Command} else {})
      + (if mask & OptionKey != 0 then {Option} else {})
      + (if mask & ControlKey != 0 then {Control} else {})
      + (if mask & ShiftKey != 0 then {Shift} else {})
  }

  /** The mask keeps exactly the four translated flags; the others are
      ignored. */
  lemma CarbonModifiersRoundTrip(flags: set<ModifierFlag>)
    ensures FlagsOf(CarbonModifiers(flags)) == flags * {Command, Option, Control, Shift}
  {
  }

  lemma NoFlagsNoBits()
    ensures CarbonModifiers({}) == 0
  {
  }

  /** Adding flags only adds bits. */
  lemma CarbonModifiersMonotone(a: set<ModifierFlag>, b: set<ModifierFlag>)
    requires a <= b
    ensures CarbonModifiers(a) & CarbonModifiers(b) == CarbonModifiers(a)
  {
  }
}

=== FILE: items.dfy ===
/** The entry record of a listing (`FileSystemItem`): its kind, the
    classification from file metadata, the icon per kind, and the
    folders-first, case-insensitive-name order used for listings and search
    results. */
module Items {
  import opened Wrappers
  import opened Text
  import opened Paths

  datatype FileType = File | Folder | Symlink

  /** The enum's raw value, used as the sort key of the "type" field. */
  function RawValue(t: FileType): string
  {
    match t
    case File => "file"
    case Folder => "folder"
    case Symlink => "symlink"
  }

  /** `iconName`. */
  function IconName(t: FileType): (r: string)
    ensures t == Folder <==> r == "folder.fill"
    ensures t == Symlink <==> r == "link"
    ensures t == File <==> r == "doc.fill"
  {
    match t
    case Folder => "folder.fill"
    case Symlink => "link"
    case File => "doc.fill"
  }

  /** The resource values read for one URL; `None` is a value the system did
      not report. Dates are seconds since an arbitrary epoch. */
  datatype RawMetadata = RawMetadata(
    isSymbolicLink: Option<bool>,
    isDirectory: Option<bool>,
    fileSize: Option<nat>,
    modified: Option<int>,
    created: Option<int>)

  datatype Entry = Entry(
    id: nat,
    path: Path,
    name: string,
    fileType: FileType,
    size: int,
    modifiedAt: int,
    createdAt: int,
    tags: seq<nat>,
    isFavorite: bool,
    isRecent: bool,
    parentPath: Option<Path>,
    isSymlink: bool)

  /** The kind a URL is given: a symbolic link wins over a directory. */
  function Classify(m: RawMetadata): FileType
  {
    if m.isSymbolicLink == Some(true) then Symlink
    else if m.isDirectory == Some(true) then Folder
    else File
  }

  /** `FileSystemItem(from:)`. `id` is the UUID the initializer draws, `now`
      the current date used for unknown dates, and `meta` is `None` when
      reading the resource values throws. */
  function FromUrl(id: nat, url: Path, meta: Option<RawMetadata>, now: int): (r: Option<Entry>)
    ensures r.None? <==> meta.None?
    ensures r.Some? ==>
      var e := r.value;
      && e.id == id && e.path == url
      && e.name == LastComponent(url)
      && e.parentPath == Some(DeletingLastComponent(url))
      && (e.isSymlink <==> e.fileType == Symlink)
      && (e.fileType == Symlink <==> meta.value.isSymbolicLink == Some(true))
      && (e.fileType == Folder <==> meta.value.isSymbolicLink != Some(true) && meta.value.isDirectory == Some(true))
      && (e.fileType == Folder ==> e.size == 0)
      && (e.fileType != Folder ==> e.size == meta.value.fileSize.GetOr(0))
      && e.size >= 0
      && e.tags == [] && !e.isFavorite && !e.isRecent
  {
    match meta
    case None => None
    case Some(m) =>
      var t := Classify(m);
      Some(Entry(
        id, url, LastComponent(url), t,
        if t == Folder then 0 else m.fileSize.GetOr(0),
        m.modified.GetOr(now), m.created.GetOr(now),
        [], false, false,
        Some(DeletingLastComponent(url)),
        t == Symlink))
  }

  /** `FileSystemItem.<`: folders before everything else, then the
      case-insensitive name order. */
  predicate Less(a: Entry, b: Entry)
  {
    if a.fileType == Folder && b.fileType != Folder then true
    else if a.fileType != Folder && b.fileType == Folder then false
    else CaseInsensitiveLess(a.name, b.name)
  }

  /** The key whose lexicographic order is exactly `Less`. */
  function FinderKey(e: Entry): seq<int>
  {
    [if e.fileType == Folder then 0 else 1] + Codes(Lower(e.name))
  }

  lemma LessIsFinderKeyOrder(a: Entry, b: Entry)
    ensures Less(a, b) <==> LexLess(FinderKey(a), FinderKey(b))
  {
    var ka, kb := FinderKey(a), FinderKey(b);
    assert ka[1..] == Codes(Lower(a.name));
    assert kb[1..] == Codes(Lower(b.name));
  }

  lemma FoldersFirst(a: Entry, b: Entry)
    ensures a.fileType == Folder && b.fileType != Folder ==> Less(a, b) && !Less(b, a)
  {
  }

  /** Entries of the same folder-ness are ordered by name alone, so no entry
      precedes itself and the order is transitive. */
  lemma LessIsStrictOrder(a: Entry, b: Entry, c: Entry)
    ensures (a.fileType == Folder) == (b.fileType == Folder) ==>
      (Less(a, b) <==> CaseInsensitiveLess(a.name, b.name))
    ensures !Less(a, a)
    ensures Less(a, b) ==> !Less(b, a)
    ensures Less(a, b) && Less(b, c) ==> Less(a, c)
  {
    LessIsFinderKeyOrder(a, a);
    LessIsFinderKeyOrder(a, b);
    LessIsFinderKeyOrder(b, a);
    LessIsFinderKeyOrder(b, c);
    LessIsFinderKeyOrder(a, c);
    LexLessIrreflexive(FinderKey(a));
    if Less(a, b) {
      LexLessAsymmetric(FinderKey(a), FinderKey(b));
      if Less(b, c) {
        LexLessTransitive(FinderKey(a), FinderKey(b), FinderKey(c));
      }
    }
  }

  /** `hash(into:)`: only the id is combined into the hasher, whatever the
      hasher then does with it. */
  function Hash(combine: nat -> int, e: Entry): int
  {
    combine(e.id)
  }

  /** The hash is consistent with the synthesised equality, which compares
      every field: equal entries hash alike under any hasher, and so do
      entries that agree only on their id. */
  lemma HashConsistentWithEquality(combine: nat -> int, a: Entry, b: Entry)
    ensures a == b ==> Hash(combine, a) == Hash(combine, b)
    ensures a.id == b.id ==> Hash(combine, a) == Hash(combine, b)
  {
  }
}

=== FILE: listing.dfy ===
/** The directory-reading part of `FileSystemService`: a snapshot of a
    directory tree, the filtered and sorted listing of one directory, the
    recursive size of a folder, and the pure path helpers (parent, create and
    rename targets, tilde expansion). */
module Listing {
  import opened Wrappers
  import opened Text
  import opened Paths
  import opened Items
  import opened Sorting

  /** One directory entry as the system reports it. `hidden` is the
      `isHidden` resource value (`None` when it cannot be read), `meta` the
      remaining resource values (`None` when reading them throws), `id` the
      UUID the entry receives when it is turned into a `FileSystemItem`, and
      `contents` what enumerating it as a directory yields. */
  datatype Node = Node(name: string, hidden: Option<bool>, meta: Option<RawMetadata>, id: nat, contents: Contents)

  datatype Contents = Unlistable | Listed(children: seq<Node>)

  datatype ListingError = ListingFailed

  /** Hidden by the flag or by a leading dot. */
  predicate IsHiddenNode(c: Node)
  {
    c.hidden == Some(true) || HasPrefix(c.name, ".")
  }

  predicate Kept(c: Node, showHidden: bool)
  {
    showHidden || !IsHiddenNode(c)
  }

  /** The item a child of `dir` becomes, if its metadata can be read. */
  function EntryOf(c: Node, dir: Path, now: int): Option<Entry>
  {
    FromUrl(c.id, Appending(dir, c.name), c.meta, now)
  }

  /** The unsorted loop of `contentsOfDirectory`: hidden children are skipped
      unless shown, unreadable ones are dropped silently. */
  function Collect(kids: seq<Node>, dir: Path, showHidden: bool, now: int): (r: seq<Entry>)
    ensures |r| <= |kids|
    ensures forall e :: e in r <==>
      exists k :: 0 <= k < |kids| && Kept(kids[k], showHidden) && EntryOf(kids[k], dir, now) == Some(e)
  {
    if |kids| == 0 then []
    else
      var rest := Collect(kids[1..], dir, showHidden, now);
      assert forall k :: 1 <= k < |kids| ==> kids[k] == kids[1..][k - 1];
      assert forall k :: 0 <= k < |kids[1..]| ==> kids[1..][k] == kids[k + 1];
      if Kept(kids[0], showHidden) && EntryOf(kids[0], dir, now).Some? then
        [EntryOf(kids[0], dir, now).value] + rest
      else rest
  }

  /** `contentsOfDirectory(at:showHidden:)` on the directory node `n` found
      at path `dir`; `now` stands for the current date. */
  function ContentsOfDirectory(n: Node, dir: Path, showHidden: bool, now: int): (r: Result<seq<Entry>, ListingError>)
    ensures r.Err? <==> n.contents.Unlistable?
    ensures r.Ok? ==> multiset(r.value) == multiset(Collect(n.contents.children, dir, showHidden, now))
    ensures r.Ok? ==> forall i, j :: 0 <= i < j < |r.value| ==> !Less(r.value[j], r.value[i])
  {
    match n.contents
    case Unlistable => Err(ListingFailed)
    case Listed(kids) =>
      var sorted := SortBy(Collect(kids, dir, showHidden, now), FinderKey);
      assert forall i, j :: 0 <= i < j < |sorted| ==> !Less(sorted[j], sorted[i]) by {
        forall i, j | 0 <= i < j < |sorted| ensures !Less(sorted[j], sorted[i]) {
          LessIsFinderKeyOrder(sorted[j], sorted[i]);
        }
      }
      Ok(sorted)
  }

  /** The sorted listing holds the same entries as the unsorted loop. */
  lemma ListingIsCollected(n: Node, dir: Path, showHidden: bool, now: int, e: Entry)
    requires n.contents.Listed?
    ensures e in ContentsOfDirectory(n, dir, showHidden, now).value <==> e in Collect(n.contents.children, dir, showHidden, now)
  {
    var r := ContentsOfDirectory(n, dir, showHidden, now).value;
    var col := Collect(n.contents.children, dir, showHidden, now);
    assert e in r <==> e in multiset(r);
    assert e in col <==> e in multiset(col);
  }

  /** Children with distinct names become entries with distinct paths. */
  lemma SourceOfEntry(kids: seq<Node>, dir: Path, now: int, j: int, k: int)
    requires 0 <= j < |kids| && 0 <= k < |kids|
    requires forall a, b :: 0 <= a < b < |kids| ==> kids[a].name != kids[b].name
    requires EntryOf(kids[j], dir, now).Some?
    requires EntryOf(kids[j], dir, now).value.path == Appending(dir, kids[k].name)
    ensures j == k
  {
    AppendingThenDeleting(dir, kids[j].name);
    AppendingThenDeleting(dir, kids[k].name);
  }

  /** With distinct child names, a readable child is listed exactly when it
      is kept by the hidden filter; an unreadable child is never listed. */
  lemma ListedIffKept(n: Node, dir: Path, showHidden: bool, now: int, k: int)
    requires n.contents.Listed?
    requires 0 <= k < |n.contents.children|
    requires forall a, b :: 0 <= a < b < |n.contents.children| ==>
      n.contents.children[a].name != n.contents.children[b].name
    ensures var r := ContentsOfDirectory(n, dir, showHidden, now).value;
      var c := n.contents.children[k];
      && (c.meta.Some? ==> (EntryOf(c, dir, now).value in r <==> showHidden || !(c.hidden == Some(true) || HasPrefix(c.name, "."))))
      && (c.meta.None? ==> forall e :: e in r ==> e.path != Appending(dir, c.name))
  {
    var kids := n.contents.children;
    var r := ContentsOfDirectory(n, dir, showHidden, now).value;
    var col := Collect(kids, dir, showHidden, now);
    var c := kids[k];
    if c.meta.Some? {
      var e := EntryOf(c, dir, now).value;
      ListingIsCollected(n, dir, showHidden, now, e);
      if e in col {
        var j :| 0 <= j < |kids| && Kept(kids[j], showHidden) && EntryOf(kids[j], dir, now) == Some(e);
        SourceOfEntry(kids, dir, now, j, k);
      }
    } else {
      forall e | e in r
        ensures e.path != Appending(dir, c.name)
      {
        ListingIsCollected(n, dir, showHidden, now, e);
        var j :| 0 <= j < |kids| && Kept(kids[j], showHidden) && EntryOf(kids[j], dir, now) == Some(e);
        if e.path == Appending(dir, c.name) {
          SourceOfEntry(kids, dir, now, j, k);
          assert false;
        }
      }
    }
  }

  // ---------------------------------------------------------------------
  // Recursive folder size

  datatype SizeError = MetadataUnreadable

  /** `calculateFolderSize(at:)`: the enumerator visits every non-hidden
      descendant in pre-order (hidden directories and symbolic links are not
      entered), adds the size of each entry known not to be a directory (a
      link's own size, as a link is not a directory), and throws as soon as
      one visited entry's resource values cannot be read. */
  function FolderSize(n: Node): Result<int, SizeError>
    decreases n, 1
  {
    match n.contents
    case Unlistable => Ok(0)
    case Listed(kids) => ChildrenSize(kids)
  }

  function ChildrenSize(kids: seq<Node>): Result<int, SizeError>
    decreases kids, 0
  {
    if |kids| == 0 then Ok(0)
    else if IsHiddenNode(kids[0]) then ChildrenSize(kids[1..])
    else if kids[0].meta.None? then Err(MetadataUnreadable)
    else
      var inside := if IsLinkNode(kids[0]) then Ok(0) else FolderSize(kids[0]);
      match inside
      case Err(e) => Err(e)
      case Ok(inner) =>
        match ChildrenSize(kids[1..])
        case Err(e) => Err(e)
        case Ok(rest) => Ok(OwnSize(kids[0]) + inner + rest)
  }

  /** A symbolic link, which the enumerator lists but does not enter. */
  predicate IsLinkNode(c: Node)
  {
    c.meta.Some? && c.meta.value.isSymbolicLink == Some(true)
  }

  /** What one visited entry adds: its size when it is known not to be a
      directory (an unknown `isDirectory` adds nothing). */
  function OwnSize(c: Node): (r: nat)
    requires c.meta.Some?
    ensures c.meta.value.isDirectory != Some(false) ==> r == 0
  {
    if c.meta.value.isDirectory == Some(false) then c.meta.value.fileSize.GetOr(0) else 0
  }

  /** The enumeration order: every visible descendant, each before its own
      descendants; a link's target is not entered. */
  function Descendants(n: Node): seq<Node>
    decreases n, 1
  {
    match n.contents
    case Unlistable => []
    case Listed(kids) => DescendantsOf(kids)
  }

  function DescendantsOf(kids: seq<Node>): seq<Node>
    decreases kids, 0
  {
    if |kids| == 0 then []
    else if IsHiddenNode(kids[0]) then DescendantsOf(kids[1..])
    else [kids[0]] + Entered(kids[0]) + DescendantsOf(kids[1..])
  }

  /** What the enumerator visits below one visited entry. */
  function Entered(c: Node): seq<Node>
    decreases c, 2
  {
    if IsLinkNode(c) then [] else Descendants(c)
  }

  predicate AllReadable(s: seq<Node>)
  {
    forall i :: 0 <= i < |s| ==> s[i].meta.Some?
  }

  function SumOwn(s: seq<Node>): (r: nat)
    requires AllReadable(s)
  {
    if |s| == 0 then 0 else OwnSize(s[0]) + SumOwn(s[1..])
  }

  lemma {:induction false} SumOwnAppend(a: seq<Node>, b: seq<Node>)
    requires AllReadable(a) && AllReadable(b)
    ensures AllReadable(a + b) && SumOwn(a + b) == SumOwn(a) + SumOwn(b)
  {
    if |a| > 0 {
      assert (a + b)[1..] == a[1..] + b;
      SumOwnAppend(a[1..], b);
    } else {
      assert a + b == b;
    }
  }

  lemma AllReadableAppend(a: seq<Node>, b: seq<Node>)
    ensures AllReadable(a + b) <==> AllReadable(a) && AllReadable(b)
  {
    assert forall i :: 0 <= i < |a| ==> (a + b)[i] == a[i];
    assert forall i :: 0 <= i < |b| ==> (a + b)[|a| + i] == b[i];
  }

  /** The folder size succeeds exactly when every visited descendant is
      readable, and is then the sum of the non-directory sizes, never
      negative. */
  lemma {:induction false} FolderSizeIsSumOfDescendants(n: Node)
    ensures FolderSize(n).Ok? <==> AllReadable(Descendants(n))
    ensures FolderSize(n).Ok? ==> FolderSize(n).value == SumOwn(Descendants(n)) >= 0
    decreases n, 1
  {
    match n.contents
    case Unlistable =>
    case Listed(kids) => ChildrenSizeIsSum(kids);
  }

  lemma {:induction false} ChildrenSizeIsSum(kids: seq<Node>)
    ensures ChildrenSize(kids).Ok? <==> AllReadable(DescendantsOf(kids))
    ensures ChildrenSize(kids).Ok? ==> ChildrenSize(kids).value == SumOwn(DescendantsOf(kids))
    decreases kids, 0
  {
    if |kids| == 0 {
    } else if IsHiddenNode(kids[0]) {
      ChildrenSizeIsSum(kids[1..]);
    } else {
      var c := kids[0];
      if !IsLinkNode(c) {
        FolderSizeIsSumOfDescendants(c);
      }
      ChildrenSizeIsSum(kids[1..]);
      var inside := if IsLinkNode(c) then Ok(0) else FolderSize(c);
      var d := [c] + Entered(c) + DescendantsOf(kids[1..]);
      AllReadableAppend([c] + Entered(c), DescendantsOf(kids[1..]));
      AllReadableAppend([c], Entered(c));
      if AllReadable(d) {
        SumOwnAppend([c] + Entered(c), DescendantsOf(kids[1..]));
        SumOwnAppend([c], Entered(c));
      } else if c.meta.Some? && inside.Ok? {
        assert !AllReadable(DescendantsOf(kids[1..]));
      }
    }
  }

  // ---------------------------------------------------------------------
  // Path helpers

  /** `parentDirectory(of:)`: `None` exactly when deleting the last
      component changes nothing, which with the root taken as its own
      parent happens at the root alone. */
  function ParentDirectory(p: Path): (r: Option<Path>)
    ensures r.None? <==> p == Root
    ensures r.Some? ==> |r.value.comps| + 1 == |p.comps| && Appending(r.value, LastComponent(p)) == p
  {
    DeletingShortens(p);
    var parent := DeletingLastComponent(p);
    if parent != p then Some(parent) else None
  }

  /** The URL `createFolder(at:named:)` creates. */
  function CreateFolderTarget(dir: Path, name: string): (r: Path)
    ensures DeletingLastComponent(r) == dir && LastComponent(r) == name
  {
    AppendingThenDeleting(dir, name);
    Appending(dir, name)
  }

  /** The URL `renameItem(at:to:)` moves to: same folder, new last component.
      The item can lie inside the target only by being the target itself. */
  function RenameTarget(url: Path, newName: string): (r: Path)
    ensures DeletingLastComponent(r) == DeletingLastComponent(url) && LastComponent(r) == newName
    ensures IsUnder(url, r) ==> r == url
  {
    AppendingThenDeleting(DeletingLastComponent(url), newName);
    AppendingIsUnder(DeletingLastComponent(url), newName);
    Appending(DeletingLastComponent(url), newName)
  }

  /** `NSString.expandingTildeInPath` for the current user's home. */
  function ExpandTilde(s: string, home: string): (r: string)
    ensures s == "~" ==> r == home
    ensures HasPrefix(s, "~/") ==> r == home + s[1..]
    ensures !HasPrefix(s, "~") ==> r == s
  {
    if s == "~" then home
    else if HasPrefix(s, "~/") then home + s[1..]
    else s
  }

  /** The non-empty '/'-separated parts of a path string. */
  function Components(s: string): (r: seq<string>)
    ensures forall i :: 0 <= i < |r| ==> |r[i]| > 0 && '/' !in r[i]
  {
    SplitFrom(s, "")
  }

  function SplitFrom(s: string, acc: string): (r: seq<string>)
    requires '/' !in acc
    ensures forall i :: 0 <= i < |r| ==> |r[i]| > 0 && '/' !in r[i]
  {
    if |s| == 0 then (if |acc| > 0 then [acc] else [])
    else if s[0] == '/' then (if |acc| > 0 then [acc] else []) + SplitFrom(s[1..], "")
    else SplitFrom(s[1..], acc + [s[0]])
  }

  /** `URL(fileURLWithPath:)`: absolute strings stand alone, relative ones
      are taken inside the current directory `cwd`. */
  function PathFromString(s: string, cwd: Path): Path
  {
    if HasPrefix(s, "/") then Path(Components(s)) else Path(cwd.comps + Components(s))
  }

  /** `resolveURL(from:)`: the expanded path when it exists on `disk`. */
  function ResolveUrl(s: string, home: string, cwd: Path, disk: set<Path>): (r: Option<Path>)
    ensures r.Some? ==> r.value in disk
    ensures r.None? <==> PathFromString(ExpandTilde(s, home), cwd) !in disk
    ensures r.Some? ==> r.value == PathFromString(ExpandTilde(s, home), cwd)
  {
    var url := PathFromString(ExpandTilde(s, home), cwd);
    if url in disk then Some(url) else None
  }
}

=== FILE: paths.dfy ===
/** File URLs as sequences of path components. The root is the empty
    sequence; its last component is "/", and the model takes the root as
    its own parent: deleting the last component of the root leaves it
    unchanged. */
module Paths {

  datatype Path = Path(comps: seq<string>)

  const Root: Path := Path([])

  /** `URL.lastPathComponent`. */
  function LastComponent(p: Path): string
  {
    if |p.comps| == 0 then "/" else p.comps[|p.comps| - 1]
  }

  /** `URL.deletingLastPathComponent()`. */
  function DeletingLastComponent(p: Path): Path
  {
    if |p.comps| == 0 then p else Path(p.comps[..|p.comps| - 1])
  }

  /** `URL.appendingPathComponent(_:)` for a single component. */
  function Appending(p: Path, name: string): Path
  {
    Path(p.comps + [name])
  }

  lemma AppendingThenDeleting(p: Path, name: string)
    ensures DeletingLastComponent(Appending(p, name)) == p
    ensures LastComponent(Appending(p, name)) == name
  {
    assert (p.comps + [name])[..|p.comps|] == p.comps;
  }

  /** Deleting the last component shortens every path except the root. */
  lemma DeletingShortens(p: Path)
    ensures DeletingLastComponent(p) == p <==> p == Root
    ensures p != Root ==> Appending(DeletingLastComponent(p), LastComponent(p)) == p
  {
    if p != Root {
      assert |DeletingLastComponent(p).comps| < |p.comps|;
      assert p.comps[..|p.comps| - 1] + [p.comps[|p.comps| - 1]] == p.comps;
    }
  }

  /** `q` is `p` itself or lies inside the directory `p`. */
  predicate IsUnder(q: Path, p: Path)
  {
    |p.comps| <= |q.comps| && q.comps[..|p.comps|] == p.comps
  }

  lemma IsUnderTransitive(a: Path, b: Path, c: Path)
    requires IsUnder(a, b) && IsUnder(b, c)
    ensures IsUnder(a, c)
  {
    assert a.comps[..|c.comps|] == a.comps[..|b.comps|][..|c.comps|];
  }

  /** Two directories that both hold `q` lie one inside the other. */
  lemma UnderBothIsNested(q: Path, a: Path, b: Path)
    requires IsUnder(q, a) && IsUnder(q, b)
    ensures IsUnder(a, b) || IsUnder(b, a)
  {
    if |a.comps| <= |b.comps| {
      assert b.comps[..|a.comps|] == q.comps[..|b.comps|][..|a.comps|];
    } else {
      assert a.comps[..|b.comps|] == q.comps[..|a.comps|][..|b.comps|];
    }
  }

  lemma AppendingIsUnder(p: Path, name: string)
    ensures IsUnder(Appending(p, name), p) && |Appending(p, name).comps| == |p.comps| + 1
  {
    assert (p.comps + [name])[..|p.comps|] == p.comps;
  }

  /** The path `q` (inside `from`) would have after `from` is moved to `to`. */
  function Rebase(q: Path, from: Path, to: Path): (r: Path)
    requires IsUnder(q, from)
    ensures IsUnder(r, to)
    ensures q == from ==> r == to
  {
    assert (to.comps + q.comps[|from.comps|..])[..|to.comps|] == to.comps;
    Path(to.comps + q.comps[|from.comps|..])
  }

  // ---------------------------------------------------------------------
  // File-name extensions

  /** Position of the last '.' in `name`, if any. */
  function LastDot(name: string): (r: int)
    ensures -1 <= r < |name|
    ensures r >= 0 ==> name[r] == '.'
    ensures forall k :: r < k < |name| ==> name[k] != '.'
  {
    if |name| == 0 then -1
    else if name[|name| - 1] == '.' then |name| - 1
    else LastDot(name[..|name| - 1])
  }

  /** A name has an extension when its last '.' is neither its first nor its
      last character. */
  predicate HasExtension(name: string)
  {
    0 < LastDot(name) < |name| - 1
  }

  /** `URL.pathExtension` of a name: the text after the last '.', or "". */
  function PathExtension(name: string): string
  {
    if HasExtension(name) then name[LastDot(name) + 1..] else ""
  }

  /** The last component of `URL.deletingPathExtension()`. */
  function DeletingPathExtension(name: string): string
  {
    if HasExtension(name) then name[..LastDot(name)] else name
  }

  /** Splitting a name into base and extension loses nothing. */
  lemma ExtensionRoundTrip(name: string)
    ensures PathExtension(name) == "" ==> DeletingPathExtension(name) == name
    ensures PathExtension(name) != "" ==>
      name == DeletingPathExtension(name) + "." + PathExtension(name)
    ensures forall k :: 0 <= k < |PathExtension(name)| ==> PathExtension(name)[k] != '.'
  {
    if HasExtension(name) {
      var d := LastDot(name);
      assert name == name[..d] + [name[d]] + name[d + 1..];
    }
  }
}

=== FILE: search.dfy ===
/** Recursive file-name search (`SearchViewModel`): a debounced request
    that, when it fires, walks the folder tree down to a depth limit in
    listing order, keeps the entries whose names contain the query without
    regard to case, and publishes them in Finder order; plus the selection
    over the results. Cancellation is an oracle: a budget of cancellation
    checks that still see the task running. */
module SearchViewModel {
  import opened Wrappers
  import opened Text
  import opened Paths
  import opened Items
  import opened Sorting
  import opened Listing
  import opened Selections

  // ---------------------------------------------------------------------
  // Locating folders in the snapshot

  /** The first child called `name`. */
  function ChildNamed(kids: seq<Node>, name: string): (r: Option<Node>)
    ensures r.Some? ==> r.value in kids && r.value.name == name
    ensures r.None? <==> forall k :: 0 <= k < |kids| ==> kids[k].name != name
  {
    if |kids| == 0 then None
    else if kids[0].name == name then Some(kids[0])
    else
      var r := ChildNamed(kids[1..], name);
      assert forall k :: 1 <= k < |kids| ==> kids[k] == kids[1..][k - 1];
      r
  }

  function ChildrenOf(n: Node): seq<Node>
  {
    if n.contents.Listed? then n.contents.children else []
  }

  /** The node found by following `comps` down from `n`. */
  function Descend(n: Node, comps: seq<string>): (r: Option<Node>)
    ensures comps == [] ==> r == Some(n)
    decreases |comps|
  {
    if |comps| == 0 then Some(n)
    else match ChildNamed(ChildrenOf(n), comps[0])
      case None => None
      case Some(c) => Descend(c, comps[1..])
  }

  /** The node at `p` in the tree whose root is "/". */
  function NodeAt(root: Node, p: Path): Option<Node>
  {
    Descend(root, p.comps)
  }

  // ---------------------------------------------------------------------
  // Cancellation checks

  /** `Task.isCancelled` as seen by the next check: `Some(0)` once the
      cancellation is visible; `None` when it never comes. */
  predicate Cancelled(budget: Option<nat>)
  {
    budget == Some(0)
  }

  /** A check that saw the task still running. */
  function Spend(budget: Option<nat>): (r: Option<nat>)
    requires !Cancelled(budget)
    ensures budget.None? <==> r.None?
    ensures budget.Some? ==> r.value + 1 == budget.value
  {
    if budget.Some? then Some(budget.value - 1) else None
  }

  /** What a walk appended and the budget it left. */
  datatype Scan = Scan(found: seq<Entry>, budget: Option<nat>)

  /** Name test of the search: `localizedCaseInsensitiveContains`. */
  predicate Matches(e: Entry, query: string)
  {
    CaseInsensitiveContains(e.name, query)
  }

  // ---------------------------------------------------------------------
  // The walk as written

  /** `searchRecursively(in:currentDepth:maxDepth:results:)` on the folder
      node `n` found at `dir`. */
  function SearchIn(n: Node, dir: Path, depth: nat, maxDepth: int, query: string, now: int, budget: Option<nat>): (r: Scan)
    ensures forall e :: e in r.found ==> Matches(e, query)
    decreases n, 1, 0
  {
    if Cancelled(budget) then Scan([], budget)
    else
      var b := Spend(budget);
      if depth > maxDepth then Scan([], b)
      else match ContentsOfDirectory(n, dir, false, now)
        case Err(_) => Scan([], b)
        case Ok(items) => SearchItems(n.contents.children, items, depth, maxDepth, query, now, b)
  }

  /** The loop over the listing `items` of a folder whose children are
      `kids`; a folder entry is searched at the next depth. */
  function SearchItems(kids: seq<Node>, items: seq<Entry>, depth: nat, maxDepth: int, query: string, now: int, budget: Option<nat>): (r: Scan)
    ensures forall e :: e in r.found ==> Matches(e, query)
    decreases kids, 0, |items|
  {
    if |items| == 0 || Cancelled(budget) then Scan([], budget)
    else
      var b := Spend(budget);
      var e := items[0];
      var here := if Matches(e, query) then [e] else [];
      var sub :=
        if e.fileType != Folder then Scan([], b)
        else match ChildNamed(kids, e.name)
          case None => Scan([], b)
          case Some(c) => SearchIn(c, e.path, depth + 1, maxDepth, query, now, b);
      var rest := SearchItems(kids, items[1..], depth, maxDepth, query, now, sub.budget);
      Scan(here + sub.found + rest.found, rest.budget)
  }

  // ---------------------------------------------------------------------
  // Reference: every entry the walk visits, in order

  function VisitedIn(n: Node, dir: Path, depth: nat, maxDepth: int, now: int): (r: seq<Entry>)
    ensures forall e :: e in r ==> IsUnder(e.path, dir) && |e.path.comps| + depth <= |dir.comps| + maxDepth + 1
    decreases n, 1, 0
  {
    if depth > maxDepth then []
    else match ContentsOfDirectory(n, dir, false, now)
      case Err(_) => []
      case Ok(items) =>
        ListingPaths(n, dir, now);
        VisitedItems(n.contents.children, items, dir, depth, maxDepth, now)
  }

  function VisitedItems(kids: seq<Node>, items: seq<Entry>, dir: Path, depth: nat, maxDepth: int, now: int): (r: seq<Entry>)
    requires depth <= maxDepth
    requires forall e :: e in items ==> e.path == Appending(dir, e.name)
    ensures forall e :: e in r ==> IsUnder(e.path, dir) && |e.path.comps| + depth <= |dir.comps| + maxDepth + 1
    decreases kids, 0, |items|
  {
    if |items| == 0 then []
    else
      var e := items[0];
      AppendingIsUnder(dir, e.name);
      var sub :=
        if e.fileType != Folder then []
        else match ChildNamed(kids, e.name)
          case None => []
          case Some(c) => VisitedIn(c, e.path, depth + 1, maxDepth, now);
      assert forall x :: x in sub ==> IsUnder(x.path, dir) by {
        forall x | x in sub ensures IsUnder(x.path, dir) {
          IsUnderTransitive(x.path, e.path, dir);
        }
      }
      [e] + sub + VisitedItems(kids, items[1..], dir, depth, maxDepth, now)
  }

  /** Every listed entry is the child of the listed folder with its name. */
  lemma ListingPaths(n: Node, dir: Path, now: int)
    requires ContentsOfDirectory(n, dir, false, now).Ok?
    ensures forall e :: e in ContentsOfDirectory(n, dir, false, now).value ==> e.path == Appending(dir, e.name)
  {
    var r := ContentsOfDirectory(n, dir, false, now).value;
    var col := Collect(n.contents.children, dir, false, now);
    forall e | e in r ensures e.path == Appending(dir, e.name) {
      assert e in multiset(r);
      assert e in col;
      var k :| 0 <= k < |n.contents.children| && Kept(n.contents.children[k], false)
        && EntryOf(n.contents.children[k], dir, now) == Some(e);
      AppendingThenDeleting(dir, n.contents.children[k].name);
    }
  }

  function Filter(s: seq<Entry>, query: string): (r: seq<Entry>)
    ensures forall e :: e in r <==> e in s && Matches(e, query)
  {
    if |s| == 0 then []
    else (if Matches(s[0], query) then [s[0]] else []) + Filter(s[1..], query)
  }

  lemma FilterAppend(a: seq<Entry>, b: seq<Entry>, query: string)
    ensures Filter(a + b, query) == Filter(a, query) + Filter(b, query)
  {
    if |a| > 0 {
      assert (a + b)[1..] == a[1..] + b;
      FilterAppend(a[1..], b, query);
    } else {
      assert a + b == b;
    }
  }

  /** Left alone, the walk returns exactly the matching visited entries, in
      visiting order, and never runs out of budget. */
  lemma {:induction false} UncancelledSearchIsFilter(n: Node, dir: Path, depth: nat, maxDepth: int, query: string, now: int)
    ensures SearchIn(n, dir, depth, maxDepth, query, now, None) == Scan(Filter(VisitedIn(n, dir, depth, maxDepth, now), query), None)
    decreases n, 1, 0
  {
    if depth <= maxDepth {
      match ContentsOfDirectory(n, dir, false, now)
      case Err(_) =>
      case Ok(items) =>
        ListingPaths(n, dir, now);
        UncancelledItemsIsFilter(n.contents.children, items, dir, depth, maxDepth, query, now);
    }
  }

  lemma {:induction false} UncancelledItemsIsFilter(kids: seq<Node>, items: seq<Entry>, dir: Path, depth: nat, maxDepth: int, query: string, now: int)
    requires depth <= maxDepth
    requires forall e :: e in items ==> e.path == Appending(dir, e.name)
    ensures SearchItems(kids, items, depth, maxDepth, query, now, None) == Scan(Filter(VisitedItems(kids, items, dir, depth, maxDepth, now), query), None)
    decreases kids, 0, |items|
  {
    if |items| > 0 {
      var e := items[0];
      if e.fileType == Folder {
        match ChildNamed(kids, e.name)
        case None =>
        case Some(c) => UncancelledSearchIsFilter(c, e.path, depth + 1, maxDepth, query, now);
      }
      UncancelledItemsIsFilter(kids, items[1..], dir, depth, maxDepth, query, now);
      var sub :=
        if e.fileType != Folder then []
        else match ChildNamed(kids, e.name)
          case None => []
          case Some(c) => VisitedIn(c, e.path, depth + 1, maxDepth, now);
      var tail := VisitedItems(kids, items[1..], dir, depth, maxDepth, now);
      FilterAppend([e], sub, query);
      FilterAppend([e] + sub, tail, query);
    }
  }

  /** Once the cancellation is visible the walk appends nothing more. */
  lemma CancelledItemsFindNothing(kids: seq<Node>, items: seq<Entry>, depth: nat, maxDepth: int, query: string, now: int)
    ensures SearchItems(kids, items, depth, maxDepth, query, now, Some(0)) == Scan([], Some(0))
  {
  }

  /** A cancelled walk returns a prefix of what the uncancelled walk
      returns, and all of it when the cancellation was never observed. */
  lemma {:induction false} CancelledSearchIsPrefix(n: Node, dir: Path, depth: nat, maxDepth: int, query: string, now: int, budget: Option<nat>)
    ensures var r := SearchIn(n, dir, depth, maxDepth, query, now, budget);
      var full := SearchIn(n, dir, depth, maxDepth, query, now, None);
      && r.found <= full.found
      && (!Cancelled(r.budget) ==> r.found == full.found)
    decreases n, 1, 0
  {
    if !Cancelled(budget) && depth <= maxDepth {
      match ContentsOfDirectory(n, dir, false, now)
      case Err(_) =>
      case Ok(items) =>
        CancelledItemsArePrefix(n.contents.children, items, depth, maxDepth, query, now, Spend(budget));
    }
  }

  lemma {:induction false} CancelledItemsArePrefix(kids: seq<Node>, items: seq<Entry>, depth: nat, maxDepth: int, query: string, now: int, budget: Option<nat>)
    ensures var r := SearchItems(kids, items, depth, maxDepth, query, now, budget);
      var full := SearchItems(kids, items, depth, maxDepth, query, now, None);
      && r.found <= full.found
      && (!Cancelled(r.budget) ==> r.found == full.found)
    decreases kids, 0, |items|
  {
    if |items| > 0 && !Cancelled(budget) {
      var e := items[0];
      var b := Spend(budget);
      var sub :=
        if e.fileType != Folder then Scan([], b)
        else match ChildNamed(kids, e.name)
          case None => Scan([], b)
          case Some(c) => SearchIn(c, e.path, depth + 1, maxDepth, query, now, b);
      var subFull :=
        if e.fileType != Folder then Scan([], None)
        else match ChildNamed(kids, e.name)
          case None => Scan([], None)
          case Some(c) => SearchIn(c, e.path, depth + 1, maxDepth, query, now, None);
      if e.fileType == Folder {
        match ChildNamed(kids, e.name)
        case None =>
        case Some(c) =>
          CancelledSearchIsPrefix(c, e.path, depth + 1, maxDepth, query, now, b);
          UncancelledNeverCancels(c, e.path, depth + 1, maxDepth, query, now);
      }
      var here := if Matches(e, query) then [e] else [];
      var rest := SearchItems(kids, items[1..], depth, maxDepth, query, now, sub.budget);
      var restFull := SearchItems(kids, items[1..], depth, maxDepth, query, now, None);
      assert subFull.budget == None;
      assert SearchItems(kids, items, depth, maxDepth, query, now, budget) == Scan(here + sub.found + rest.found, rest.budget);
      assert SearchItems(kids, items, depth, maxDepth, query, now, None) == Scan(here + subFull.found + restFull.found, restFull.budget);
      if Cancelled(sub.budget) {
        CancelledItemsFindNothing(kids, items[1..], depth, maxDepth, query, now);
      } else {
        CancelledItemsArePrefix(kids, items[1..], depth, maxDepth, query, now, sub.budget);
      }
      PrefixJoin(here, sub.found, subFull.found, rest.found, restFull.found);
    }
  }

  /** Extending a prefix: the middle part may stop short only when nothing
      follows it. */
  lemma PrefixJoin<T>(h: seq<T>, s: seq<T>, sf: seq<T>, r: seq<T>, rf: seq<T>)
    requires s <= sf && r <= rf && (r != [] ==> s == sf)
    ensures h + s + r <= h + sf + rf
  {
    if r == [] {
      assert h + s + r == h + s;
      assert (h + sf + rf)[..|h + s|] == h + s;
    }
  }

  lemma UncancelledNeverCancels(n: Node, dir: Path, depth: nat, maxDepth: int, query: string, now: int)
    ensures SearchIn(n, dir, depth, maxDepth, query, now, None).budget == None
  {
    UncancelledSearchIsFilter(n, dir, depth, maxDepth, query, now);
  }

  // ---------------------------------------------------------------------
  // The view model

  /** A search waiting for its debounce timer. */
  datatype Request = Request(folder: Path, depth: int)

  datatype SearchState = SearchState(
    query: string,
    results: seq<Entry>,
    isSearching: bool,
    isSearchActive: bool,
    selection: Selection,
    pending: Option<Request>)

  const Initial: SearchState := SearchState("", [], false, false, NoSelection, None)

  /** The default depth of `search(in:depth:)`. */
  const DefaultDepth: int := 2

  /** `search(in:depth:)`: cancels what was pending; an empty query clears
      the results at once, any other query schedules a walk. */
  function Search(st: SearchState, folder: Path, depth: int): (r: SearchState)
    ensures st.query == "" ==> r == st.(results := [], isSearching := false, pending := None)
    ensures st.query != "" ==> r == st.(isSearching := true, pending := Some(Request(folder, depth)))
  {
    if st.query == "" then st.(results := [], isSearching := false, pending := None)
    else st.(isSearching := true, pending := Some(Request(folder, depth)))
  }

  /** `performSearch(in:depth:)` on the snapshot `root` of "/": the walk's
      findings in Finder order. A folder that is not in the snapshot lists
      nothing. */
  function PerformSearch(root: Node, req: Request, query: string, now: int, budget: Option<nat>): (r: seq<Entry>)
    ensures forall i, j :: 0 <= i < j < |r| ==> !Less(r[j], r[i])
    ensures forall e :: e in r ==> Matches(e, query)
    ensures NodeAt(root, req.folder).None? ==> r == []
    ensures NodeAt(root, req.folder).Some? ==>
      multiset(r) == multiset(SearchIn(NodeAt(root, req.folder).value, req.folder, 0, req.depth, query, now, budget).found)
  {
    match NodeAt(root, req.folder)
    case None => []
    case Some(n) =>
      var found := SearchIn(n, req.folder, 0, req.depth, query, now, budget).found;
      var sorted := SortBy(found, FinderKey);
      assert forall e :: e in sorted ==> e in found by {
        forall e | e in sorted ensures e in found {
          assert e in multiset(sorted);
        }
      }
      assert forall i, j :: 0 <= i < j < |sorted| ==> !Less(sorted[j], sorted[i]) by {
        forall i, j | 0 <= i < j < |sorted| ensures !Less(sorted[j], sorted[i]) {
          LessIsFinderKeyOrder(sorted[j], sorted[i]);
        }
      }
      sorted
  }

  /** The debounce timer fires and the walk runs to its end; the findings
      are published even when the walk saw a cancellation. */
  function Fire(st: SearchState, root: Node, now: int, budget: Option<nat>): (r: SearchState)
    ensures st.pending.None? ==> r == st
    ensures st.pending.Some? ==>
      && r == st.(results := r.results, isSearching := false, pending := None)
      && forall e :: e in r.results ==> Matches(e, st.query)
  {
    match st.pending
    case None => st
    case Some(req) => st.(results := PerformSearch(root, req, st.query, now, budget), isSearching := false, pending := None)
  }

  /** Published results are the matching entries within the depth limit, in
      Finder order: a permutation of the uncancelled walk's findings. */
  lemma FiredResultsAreVisitedMatches(st: SearchState, root: Node, now: int, n: Node)
    requires st.pending.Some? && NodeAt(root, st.pending.value.folder) == Some(n)
    ensures var req := st.pending.value;
      multiset(Fire(st, root, now, None).results)
        == multiset(Filter(VisitedIn(n, req.folder, 0, req.depth, now), st.query))
  {
    var req := st.pending.value;
    UncancelledSearchIsFilter(n, req.folder, 0, req.depth, st.query, now);
  }

  /** `clearSearch()`. */
  function ClearSearch(st: SearchState): (r: SearchState)
    ensures r.query == "" && r.results == [] && !r.isSearching && !r.isSearchActive
    ensures r.selection == NoSelection && r.pending.None?
  {
    Initial
  }

  /** After a clear, a new search schedules nothing and shows nothing. */
  lemma SearchAfterClearIsIdle(st: SearchState, folder: Path, depth: int)
    ensures var r := Search(ClearSearch(st), folder, depth);
      r.pending.None? && r.results == [] && !r.isSearching
  {
  }

  function ActivateSearch(st: SearchState): (r: SearchState)
    ensures r == st.(isSearchActive := true)
  {
    st.(isSearchActive := true)
  }

  /** `deactivateSearch()` is `clearSearch()`. */
  function DeactivateSearch(st: SearchState): (r: SearchState)
    ensures r == ClearSearch(st)
    ensures !r.isSearchActive && r.selection.selected == {}
  {
    ClearSearch(st)
  }

  function ToggleResultSelection(st: SearchState, item: Entry): (r: SearchState)
    ensures item.id in r.selection.selected <==> item.id !in st.selection.selected
    ensures forall x :: x != item.id ==> (x in r.selection.selected <==> x in st.selection.selected)
    ensures r.selection.anchor == Some(item.id) && r.results == st.results
  {
    st.(selection := Toggle(st.selection, item.id))
  }

  /** Unlike the browser's, this also forgets the anchor. */
  function ClearResultSelection(st: SearchState): (r: SearchState)
    ensures r.selection == NoSelection && r.results == st.results
  {
    st.(selection := NoSelection)
  }

  function SelectResultRange(st: SearchState, start: Entry, end: Entry): (r: SearchState)
    ensures r.selection == SelectRange(st.selection, st.results, start, end)
    ensures st.selection.selected <= r.selection.selected
  {
    st.(selection := SelectRange(st.selection, st.results, start, end))
  }
}

=== FILE: selection.dfy ===
/** Selection over an ordered list of entries: a set of entry ids plus the
    anchor used for range selection, with toggling, range insertion and
    arrow-key movement over a list or a grid. Shared by the browser window
    and the search results. */
module Selections {
  import opened Wrappers
  import opened Items

  datatype Selection = Selection(selected: set<nat>, anchor: Option<nat>)

  const NoSelection: Selection := Selection({}, None)

  /** `items.firstIndex(where: { $0.id == id })`. */
  function FirstIndexOf(items: seq<Entry>, id: nat): (r: Option<nat>)
    ensures r.Some? ==> r.value < |items| && items[r.value].id == id
    ensures r.Some? ==> forall k :: 0 <= k < r.value ==> items[k].id != id
    ensures r.None? <==> forall k :: 0 <= k < |items| ==> items[k].id != id
  {
    if |items| == 0 then None
    else if items[0].id == id then Some(0)
    else match FirstIndexOf(items[1..], id)
      case None => None
      case Some(i) => Some(i + 1)
  }

  /** `toggleSelection(for:)`: flips the membership of exactly one id and
      makes it the anchor. */
  function Toggle(s: Selection, id: nat): (r: Selection)
    ensures id in r.selected <==> id !in s.selected
    ensures forall x :: x != id ==> (x in r.selected <==> x in s.selected)
    ensures r.anchor == Some(id)
  {
    if id in s.selected then Selection(s.selected - {id}, Some(id))
    else Selection(s.selected + {id}, Some(id))
  }

  /** `isSelected(_:)`, the same test in the browser window and in the
      search results. */
  function IsSelected(s: Selection, item: Entry): (r: bool)
    ensures r <==> item.id in s.selected
  {
    item.id in s.selected
  }

  /** Toggling an item flips whether it is selected and leaves every other
      id's answer alone. */
  lemma ToggleFlipsIsSelected(s: Selection, item: Entry, other: Entry)
    ensures IsSelected(Toggle(s, item.id), item) <==> !IsSelected(s, item)
    ensures other.id != item.id ==> (IsSelected(Toggle(s, item.id), other) <==> IsSelected(s, other))
  {
  }

  lemma ToggleTwiceRestoresSet(s: Selection, id: nat)
    ensures Toggle(Toggle(s, id), id).selected == s.selected
  {
  }

  /** `selectAll()`: the ids of all listed entries. */
  function AllIds(items: seq<Entry>): (r: set<nat>)
    ensures forall x :: x in r <==> exists k :: 0 <= k < |items| && items[k].id == x
  {
    set k | 0 <= k < |items| :: items[k].id
  }

  /** Inserts the ids at positions `lo..hi` (inclusive) one by one. */
  function InsertSpan(sel: set<nat>, items: seq<Entry>, lo: int, hi: int): (r: set<nat>)
    requires 0 <= lo && hi < |items|
    ensures forall x :: x in r <==> x in sel || exists k :: lo <= k <= hi && items[k].id == x
    decreases hi - lo + 1
  {
    if lo > hi then sel else InsertSpan(sel + {items[lo].id}, items, lo + 1, hi)
  }

  /** `selectRange(from:to:)`: a no-op unless both entries are listed;
      otherwise every id between their positions, in either order, joins the
      selection and the end entry becomes the anchor. */
  function SelectRange(s: Selection, items: seq<Entry>, start: Entry, end: Entry): (r: Selection)
    ensures FirstIndexOf(items, start.id).None? || FirstIndexOf(items, end.id).None? ==> r == s
    ensures FirstIndexOf(items, start.id).Some? && FirstIndexOf(items, end.id).Some? ==>
      var i, j := FirstIndexOf(items, start.id).value, FirstIndexOf(items, end.id).value;
      && r.anchor == Some(end.id)
      && s.selected <= r.selected
      && start.id in r.selected && end.id in r.selected
      && forall x :: x in r.selected <==>
           x in s.selected || exists k :: (i <= k <= j || j <= k <= i) && items[k].id == x
  {
    match (FirstIndexOf(items, start.id), FirstIndexOf(items, end.id))
    case (Some(i), Some(j)) =>
      var lo, hi := if i <= j then i else j, if i <= j then j else i;
      Selection(InsertSpan(s.selected, items, lo, hi), Some(end.id))
    case _ => s
  }

  // ---------------------------------------------------------------------
  // Arrow-key movement

  /** `first` models `selectedItems.first`: some member, or `None` when the
      set is empty (which member is unspecified by the set). */
  predicate FirstOf(sel: set<nat>, first: Option<nat>)
  {
    (first.None? <==> sel == {}) && (first.Some? ==> first.value in sel)
  }

  /** The index the first selected id is found at, if it is listed. */
  function Found(items: seq<Entry>, first: Option<nat>): Option<nat>
  {
    if first.Some? then FirstIndexOf(items, first.value) else None
  }

  /** `selectNextItem` (step 1) and `selectItemBelow(columnsPerRow:)`
      (step = columns): move `step` positions forward, stopping at the last
      entry; with no listed selection, add the first entry. */
  function MoveForward(items: seq<Entry>, sel: set<nat>, first: Option<nat>, step: nat): (r: set<nat>)
    requires FirstOf(sel, first)
    ensures |items| == 0 ==> r == sel
    ensures |items| > 0 && Found(items, first).None? ==> r == sel + {items[0].id}
    ensures |items| > 0 && Found(items, first).Some? ==>
      var i := Found(items, first).value;
      exists j :: i <= j < |items| && j <= i + step && (j == i + step || j == |items| - 1)
        && r == {items[j].id}
  {
    if |items| == 0 then sel
    else match Found(items, first)
      case None => sel + {items[0].id}
      case Some(i) =>
        var j := if i + step < |items| - 1 then i + step else |items| - 1;
        {items[j].id}
  }

  /** `selectPreviousItem` (step 1) and `selectItemAbove(columnsPerRow:)`:
      move `step` positions back, stopping at the first entry. */
  function MoveBackward(items: seq<Entry>, sel: set<nat>, first: Option<nat>, step: nat): (r: set<nat>)
    requires FirstOf(sel, first)
    ensures |items| == 0 ==> r == sel
    ensures |items| > 0 && Found(items, first).None? ==> r == sel + {items[0].id}
    ensures |items| > 0 && Found(items, first).Some? ==>
      var i := Found(items, first).value;
      exists j :: 0 <= j <= i && i - step <= j && (j == i - step || j == 0)
        && r == {items[j].id}
  {
    if |items| == 0 then sel
    else match Found(items, first)
      case None => sel + {items[0].id}
      case Some(i) =>
        var j := if i - step > 0 then i - step else 0;
        {items[j].id}
  }
}

=== FILE: sidebar.dfy ===
/** The sidebar (`SidebarManager`): favourites kept in display order with an
    `order` number, the most-recent-locations list, and the colour tags
    attached to paths. Persistence is not part of this model. */
module Sidebar {
  import opened Wrappers
  import opened Paths

  /** `id` stands for the UUID a new favourite receives. */
  datatype Favorite = Favorite(id: nat, path: Path, name: string, icon: string, order: int)

  datatype TagColor = Red | Orange | Yellow | Green | Teal | Blue | Purple | Pink | Gray

  datatype ColorTag = ColorTag(color: TagColor, name: string)

  datatype SidebarState = SidebarState(favorites: seq<Favorite>, recents: seq<Path>, colorTags: map<Path, ColorTag>)

  const MaxRecentLocations: nat := 10
  const DefaultFavoriteIcon: string := "folder.fill"

  /** The raw value of each tag colour: its hex code. */
  function HexCode(c: TagColor): (r: string)
    ensures |r| == 7 && r[0] == '#'
  {
    match c
    case Red => "#FF3B30"
    case Orange => "#FF9500"
    case Yellow => "#FFCC00"
    case Green => "#34C759"
    case Teal => "#009880"
    case Blue => "#007AFF"
    case Purple => "#AF52DE"
    case Pink => "#FF2D55"
    case Gray => "#8E8E93"
  }

  /** Distinct colours have distinct codes, so the raw value identifies the case. */
  lemma HexCodeInjective(a: TagColor, b: TagColor)
    requires HexCode(a) == HexCode(b)
    ensures a == b
  {
    var x, y := HexCode(a), HexCode(b);
    assert x[1] == y[1] && x[2] == y[2] && x[3] == y[3] && x[4] == y[4];
  }

  function DisplayName(c: TagColor): string
  {
    match c
    case Red => "Red"
    case Orange => "Orange"
    case Yellow => "Yellow"
    case Green => "Green"
    case Teal => "Teal"
    case Blue => "Blue"
    case Purple => "Purple"
    case Pink => "Pink"
    case Gray => "Gray"
  }

  // ---------------------------------------------------------------------
  // Generic list moves

  /** `s` without position `i`. */
  function RemoveAt<T>(s: seq<T>, i: nat): (r: seq<T>)
    requires i < |s|
    ensures |r| == |s| - 1
    ensures forall k :: 0 <= k < i ==> r[k] == s[k]
    ensures forall k :: i <= k < |r| ==> r[k] == s[k + 1]
  {
    s[..i] + s[i + 1..]
  }

  /** `remove(at: from)` followed by `insert(_, at: to)`. */
  function MoveElement<T>(s: seq<T>, from: nat, to: nat): (r: seq<T>)
    requires from < |s| && to < |s|
    ensures |r| == |s|
    ensures r[to] == s[from]
    ensures RemoveAt(r, to) == RemoveAt(s, from)
    ensures multiset(r) == multiset(s)
  {
    var item := s[from];
    var rest := RemoveAt(s, from);
    var r := rest[..to] + [item] + rest[to..];
    assert RemoveAt(r, to) == rest;
    assert s == s[..from] + [item] + s[from + 1..];
    assert multiset(s) == multiset(rest) + multiset{item};
    r
  }

  /** Moving an element back to where it came from undoes the move. */
  lemma MoveElementUndone<T>(s: seq<T>, from: nat, to: nat)
    requires from < |s| && to < |s|
    ensures MoveElement(MoveElement(s, from, to), to, from) == s
  {
    var m := MoveElement(s, from, to);
    var back := MoveElement(m, to, from);
    assert RemoveAt(back, from) == RemoveAt(s, from);
    forall k | 0 <= k < |s| ensures back[k] == s[k] {
      if k < from {
        assert back[k] == RemoveAt(back, from)[k];
      } else if k > from {
        assert back[k] == RemoveAt(back, from)[k - 1];
      }
    }
  }

  // ---------------------------------------------------------------------
  // Favourites

  /** `addFavorite(_:name:icon:)`: one new favourite at the end, numbered
      with the previous count and named after the path's last component
      unless a name is given. */
  function AddFavorite(sb: SidebarState, path: Path, name: Option<string>, icon: string, id: nat): (r: SidebarState)
    ensures |r.favorites| == |sb.favorites| + 1 && r.favorites[..|sb.favorites|] == sb.favorites
    ensures var f := r.favorites[|sb.favorites|];
      && f.id == id && f.path == path && f.icon == icon && f.order == |sb.favorites|
      && (name.Some? ==> f.name == name.value)
      && (name.None? ==> f.name == LastComponent(path))
    ensures r.recents == sb.recents && r.colorTags == sb.colorTags
  {
    var f := Favorite(id, path, name.GetOr(LastComponent(path)), icon, |sb.favorites|);
    sb.(favorites := sb.favorites + [f])
  }

  /** `r` is `s` with some elements dropped, the rest kept in order. */
  predicate Subsequence<T(==)>(r: seq<T>, s: seq<T>)
    decreases |s|
  {
    if |r| == 0 then true
    else if |s| == 0 then false
    else if r[0] == s[0] then Subsequence(r[1..], s[1..])
    else Subsequence(r, s[1..])
  }

  /** A subsequence of the tail is a subsequence of the whole. */
  lemma {:induction false} SubsequenceOfTail<T>(r: seq<T>, s: seq<T>)
    requires |s| > 0 && Subsequence(r, s[1..])
    ensures Subsequence(r, s)
    decreases |s|, |r|
  {
    if |r| > 0 && r[0] == s[0] {
      SubsequenceDropsHead(r, s[1..]);
    }
  }

  /** Dropping the first element of a subsequence keeps it one. */
  lemma {:induction false} SubsequenceDropsHead<T>(r: seq<T>, s: seq<T>)
    requires |r| > 0 && Subsequence(r, s)
    ensures Subsequence(r[1..], s)
    decreases |s|, |r|
  {
    if r[0] == s[0] {
      SubsequenceOfTail(r[1..], s);
    } else {
      SubsequenceDropsHead(r, s[1..]);
      SubsequenceOfTail(r[1..], s);
    }
  }

  /** `favorites.removeAll { $0.id == id }`. */
  function WithoutId(s: seq<Favorite>, id: nat): (r: seq<Favorite>)
    ensures |r| <= |s|
    ensures forall f :: f in r <==> f in s && f.id != id
    ensures Subsequence(r, s)
    ensures (forall k :: 0 <= k < |s| ==> s[k].id != id) ==> r == s
  {
    if |s| == 0 then []
    else
      var rest := WithoutId(s[1..], id);
      if s[0].id == id then
        SubsequenceOfTail(rest, s);
        rest
      else
        assert ([s[0]] + rest)[1..] == rest;
        [s[0]] + rest
  }

  lemma {:induction false} WithoutIdDistributes(a: seq<Favorite>, b: seq<Favorite>, id: nat)
    ensures WithoutId(a + b, id) == WithoutId(a, id) + WithoutId(b, id)
  {
    if |a| == 0 {
      assert a + b == b;
    } else {
      assert (a + b)[1..] == a[1..] + b;
      WithoutIdDistributes(a[1..], b, id);
    }
  }

  /** `removeFavorite(id:)`. */
  function RemoveFavorite(sb: SidebarState, id: nat): (r: SidebarState)
    ensures forall f :: f in r.favorites <==> f in sb.favorites && f.id != id
    ensures Subsequence(r.favorites, sb.favorites)
    ensures r.favorites == WithoutId(sb.favorites, id)
    ensures r.recents == sb.recents && r.colorTags == sb.colorTags
  {
    sb.(favorites := WithoutId(sb.favorites, id))
  }

  /** Removing a favourite just added under a fresh id restores the list. */
  lemma RemoveUndoesAdd(sb: SidebarState, path: Path, name: Option<string>, icon: string, id: nat)
    requires forall k :: 0 <= k < |sb.favorites| ==> sb.favorites[k].id != id
    ensures RemoveFavorite(AddFavorite(sb, path, name, icon, id), id) == sb
  {
    var added := AddFavorite(sb, path, name, icon, id);
    assert added.favorites == sb.favorites + [added.favorites[|sb.favorites|]];
    WithoutIdDistributes(sb.favorites, [added.favorites[|sb.favorites|]], id);
  }

  /** Rebuilds every favourite with `order` equal to its position. */
  function Renumber(s: seq<Favorite>): (r: seq<Favorite>)
    ensures |r| == |s|
    ensures forall i :: 0 <= i < |s| ==> r[i] == s[i].(order := i)
  {
    seq(|s|, i requires 0 <= i < |s| => s[i].(order := i))
  }

  /** The guard shared by both reorder operations. */
  predicate CanReorder(n: int, from: int, to: int)
  {
    from != to && 0 <= from < n && 0 <= to < n
  }

  /** `reorderFavorites(from:to:)`. */
  function ReorderFavorites(sb: SidebarState, from: int, to: int): (r: SidebarState)
    ensures !CanReorder(|sb.favorites|, from, to) ==> r == sb
    ensures CanReorder(|sb.favorites|, from, to) ==>
      && |r.favorites| == |sb.favorites|
      && (forall i :: 0 <= i < |r.favorites| ==> r.favorites[i].order == i)
      && r.favorites[to] == sb.favorites[from].(order := to)
      && (forall i :: 0 <= i < |r.favorites| ==>
            r.favorites[i] == MoveElement(sb.favorites, from, to)[i].(order := i))
    ensures r.recents == sb.recents && r.colorTags == sb.colorTags
  {
    if !CanReorder(|sb.favorites|, from, to) then sb
    else sb.(favorites := Renumber(MoveElement(sb.favorites, from, to)))
  }

  function Ids(s: seq<Favorite>): (r: seq<nat>)
    ensures |r| == |s| && forall i :: 0 <= i < |s| ==> r[i] == s[i].id
  {
    seq(|s|, i requires 0 <= i < |s| => s[i].id)
  }

  /** A reorder keeps the same favourites: the ids are permuted, never
      lost or duplicated. */
  lemma ReorderPermutesIds(sb: SidebarState, from: int, to: int)
    requires CanReorder(|sb.favorites|, from, to)
    ensures multiset(Ids(ReorderFavorites(sb, from, to).favorites)) == multiset(Ids(sb.favorites))
  {
    var moved := MoveElement(sb.favorites, from, to);
    assert Ids(ReorderFavorites(sb, from, to).favorites) == Ids(moved);
    IdsOfMove(sb.favorites, from, to);
  }

  /** Taking ids commutes with moving an element. */
  lemma IdsOfMove(s: seq<Favorite>, from: nat, to: nat)
    requires from < |s| && to < |s|
    ensures Ids(MoveElement(s, from, to)) == MoveElement(Ids(s), from, to)
  {
    var m, mi := MoveElement(s, from, to), MoveElement(Ids(s), from, to);
    forall k | 0 <= k < |s| ensures Ids(m)[k] == mi[k] {
      if k < to {
        assert m[k] == RemoveAt(m, to)[k] && mi[k] == RemoveAt(mi, to)[k];
      } else if k > to {
        assert m[k] == RemoveAt(m, to)[k - 1] && mi[k] == RemoveAt(mi, to)[k - 1];
      }
    }
  }

  function FirstIndexOfId(s: seq<Favorite>, id: nat): (r: Option<nat>)
    ensures r.Some? ==> r.value < |s| && s[r.value].id == id && forall k :: 0 <= k < r.value ==> s[k].id != id
    ensures r.None? <==> forall k :: 0 <= k < |s| ==> s[k].id != id
  {
    if |s| == 0 then None
    else if s[0].id == id then Some(0)
    else match FirstIndexOfId(s[1..], id)
      case None => None
      case Some(i) => Some(i + 1)
  }

  /** `updateFavoriteIcon(id:icon:)`: only the icon of the first favourite
      with that id changes. */
  function UpdateFavoriteIcon(sb: SidebarState, id: nat, icon: string): (r: SidebarState)
    ensures FirstIndexOfId(sb.favorites, id).None? ==> r == sb
    ensures FirstIndexOfId(sb.favorites, id).Some? ==>
      var k := FirstIndexOfId(sb.favorites, id).value;
      && |r.favorites| == |sb.favorites|
      && r.favorites[k] == sb.favorites[k].(icon := icon)
      && forall i :: 0 <= i < |sb.favorites| && i != k ==> r.favorites[i] == sb.favorites[i]
    ensures r.recents == sb.recents && r.colorTags == sb.colorTags
  {
    match FirstIndexOfId(sb.favorites, id)
    case None => sb
    case Some(k) => sb.(favorites := sb.favorites[k := sb.favorites[k].(icon := icon)])
  }

  /** `isFavorite(_:)`. */
  function IsFavorite(sb: SidebarState, path: Path): (r: bool)
    ensures r <==> exists k :: 0 <= k < |sb.favorites| && sb.favorites[k].path == path
  {
    exists k :: 0 <= k < |sb.favorites| && sb.favorites[k].path == path
  }

  lemma AddedPathIsFavorite(sb: SidebarState, path: Path, name: Option<string>, icon: string, id: nat)
    ensures IsFavorite(AddFavorite(sb, path, name, icon, id), path)
  {
    assert AddFavorite(sb, path, name, icon, id).favorites[|sb.favorites|].path == path;
  }

  // ---------------------------------------------------------------------
  // Recent locations

  /** `recentLocations.removeAll { $0 == path }`. */
  function WithoutPath(s: seq<Path>, p: Path): (r: seq<Path>)
    ensures |r| <= |s|
    ensures forall q :: q in r <==> q in s && q != p
    ensures p !in s ==> r == s
  {
    if |s| == 0 then []
    else (if s[0] == p then [] else [s[0]]) + WithoutPath(s[1..], p)
  }

  /** `addRecentLocation(_:)`: the path moves to the front, appears once,
      and the list is cut to its first ten entries. */
  function AddRecentLocation(sb: SidebarState, p: Path): (r: SidebarState)
    ensures |r.recents| > 0 && r.recents[0] == p && p !in r.recents[1..]
    ensures |r.recents| <= MaxRecentLocations
    ensures |r.recents| == if |WithoutPath(sb.recents, p)| + 1 <= MaxRecentLocations
                           then |WithoutPath(sb.recents, p)| + 1 else MaxRecentLocations
    ensures r.recents[1..] == WithoutPath(sb.recents, p)[..|r.recents| - 1]
    ensures r.favorites == sb.favorites && r.colorTags == sb.colorTags
  {
    var front := [p] + WithoutPath(sb.recents, p);
    var capped := if |front| > MaxRecentLocations then front[..MaxRecentLocations] else front;
    assert capped[1..] == WithoutPath(sb.recents, p)[..|capped| - 1];
    sb.(recents := capped)
  }

  lemma WithoutPathTwice(s: seq<Path>, p: Path)
    ensures WithoutPath(WithoutPath(s, p), p) == WithoutPath(s, p)
  {
  }

  /** Revisiting the most recent location changes nothing. */
  lemma AddRecentLocationIdempotent(sb: SidebarState, p: Path)
    ensures AddRecentLocation(AddRecentLocation(sb, p), p) == AddRecentLocation(sb, p)
  {
    var once := AddRecentLocation(sb, p);
    var rest := once.recents[1..];
    assert once.recents == [p] + rest;
    WithoutPathAfterFront(p, rest);
  }

  lemma WithoutPathAfterFront(p: Path, rest: seq<Path>)
    requires p !in rest
    ensures WithoutPath([p] + rest, p) == rest
  {
    assert ([p] + rest)[1..] == rest;
  }

  /** `reorderRecents(from:to:)`. */
  function ReorderRecents(sb: SidebarState, from: int, to: int): (r: SidebarState)
    ensures !CanReorder(|sb.recents|, from, to) ==> r == sb
    ensures CanReorder(|sb.recents|, from, to) ==>
      && |r.recents| == |sb.recents|
      && r.recents[to] == sb.recents[from]
      && RemoveAt(r.recents, to) == RemoveAt(sb.recents, from)
      && multiset(r.recents) == multiset(sb.recents)
    ensures r.favorites == sb.favorites && r.colorTags == sb.colorTags
  {
    if !CanReorder(|sb.recents|, from, to) then sb
    else sb.(recents := MoveElement(sb.recents, from, to))
  }

  // ---------------------------------------------------------------------
  // Colour tags

  /** `setColorTag(for:tag:)`: a tag is stored, `nil` removes the key. */
  function SetColorTag(sb: SidebarState, p: Path, tag: Option<ColorTag>): (r: SidebarState)
    ensures tag.None? ==> p !in r.colorTags
    ensures tag.Some? ==> p in r.colorTags && r.colorTags[p] == tag.value
    ensures forall q :: q != p ==> (q in r.colorTags <==> q in sb.colorTags)
    ensures forall q :: q != p && q in sb.colorTags ==> r.colorTags[q] == sb.colorTags[q]
    ensures r.favorites == sb.favorites && r.recents == sb.recents
  {
    match tag
    case Some(t) => sb.(colorTags := sb.colorTags[p := t])
    case None => sb.(colorTags := sb.colorTags - {p})
  }

  /** `getColorTag(for:)`. */
  function GetColorTag(sb: SidebarState, p: Path): (r: Option<ColorTag>)
    ensures r.Some? <==> p in sb.colorTags
    ensures r.Some? ==> r.value == sb.colorTags[p]
  {
    if p in sb.colorTags then Some(sb.colorTags[p]) else None
  }

  /** Reading a tag returns what was last set for that path, and setting one
      path leaves every other path's tag as it was. */
  lemma GetAfterSet(sb: SidebarState, p: Path, q: Path, tag: Option<ColorTag>)
    ensures GetColorTag(SetColorTag(sb, p, tag), p) == tag
    ensures q != p ==> GetColorTag(SetColorTag(sb, p, tag), q) == GetColorTag(sb, q)
  {
  }
}

=== FILE: sorting.dfy ===
/** The sort engine: a stable insertion sort of any sequence by a key into the
    lexicographic order of code sequences, and sequence reversal. Every
    ordering the application uses (Finder order, the four view-mode fields,
    volume names) is expressed as such a key. */
module Sorting {
  import opened Text

  /** Non-decreasing under `key`. */
  ghost predicate SortedBy<T>(s: seq<T>, key: T -> seq<int>)
  {
    forall i, j :: 0 <= i < j < |s| ==> LexLe(key(s[i]), key(s[j]))
  }

  /** Non-increasing under `key`. */
  ghost predicate SortedDescendingBy<T>(s: seq<T>, key: T -> seq<int>)
  {
    forall i, j :: 0 <= i < j < |s| ==> LexLe(key(s[j]), key(s[i]))
  }

  /** Every element of `s` has a key at least `lo`. */
  ghost predicate BoundedBelow<T>(lo: seq<int>, s: seq<T>, key: T -> seq<int>)
  {
    forall j :: 0 <= j < |s| ==> LexLe(lo, key(s[j]))
  }

  lemma BoundTransfers<T>(lo: seq<int>, s: seq<T>, t: seq<T>, key: T -> seq<int>)
    requires BoundedBelow(lo, s, key)
    requires multiset(t) <= multiset(s)
    ensures BoundedBelow(lo, t, key)
  {
    forall j | 0 <= j < |t| ensures LexLe(lo, key(t[j])) {
      assert t[j] in multiset(t);
      assert t[j] in multiset(s);
      var k :| 0 <= k < |s| && s[k] == t[j];
    }
  }

  lemma PrependSorted<T>(h: T, s: seq<T>, key: T -> seq<int>)
    requires SortedBy(s, key) && BoundedBelow(key(h), s, key)
    ensures SortedBy([h] + s, key)
  {
    var r := [h] + s;
    forall i, j | 0 <= i < j < |r| ensures LexLe(key(r[i]), key(r[j])) {
      if i > 0 {
        assert r[i] == s[i - 1] && r[j] == s[j - 1];
      } else {
        assert r[j] == s[j - 1];
      }
    }
  }

  /** In a sorted sequence the first key bounds all the others. */
  lemma HeadBounds<T>(lo: seq<int>, s: seq<T>, key: T -> seq<int>)
    requires SortedBy(s, key) && |s| > 0 && LexLe(lo, key(s[0]))
    ensures BoundedBelow(lo, s, key)
  {
    forall j | 0 <= j < |s| ensures LexLe(lo, key(s[j])) {
      if j > 0 {
        LexLeTransitive(lo, key(s[0]), key(s[j]));
      }
    }
  }

  function Insert<T>(x: T, s: seq<T>, key: T -> seq<int>): (r: seq<T>)
    requires SortedBy(s, key)
    ensures multiset(r) == multiset(s) + multiset{x}
    ensures SortedBy(r, key)
  {
    if |s| == 0 then [x]
    else if LexLe(key(x), key(s[0])) then
      HeadBounds(key(x), s, key);
      PrependSorted(x, s, key);
      [x] + s
    else
      assert s == [s[0]] + s[1..];
      var rest := Insert(x, s[1..], key);
      LexLeTotal(key(x), key(s[0]));
      LexLessIrreflexive(key(s[0]));
      HeadBounds(key(s[0]), s, key);
      assert BoundedBelow(key(s[0]), s + [x], key);
      assert multiset(s + [x]) == multiset(s) + multiset{x};
      BoundTransfers(key(s[0]), s + [x], rest, key);
      PrependSorted(s[0], rest, key);
      [s[0]] + rest
  }

  /** Sorts `s` ascending by `key`; elements with equal keys keep their order. */
  function SortBy<T>(s: seq<T>, key: T -> seq<int>): (r: seq<T>)
    ensures multiset(r) == multiset(s)
    ensures SortedBy(r, key)
  {
    if |s| == 0 then []
    else
      assert s == [s[0]] + s[1..];
      Insert(s[0], SortBy(s[1..], key), key)
  }

  function Reverse<T>(s: seq<T>): (r: seq<T>)
    ensures |r| == |s|
    ensures forall i :: 0 <= i < |s| ==> r[i] == s[|s| - 1 - i]
  {
    if |s| == 0 then [] else Reverse(s[1..]) + [s[0]]
  }

  lemma {:induction false} ReverseIsPermutation<T>(s: seq<T>)
    ensures multiset(Reverse(s)) == multiset(s)
  {
    if |s| > 0 {
      assert s == [s[0]] + s[1..];
      ReverseIsPermutation(s[1..]);
    }
  }

  lemma ReverseInvolution<T>(s: seq<T>)
    ensures Reverse(Reverse(s)) == s
  {
  }

  /** Reversing an ascending sequence gives a descending one. */
  lemma ReverseOfSorted<T>(s: seq<T>, key: T -> seq<int>)
    requires SortedBy(s, key)
    ensures SortedDescendingBy(Reverse(s), key)
  {
    var r := Reverse(s);
    forall i, j | 0 <= i < j < |r| ensures LexLe(key(r[j]), key(r[i])) {
      assert r[j] == s[|s| - 1 - j] && r[i] == s[|s| - 1 - i];
    }
  }
}

=== FILE: text.dfy ===
/** Character and string helpers: ASCII case folding (the model's stand-in for
    locale-aware case-insensitive collation), lexicographic order on code
    sequences, substring search and decimal rendering of naturals. */
module Text {

  /** Lower-cases ASCII letters and leaves every other character alone. */
  function LowerChar(c: char): (r: char)
    ensures 'A' <= c <= 'Z' ==> r as int == c as int + 32
    ensures !('A' <= c <= 'Z') ==> r == c
  {
    if 'A' <= c <= 'Z' then (c as int + 32) as char else c
  }

  function Lower(s: string): (r: string)
    ensures |r| == |s|
    ensures forall i :: 0 <= i < |s| ==> r[i] == LowerChar(s[i])
  {
    if |s| == 0 then [] else [LowerChar(s[0])] + Lower(s[1..])
  }

  lemma LowerIdempotent(s: string)
    ensures Lower(Lower(s)) == Lower(s)
  {
  }

  /** The character codes of a string, the common currency of every ordering. */
  function Codes(s: string): (r: seq<int>)
    ensures |r| == |s|
    ensures forall i :: 0 <= i < |s| ==> r[i] == s[i] as int
  {
    if |s| == 0 then [] else [s[0] as int] + Codes(s[1..])
  }

  lemma CodesInjective(a: string, b: string)
    requires Codes(a) == Codes(b)
    ensures a == b
  {
    assert |a| == |b|;
    forall i | 0 <= i < |a| ensures a[i] == b[i] {
      assert Codes(a)[i] == Codes(b)[i];
    }
  }

  // ---------------------------------------------------------------------
  // Lexicographic order on integer sequences

  /** Strict lexicographic order: a proper prefix comes first, otherwise the
      first differing position decides. */
  predicate LexLess(a: seq<int>, b: seq<int>)
  {
    if |b| == 0 then false
    else if |a| == 0 then true
    else if a[0] != b[0] then a[0] < b[0]
    else LexLess(a[1..], b[1..])
  }

  predicate LexLe(a: seq<int>, b: seq<int>)
  {
    !LexLess(b, a)
  }

  lemma {:induction false} LexLessIrreflexive(a: seq<int>)
    ensures !LexLess(a, a)
  {
    if |a| > 0 {
      LexLessIrreflexive(a[1..]);
    }
  }

  lemma {:induction false} LexLessTransitive(a: seq<int>, b: seq<int>, c: seq<int>)
    requires LexLess(a, b) && LexLess(b, c)
    ensures LexLess(a, c)
  {
    if |a| > 0 && a[0] == b[0] && b[0] == c[0] {
      LexLessTransitive(a[1..], b[1..], c[1..]);
    }
  }

  /** Any two code sequences are equal or ordered one way or the other. */
  lemma {:induction false} LexTrichotomy(a: seq<int>, b: seq<int>)
    ensures a == b || LexLess(a, b) || LexLess(b, a)
  {
    if |a| > 0 && |b| > 0 && a[0] == b[0] {
      LexTrichotomy(a[1..], b[1..]);
      if a[1..] == b[1..] {
        assert a == [a[0]] + a[1..] && b == [b[0]] + b[1..];
      }
    }
  }

  lemma {:induction false} LexLessAsymmetric(a: seq<int>, b: seq<int>)
    requires LexLess(a, b)
    ensures !LexLess(b, a)
  {
    if LexLess(b, a) {
      LexLessTransitive(a, b, a);
      LexLessIrreflexive(a);
    }
  }

  lemma LexLeTotal(a: seq<int>, b: seq<int>)
    ensures LexLe(a, b) || LexLe(b, a)
  {
    if LexLess(a, b) {
      LexLessAsymmetric(a, b);
    }
  }

  lemma LexLeTransitive(a: seq<int>, b: seq<int>, c: seq<int>)
    requires LexLe(a, b) && LexLe(b, c)
    ensures LexLe(a, c)
  {
    if LexLess(c, a) {
      LexTrichotomy(a, b);
      if a == b {
      } else if LexLess(a, b) {
        LexLessTransitive(c, a, b);
      } else {
      }
    }
  }

  /** ASCII stand-in for `localizedCaseInsensitiveCompare(..) == .orderedAscending`. */
  predicate CaseInsensitiveLess(a: string, b: string)
  {
    LexLess(Codes(Lower(a)), Codes(Lower(b)))
  }

  // ---------------------------------------------------------------------
  // Prefixes and substrings

  predicate HasPrefix(s: string, p: string)
  {
    |p| <= |s| && s[..|p|] == p
  }

  /** `s` contains `q` at some offset (the empty string occurs everywhere). */
  predicate Occurs(s: string, q: string)
  {
    HasPrefix(s, q) || (|s| > 0 && Occurs(s[1..], q))
  }

  predicate OccursAt(s: string, q: string, i: int)
  {
    0 <= i && i + |q| <= |s| && s[i..i + |q|] == q
  }

  /** `Occurs` is the usual "some slice equals the query". */
  lemma {:induction false} OccursIsSlice(s: string, q: string)
    ensures Occurs(s, q) <==> exists i :: OccursAt(s, q, i)
  {
    if HasPrefix(s, q) {
      assert OccursAt(s, q, 0);
    }
    if |s| > 0 {
      OccursIsSlice(s[1..], q);
      if exists i :: OccursAt(s[1..], q, i) {
        var i :| OccursAt(s[1..], q, i);
        assert s[i + 1..i + 1 + |q|] == q;
        assert OccursAt(s, q, i + 1);
      }
      if exists i :: OccursAt(s, q, i) {
        var i :| OccursAt(s, q, i);
        if i > 0 {
          assert s[1..][i - 1..i - 1 + |q|] == q;
          assert OccursAt(s[1..], q, i - 1);
        }
      }
    } else {
      if exists i :: OccursAt(s, q, i) {
        var i :| OccursAt(s, q, i);
        assert i == 0;
      }
    }
  }

  /** The ASCII stand-in for Foundation's `localizedCaseInsensitiveContains`:
      an empty query is contained nowhere, as Foundation's range search for
      an empty string finds no range. */
  predicate CaseInsensitiveContains(s: string, q: string)
  {
    |q| > 0 && Occurs(Lower(s), Lower(q))
  }

  // ---------------------------------------------------------------------
  // Decimal rendering of naturals (Swift string interpolation of an Int)

  predicate IsDigit(c: char)
  {
    '0' <= c <= '9'
  }

  function DigitChar(d: nat): (c: char)
    requires d < 10
    ensures IsDigit(c) && c as int - '0' as int == d
  {
    ('0' as int + d) as char
  }

  function DigitValue(c: char): nat
    requires IsDigit(c)
  {
    c as int - '0' as int
  }

  function NatToString(n: nat): (s: string)
    ensures |s| > 0
    ensures forall i :: 0 <= i < |s| ==> IsDigit(s[i])
    decreases n
  {
    if n < 10 then [DigitChar(n)] else NatToString(n / 10) + [DigitChar(n % 10)]
  }

  function ParseDecimal(s: string): nat
    requires forall i :: 0 <= i < |s| ==> IsDigit(s[i])
  {
    if |s| == 0 then 0
    else ParseDecimal(s[..|s| - 1]) * 10 + DigitValue(s[|s| - 1])
  }

  lemma {:induction false} ParseNatToString(n: nat)
    ensures ParseDecimal(NatToString(n)) == n
    decreases n
  {
    if n >= 10 {
      var s := NatToString(n);
      assert s[..|s| - 1] == NatToString(n / 10);
      ParseNatToString(n / 10);
    }
  }

  lemma NatToStringInjective(a: nat, b: nat)
    requires NatToString(a) == NatToString(b)
    ensures a == b
  {
    ParseNatToString(a);
    ParseNatToString(b);
  }
}

=== FILE: viewmode.dfy ===
/** View preferences of a browser window: display mode, icon size, sort field
    and sort direction. */
module ViewModes {

  datatype DisplayMode = IconGrid | List

  datatype SortOption = Name | DateModified | Size | Type

  datatype SortOrder = Ascending | Descending

  datatype ViewMode = ViewMode(id: nat, mode: DisplayMode, iconSize: int, sortBy: SortOption, sortOrder: SortOrder)

  /** `ViewMode.default`; `id` stands for the UUID drawn at start-up. */
  function Default(id: nat): (v: ViewMode)
    ensures v.id == id
    ensures v.mode == IconGrid && v.iconSize == 64
    ensures v.sortBy == DateModified && v.sortOrder == Descending
  {
    ViewMode(id, IconGrid, 64, DateModified, Descending)
  }

  /** The direction toggle: always a change, and undone by a second toggle. */
  function FlipOrder(o: SortOrder): (r: SortOrder)
    ensures r != o
    ensures r.Ascending? <==> o.Descending?
  {
    if o == Ascending then Descending else Ascending
  }

  lemma FlipOrderInvolution(o: SortOrder)
    ensures FlipOrder(FlipOrder(o)) == o
  {
  }

  /** The display-mode toggle between grid and list. */
  function FlipMode(m: DisplayMode): (r: DisplayMode)
    ensures r != m
    ensures r.IconGrid? <==> m.List?
  {
    if m == IconGrid then List else IconGrid
  }
}

=== FILE: volumes.dfy ===
/** The volume list of `VolumeManager.loadMountedVolumes`: external volumes
    are kept, named and sorted by name. Mount notifications and ejecting are
    not part of this model. */
module Volumes {
  import opened Wrappers
  import opened Text
  import opened Paths
  import opened Sorting

  /** The resource values read for a volume; `None` where a value is absent. */
  datatype VolumeValues = VolumeValues(
    name: Option<string>,
    localizedName: Option<string>,
    isRemovable: Option<bool>,
    isEjectable: Option<bool>,
    isInternal: Option<bool>,
    isLocal: Option<bool>,
    isRootFileSystem: Option<bool>)

  /** A mounted volume URL with its resource values, `None` when reading
      them throws. */
  datatype Mounted = Mounted(url: Path, values: Option<VolumeValues>)

  datatype VolumeInfo = VolumeInfo(url: Path, name: string, isRemovable: bool, isEjectable: bool)

  /** The filter: never the root file system (absent means it is not), never
      a non-local volume (absent means local), and otherwise only removable,
      ejectable or external volumes (absent means not removable, not
      ejectable, internal). */
  predicate Shown(v: VolumeValues)
  {
    && !v.isRootFileSystem.GetOr(false)
    && v.isLocal.GetOr(true)
    && (v.isRemovable.GetOr(false) || v.isEjectable.GetOr(false) || !v.isInternal.GetOr(true))
  }

  /** The filter's consequences for each flag and its default. */
  lemma ShownRules(v: VolumeValues)
    ensures v.isRootFileSystem == Some(true) ==> !Shown(v)
    ensures v.isLocal == Some(false) ==> !Shown(v)
    ensures (!v.isRemovable.GetOr(false) && !v.isEjectable.GetOr(false) && v.isInternal != Some(false)) ==> !Shown(v)
    ensures v.isRootFileSystem != Some(true) && v.isLocal != Some(false) ==>
      (Shown(v) <==> v.isRemovable == Some(true) || v.isEjectable == Some(true) || v.isInternal == Some(false))
  {
  }

  /** Localized name, else name, else the URL's last component. */
  function DisplayName(url: Path, v: VolumeValues): (r: string)
    ensures v.localizedName.Some? ==> r == v.localizedName.value
    ensures v.localizedName.None? && v.name.Some? ==> r == v.name.value
    ensures v.localizedName.None? && v.name.None? ==> r == LastComponent(url)
  {
    v.localizedName.GetOr(v.name.GetOr(LastComponent(url)))
  }

  function InfoOf(url: Path, v: VolumeValues): VolumeInfo
  {
    VolumeInfo(url, DisplayName(url, v), v.isRemovable.GetOr(false), v.isEjectable.GetOr(false))
  }

  /** Whether mounted volume `m` yields an entry, and which. */
  function Listed(m: Mounted): Option<VolumeInfo>
  {
    if m.values.Some? && Shown(m.values.value) then Some(InfoOf(m.url, m.values.value)) else None
  }

  /** The loop: a volume whose values cannot be read is skipped, the others
      are filtered, in mount order. */
  function CollectVolumes(ms: seq<Mounted>): (r: seq<VolumeInfo>)
    ensures |r| <= |ms|
    ensures forall x :: x in r <==> exists k :: 0 <= k < |ms| && Listed(ms[k]) == Some(x)
  {
    if |ms| == 0 then []
    else
      var rest := CollectVolumes(ms[1..]);
      assert forall k :: 1 <= k < |ms| ==> ms[k] == ms[1..][k - 1];
      assert forall k :: 0 <= k < |ms[1..]| ==> ms[1..][k] == ms[k + 1];
      match Listed(ms[0])
      case Some(v) => [v] + rest
      case None => rest
  }

  function NameKey(v: VolumeInfo): seq<int>
  {
    Codes(v.name)
  }

  /** `loadMountedVolumes()`: no URL list gives no volumes; otherwise the
      kept volumes sorted by name in code-point order. */
  function LoadMountedVolumes(urls: Option<seq<Mounted>>): (r: seq<VolumeInfo>)
    ensures urls.None? ==> r == []
    ensures urls.Some? ==> multiset(r) == multiset(CollectVolumes(urls.value))
    ensures forall i, j :: 0 <= i < j < |r| ==> !LexLess(Codes(r[j].name), Codes(r[i].name))
  {
    match urls
    case None => []
    case Some(ms) => SortBy(CollectVolumes(ms), NameKey)
  }

  /** The sorted list holds the same volumes as the collected one. */
  lemma LoadedAreCollected(ms: seq<Mounted>, x: VolumeInfo)
    ensures x in LoadMountedVolumes(Some(ms)) <==> x in CollectVolumes(ms)
  {
    var r, col := LoadMountedVolumes(Some(ms)), CollectVolumes(ms);
    assert x in r <==> x in multiset(r);
    assert x in col <==> x in multiset(col);
  }

  /** With distinct mount URLs, a volume is listed exactly when its values
      can be read and pass the filter; one that fails does not disturb the
      others. */
  lemma ListedIffShown(ms: seq<Mounted>, k: int)
    requires 0 <= k < |ms|
    requires forall a, b :: 0 <= a < b < |ms| ==> ms[a].url != ms[b].url
    ensures (exists x :: x in LoadMountedVolumes(Some(ms)) && x.url == ms[k].url)
      <==> ms[k].values.Some? && Shown(ms[k].values.value)
  {
    if ms[k].values.Some? && Shown(ms[k].values.value) {
      var x := Listed(ms[k]).value;
      LoadedAreCollected(ms, x);
      assert x in LoadMountedVolumes(Some(ms)) && x.url == ms[k].url;
    }
    if x :| x in LoadMountedVolumes(Some(ms)) && x.url == ms[k].url {
      LoadedAreCollected(ms, x);
      var j :| 0 <= j < |ms| && Listed(ms[j]) == Some(x);
      assert ms[j].url == x.url;
      assert j == k;
    }
  }
}

=== FILE: wrappers.dfy ===
/** Failure-carrying results shared by every module of the model.
    `Option` stands for a Swift optional, `Result` for a throwing call. */
module Wrappers {

  datatype Option<+T> = None | Some(value: T) {
    function GetOr(default: T): T {
      match this
      case Some(v) => v
      case None => default
    }
  }

  datatype Result<+T, +E> = Ok(value: T) | Err(error: E)
}
